=== FILE: README.md ===
# CloudFormation architect MCP server: a Dafny model of its core

This project models, in Dafny, the deterministic core of an MCP server. The server builds AWS CloudFormation templates
with Amazon Bedrock and provisions them. It also models the three AgentCore callers that reach the server over HTTPS.

The server side (`mcp_server.py`) covers:

- **Template pipeline.** A template is rewritten in three stages before provisioning:
  - Normalisation (`Normalize`, `TemplateRules`, `LineFilter`) fixes keys CloudFormation rejects. It also gives
    every S3 bucket a name built from the `BucketNameSuffix` parameter.
  - CloudFront removal (`CloudFront`) drops every `AWS::CloudFront::*` resource, the outputs that refer to one,
    and the `DependsOn` entries that name one.
  - Bucket-name stripping (`BucketNames`) removes every explicit `BucketName`, so CloudFormation names the bucket.
    It works on the parsed document and then line by line.
- **Converse calls.** `Converse` covers the Bedrock Converse request, the retry schedule on throttling, and how
  text and reasoning are read out of the answer.
- **Template choice.** `Classify` covers the keyword classifiers and the order in which `build_cfn_template` tries
  canned templates.
- **Settings.** `CrossAccount` covers the cross-account role ARN. `Validation` covers the text normalisation done
  before validation.
- **`provision_cfn_stack`.** `Provision` and `StackParams` cover:
  - the read-only switch;
  - the stack-name shortening;
  - refusing templates that create VPC resources;
  - assembling the parameter list: caller parameters, default-VPC filling, unique suffixes on create, and the
    final filter;
  - the create or update call.

The AgentCore callers are modelled in four modules:

- `AgentCore`: what the three callers share. This is the percent-encoded runtime URL, the JSON-RPC `tools/call`
  body, and reading a server-sent-events answer. Each caller reads that answer in its own way, captured by a
  `Framing` value.
- `WebSocket` (`deploy/lambda_websocket/handler.py`): the WebSocket Lambda. It covers the routes, the messages it
  sends on a connection, and its status codes.
- `Backend` (`deploy/lambda_backend/handler.py`): the HTTP proxy Lambda.
- `LambdaCallScript` (`test_lambda_call.py`): the script that imitates the WebSocket Lambda.

Python values are a `Json` datatype whose objects are ordered association lists, because dict order matters to
the source. A raised exception is `Try.Raises` (or `Reply.Raised`), caught where the source catches it. Things
the code does not compute itself become parameters:

- JSON/YAML parse and dump (a `Codec`);
- the HTTPS call;
- the clock;
- `describe_stacks`;
- the default-VPC lookup.

One behaviour of the parameter assembly is modelled as written: when the template's parameter keys could not be
read and a unique suffix is injected, the key set becomes just the suffix names. The final filter then drops every
other caller parameter (mcp_server.py:1491, 1500 and 1508). `Provision.AssembledKeepsCaller` therefore only
promises a caller's entry when its key is declared, or when the key set stays empty.

## Model

| member | source | states |
|---|---|---|
| CrossAccount.Setting | mcp_server.py:33-35 | A setting is absent exactly when the variable is unset or blank; a present setting is non-empty and carries no surrounding whitespace |
| CrossAccount.CrossAccountRoleArn | mcp_server.py:41-47 | A configured role ARN wins; otherwise an ARN exists exactly when both account id and role name are set, it has the IAM role prefix, and the account id and role name can be read back out of it |
| CrossAccount.RoleArnParts | mcp_server.py:46 | The composed role ARN starts with the IAM prefix and, for an account id without a colon, splits back into that account id and role name |
| Validation.ExpandTabs | mcp_server.py:1155-1156 | The result has no tab, text without tabs is unchanged, and the first and last non-tab characters stay in place |
| Validation.ExpandTabsIsReplace | mcp_server.py:1155-1156 | Tab expansion is the same as replacing every tab by two spaces |
| Validation.NormalizeForValidation | mcp_server.py:1148-1157 | `None` gives the empty text and a dict gives its JSON dump. Any other value gives its text (a string as it is, anything else through `str`) stripped of surrounding whitespace, with every tab replaced by two spaces |
| Validation.NormalizeIdempotent | mcp_server.py:1148-1157 | Normalising an already normalised text returns it unchanged |
| Validation.CleanTextUnchanged | mcp_server.py:1154-1157 | A stripped text without tabs passes through unchanged |
| Converse.BuildRequest | mcp_server.py:555-580 | With thinking on: no temperature or topP, and a thinking budget of at least 1024 and at least the requested one, equal to one of them. With thinking off: temperature defaults to 0.2, topP only when no temperature was given, top-k exactly when given. The system prompt comes first, with a cache point exactly for TTL `5m` or `1h`. Latency optimisation is on exactly when the flag lower-cases to `true` |
| Converse.WaitIncreasing | mcp_server.py:587 | The back-off wait strictly increases with the attempt number |
| Converse.RetryFrom | mcp_server.py:568-591 | No call is made exactly when no attempt is left; otherwise at most the remaining attempts are used, with one wait between each pair of calls |
| Converse.RetrySchedule | mcp_server.py:583-588 | Every retried call failed with a throttling error and is followed by the back-off wait for its attempt |
| Converse.RetryEnding | mcp_server.py:575-591 | An answer is the last call's response; a raised error is the last call's error and is either not a throttle or came on the last allowed attempt |
| Converse.ConverseWithRetry | mcp_server.py:568-591 | The loop computes the retry trace from attempt 0 and never calls more than `max_retries` times (none when that is not positive) |
| Converse.NoRetryWithoutThrottle | mcp_server.py:583-591 | When no failure is a throttle, at most one call is made |
| Converse.AlwaysThrottled | mcp_server.py:583-591 | When every call is throttled, exactly `max_retries` calls are made and the last error is raised |
| Converse.ThinkingValue | mcp_server.py:515-525 | A string is returned as is, a value that is neither string nor dict gives the empty text, and any other non-string result is the `text` of the dict's reasoning entry |
| Converse.Reasoning | mcp_server.py:520 | `reasoningText` when present and truthy, `reasoningContent` otherwise |
| Converse.TextOf | mcp_server.py:537-538 | A block yields at most one text piece: its `text` value exactly when it is a dict holding one |
| Converse.JoinText | mcp_server.py:544 | Joining raises exactly when some piece is not a string |
| Converse.ContentBlocks | mcp_server.py:531 | A response that is not a dict raises |
| Converse.JoinTextAppend | mcp_server.py:544 | Joining a concatenation succeeds exactly when both parts join, and gives the concatenated text |
| Converse.BlocksContentAppend | mcp_server.py:534-544 | Text and thinking of a concatenated block list are the concatenations of the parts' text and thinking; it succeeds exactly when both parts do |
| Converse.TextBlockContent | mcp_server.py:537-538 | A lone text block contributes its text and no thinking |
| Converse.ThinkingBlockContent | mcp_server.py:540-541 | A lone thinking block contributes its reasoning and no text |
| Converse.SkippedBlock | mcp_server.py:535-536 | A block that is not a dict contributes nothing |
| Converse.ExtractContent | mcp_server.py:528-544 | A response that is not a dict raises; a dict without `output` gives empty text and thinking |
| Converse.ExtractText | mcp_server.py:509-512 | Text extraction succeeds exactly when content extraction does, and returns its text |
| Converse.ExtractBlocks | mcp_server.py:528-544 | The content of an assistant answer is the content of its blocks |
| Converse.ExtractTextAnswer | mcp_server.py:509-544 | An answer with one text block yields exactly that text |
| Classify.Reduce | mcp_server.py:713-721 | A phrase list may be cut down to phrases every listed phrase starts with, without changing which texts match |
| Classify.ThreeTierCore | mcp_server.py:713-721 | The three-tier classifier matches exactly the non-empty prompts that mention `3-tier`, `three tier`, `three-tier` or `3 tier` |
| Classify.MicroservicesCore | mcp_server.py:744-759 | The microservices classifier matches exactly the non-empty prompts that mention `microservices`, `micro-service` or `micro service` |
| Classify.ServerlessRestCore | mcp_server.py:762-776 | The serverless-REST classifier matches exactly the non-empty prompts that mention `serverless rest`, `serverless api` or `serverless architecture` |
| Classify.DataPipelineCore | mcp_server.py:779-796 | The data-pipeline classifier matches exactly the non-empty prompts that mention one of its seven phrases |
| Classify.LoadTemplate | mcp_server.py:799-816 | An unreadable file gives the empty text; JSON is returned only when asked for and the conversion succeeds; otherwise the YAML text comes back |
| Classify.FirstLoaded | mcp_server.py:840-900 | A canned answer is a candidate file whose load is non-empty; generation happens exactly when every candidate loads empty |
| Classify.FirstLoadedAppend | mcp_server.py:840-900 | Trying two candidate lists in turn is the first list's answer when it has one, else the second's |
| Classify.ChooseByIsFirstLoaded | mcp_server.py:840-900 | The chain of button, three-tier, microservices, serverless-REST and data-pipeline steps picks the first candidate, in that order, that loads non-empty |
| Classify.ChooseIsFirstLoaded | mcp_server.py:840-900 | The template chosen for a prompt and button is the first loadable file among the button's file and the files of the matching classifiers |
| Classify.GeneratedIffNothingLoads | mcp_server.py:840-900 | The model is asked to generate exactly when none of the candidate files loads |
| Classify.ChooseSource | mcp_server.py:840-900 | A canned answer is the non-empty load of the file it names |
| TemplateRules.RenameFirst | mcp_server.py:208-212 | A rename happens exactly when some key matches; then only the first matching key moves to the target, keeping its value, and every other key is untouched |
| TemplateRules.DropCooldowns | mcp_server.py:213-218 | A dict TargetTrackingConfiguration loses both cooldown keys and keeps every other key; the change flag says whether one was there; otherwise nothing changes |
| TemplateRules.FixScalingPolicy | mcp_server.py:206-218 | A scaling policy gets the warm-up rename and then the cooldown removal, changed when either step changed something |
| TemplateRules.FixStage | mcp_server.py:219-223 | An API Gateway stage loses `LoggingLevel` and `DataTraceEnabled`, keeps every other key, and is changed exactly when one was present |
| TemplateRules.FixForeignStage | mcp_server.py:220-223 | Truthy non-dict stage properties pass exactly when they hold neither key (substring for text, element for a list) and raise otherwise |
| TemplateRules.FixOrigin | mcp_server.py:235-249 | A cache behaviour loses `OriginId`; its value becomes `TargetOriginId` only when none was set; other keys are kept; changed exactly when `OriginId` was present |
| TemplateRules.FixBehaviorList | mcp_server.py:243-249 | Every dict behaviour in the list loses `OriginId`, non-dicts stay, the length is kept, and the flag says whether any had one |
| TemplateRules.LiftTags | mcp_server.py:227-231 | Distribution tags become resource tags only when the resource has none and the tags are not null; other keys are kept |
| TemplateRules.ScrubConfig | mcp_server.py:226-234 | DistributionConfig loses `Tags` and `ViewerProtocolPolicy` and keeps every other key |
| TemplateRules.FixDefaultBehavior | mcp_server.py:235-242 | A dict default cache behaviour ends without `OriginId`, changed exactly when it had one; anything else is left alone |
| TemplateRules.FixCacheBehaviors | mcp_server.py:243-249 | Iterating the cache behaviours raises exactly on a truthy number or boolean; a list keeps its length and loses every `OriginId` |
| TemplateRules.FixBehaviors | mcp_server.py:235-249 | Both kinds of cache behaviour lose `OriginId`; every other DistributionConfig key is kept |
| TemplateRules.FixDistributionConfig | mcp_server.py:225-249 | The fixed DistributionConfig is a dict without `Tags` or `ViewerProtocolPolicy`, and resource-level tags already present win |
| TemplateRules.FixDistribution | mcp_server.py:224-249 | Only a dict DistributionConfig is rewritten; anything else is left unchanged |
| TemplateRules.FirstTaggedSpec | mcp_server.py:253-258 | Finds the first tag specification holding `Tags`, or reports that none does |
| TemplateRules.FixInstance | mcp_server.py:250-261 | An EC2 instance always ends without `TagSpecifications`, changed exactly when it had them. Existing `Tags` win; otherwise the `Tags` of the first specification holding some are lifted, or none when no specification has any; other keys are kept |
| TemplateRules.SanitizePathPart | mcp_server.py:271-276 | Every character outside the allowed set becomes `_` and every allowed one stays, at the same length |
| TemplateRules.SanitizeIsIdempotent | mcp_server.py:271-276 | Sanitising twice equals sanitising once, and a path part is left alone exactly when all its characters are allowed |
| TemplateRules.BracedInner | mcp_server.py:267 | The inner name of a braced path part holds no space and no hyphen |
| TemplateRules.BracedInnerIsReplace | mcp_server.py:267 | The inner name is the stripped name with spaces removed and then hyphens turned into underscores |
| TemplateRules.FixPathPart | mcp_server.py:262-276 | A braced path part changes exactly when its cleaned inner name is non-empty and differs, and then becomes that name in braces; a literal one changes exactly when it has a disallowed character, into its sanitised form; a missing or non-text part changes nothing; other keys are kept |
| TemplateRules.FixLogGroup | mcp_server.py:277-281 | A non-blank string log-group name is replaced by the stack-scoped name, and nothing else changes |
| TemplateRules.SafeId | mcp_server.py:286 | The bucket id is the lower-cased id with every underscore turned into a hyphen, cut to its first 40 characters |
| TemplateRules.DeclareSuffix | mcp_server.py:288-289 | Afterwards the suffix parameter is declared. An existing declaration is left alone; a dict gains exactly that entry; any other value raises |
| TemplateRules.FixBucket | mcp_server.py:282-290 | A bucket whose name already uses the suffix is untouched. Otherwise, when the suffix can be declared, its name becomes the suffixed name for its id and the declared parameters are returned; when it cannot, the step raises. Keys other than `BucketName` are kept |
| TemplateRules.FixBucketNamesSuffix | mcp_server.py:282-290 | After a successful bucket fix, the bucket name refers to the suffix parameter |
| TemplateRules.SuffixedNameMentionsSuffix | mcp_server.py:167-172 | The name a bucket is given passes the suffix test, so a second pass leaves it alone |
| TemplateRules.FixBucketPolicy | mcp_server.py:291-302 | `PolicyText` is always dropped. It becomes the `PolicyDocument` exactly when it was not null and no document existed: a string is parsed as JSON and kept as text when that fails, any other value is used as it is. Otherwise the `PolicyDocument` is left as it was, and other keys are kept |
| TemplateRules.PolicyTextDroppedSilently | mcp_server.py:291-302 | A null `PolicyText`, or one an existing `PolicyDocument` overrides, is removed from the properties without the step reporting a change |
| LineFilter.Indent | mcp_server.py:327-328 | The indent is the number of leading blanks |
| LineFilter.DropKeepsOthers | mcp_server.py:319-333 | No kept line is a key line, and every kept line comes from the input |
| LineFilter.DropNothing | mcp_server.py:319-333 | Text without key lines is kept line for line |
| LineFilter.DropAt | mcp_server.py:323-332 | A key line goes together with a more-indented non-blank line after it, a key line alone goes alone, and any other line is kept |
| LineFilter.FilterLines | mcp_server.py:319-334 | The while loop computes the recursive line filter, and its change flag is set exactly when a key line existed |
| LineFilter.CooldownFilter | mcp_server.py:316-334 | Text without cooldown lines is returned as is; otherwise the result's lines are the kept lines |
| LineFilter.CooldownFilterLeavesNone | mcp_server.py:316-334 | The filtered text has no cooldown line |
| LineFilter.CooldownFilterIdempotent | mcp_server.py:316-334 | Filtering twice equals filtering once |
| LineFilter.SplitLinesOfJoin | mcp_server.py:334 | Splitting the joined lines again gives only lines that were joined |
| Normalize.TypeOf | mcp_server.py:204 | A resource has a type exactly when its `Type` is a string, and it is that string |
| Normalize.ForeignWarmupScan | mcp_server.py:352-357 | On properties that are not a dict the scan never renames. It raises on a list holding a non-string or a warm-up key, never on a string, always on a number, boolean or null |
| Normalize.SingleCharsAreNotWarmupKeys | mcp_server.py:354 | No one-character key spells the warm-up key |
| Normalize.ForeignProps | mcp_server.py:205-310 | Properties that are not a dict are harmless for unhandled types and raise for every handled type except the stage and, in YAML, the scaling policy |
| Normalize.FixProps | mcp_server.py:206-310 | A resource rule only grows the parameters, leaves unhandled types alone, and leaves every bucket named through the suffix, declaring it when the name had to change |
| Normalize.FixBucketNamesSuffixOk | mcp_server.py:282-290 | The bucket rule keeps earlier parameters, names the bucket through the suffix, and declares the suffix when it renamed |
| Normalize.FixNestedStack | mcp_server.py:303-310 | An inline nested template is replaced only by a different normalised text, and nothing else changes |
| Normalize.FixResource | mcp_server.py:201-310 | One resource step keeps parameters, leaves every bucket named and the definition's kind unchanged, declares the suffix for a bucket that needs a name, and skips unhandled definitions |
| Normalize.FixResourceKeepsKeys | mcp_server.py:201-310 | One resource step changes nothing of a definition but its `Properties` |
| Normalize.FirstCandidate | mcp_server.py:180-182 | The first suffix word whose account-scoped name occurs in the text, or none of them occurs |
| Normalize.DeclareInText | mcp_server.py:184-193 | The text is returned as is, or it parsed, in its own format, and the result is the dump, in that format, of the parsed document with the suffix parameter declared and every other top-level key unchanged |
| Normalize.PreSuffixFix | mcp_server.py:178-194 | Text without a bucket, or that already mentions the suffix, or without any candidate name is returned unchanged |
| Normalize.ParamsStepTrans | mcp_server.py:199 | Two successive parameter changes are again one allowed change: at most the suffix declaration is added to a dict lacking it |
| Normalize.NormalizeTemplate | mcp_server.py:175-390 | The template keeps its format: JSON comes back as the pre-fixed text or a JSON dump; YAML as the cooldown-filtered text with no cooldown line left, or a YAML dump |
| NormalizeFacts.ResourceStepFacts | mcp_server.py:201-310 | The concrete resource step keeps parameters, names buckets, declares the suffix when needed and leaves unhandled resources alone |
| NormalizeFacts.PassKeepsIds | mcp_server.py:201-310 | The loop over resources keeps every logical id, in order |
| NormalizeFacts.PassNamesBuckets | mcp_server.py:201-310 | After the loop every bucket is named through the suffix |
| NormalizeFacts.PassParamsStep | mcp_server.py:201-310 | The loop only grows the parameters |
| NormalizeFacts.PassDeclaresSuffix | mcp_server.py:201-310 | When the suffix was declared or some bucket needed a name, the suffix is declared after the loop |
| NormalizeFacts.PassLeavesOthers | mcp_server.py:201-310 | Resources the rules do not handle come out unchanged, and the count is kept |
| NormalizeFacts.ResourceStepKeepsKeys | mcp_server.py:201-310 | The concrete resource step changes at most a definition's `Properties` |
| NormalizeFacts.PassKeepsKeys | mcp_server.py:201-310 | The loop changes each resource at most in its `Properties`, and keeps the count |
| NormalizeFacts.PassWithoutRules | mcp_server.py:201-310 | A loop over resources no rule handles returns them and the parameters as they were, and reports no change |
| NormalizeFacts.DocumentNamesBuckets | mcp_server.py:195-313 | A normalised document is a dict in which every bucket is named through the suffix |
| NormalizeFacts.DocumentKeepsIds | mcp_server.py:195-313 | A normalised document keeps every resource id |
| NormalizeFacts.DocumentParameters | mcp_server.py:195-313 | A normalised document has `Parameters` that extend the original ones and declare the suffix whenever a bucket needed a name |
| NormalizeFacts.DocumentKeepsOthers | mcp_server.py:195-313 | A successful document pass keeps every top-level key other than `Resources` and `Parameters` |
| NormalizeFacts.DocumentResourceFrame | mcp_server.py:195-313 | A successful document pass keeps the number of resources, changes each at most in its `Properties`, and leaves those no rule handles as they were |
| NormalizeFacts.DocumentWithoutRules | mcp_server.py:195-313 | A document pass over resources no rule handles reports no change |
| NormalizeFacts.NormalizedFrom | mcp_server.py:195-313 | The document pass of either format names every bucket through the suffix. It keeps the resource ids in order, changes a resource at most in its `Properties`, and leaves a resource the format has no rule for as it was. It only grows the parameters and keeps the other top-level keys |
| NormalizeFacts.TemplateOutcome | mcp_server.py:175-390 | JSON text comes back as the pre-fixed text, or as the JSON dump of that text's parsed document after the pass. In that document every bucket is named through the suffix and the same resource ids come in order. Each resource is changed at most in its `Properties`, and not at all when no rule handles it. The parameters grow at most by the suffix declaration, and the other top-level keys are kept. YAML comes back as the cooldown-filtered text with no cooldown line left, or as the YAML dump of that text's document after the same pass |
| NormalizeFacts.TemplateKeptUnlessChanged | mcp_server.py:195-390 | The template is re-serialised exactly when its pass runs through and reports a change. When the text does not parse, when the pass raises and when nothing changed, the text the pass started from comes back: the pre-fixed text for JSON, its cooldown-filtered form for YAML |
| NormalizeFacts.TemplateWithoutRules | mcp_server.py:195-390 | A template none of whose resources any rule handles comes back as the text the pass started from |
| NormalizeFacts.PreSuffixFixOutcome | mcp_server.py:178-194 | The pre-fix returns its input, or text that mentions the suffix and is a fixed point, or the dump of the document parsed from the body with the first candidate name spliced, with the suffix declared and nothing else changed |
| CloudFront.CloudFrontTest | mcp_server.py:406 | A resource counts as CloudFront exactly when its type starts with the CloudFront prefix; a truthy non-string type raises |
| CloudFront.KeysWhere | mcp_server.py:404-407 | The id set holds exactly the keys whose definitions pass the test, and computing it raises exactly when some test raises |
| CloudFront.CloudFrontIdsAre | mcp_server.py:404-407 | The ids collected are exactly the CloudFront resources' ids |
| CloudFront.DropIds | mcp_server.py:410-411 | Removing ids keeps, in order, exactly the entries under other keys |
| CloudFront.DropLeavesNoCloudFront | mcp_server.py:404-411 | No CloudFront resource is left after removal |
| CloudFront.DropOnlyWhere | mcp_server.py:404-411 | Every entry that fails the test survives removal |
| CloudFront.RefersTest | mcp_server.py:416-429 | The output test agrees with the reference predicate (`Ref`, `Fn::GetAtt` in either form), and a non-dict output never refers |
| CloudFront.StripOutputs | mcp_server.py:413-431 | Kept outputs come from the original and refer to no removed id; a missing or non-dict `Outputs` is left alone |
| CloudFront.StripOutputsKeepsOthers | mcp_server.py:413-431 | Every output that refers to no removed id is kept |
| CloudFront.KeepDeps | mcp_server.py:439-442 | A `DependsOn` list keeps, in order, exactly the entries that name no removed id; it raises exactly on nested lists or dicts |
| CloudFront.FixDependsOn | mcp_server.py:434-446 | A repaired resource no longer depends on a removed id and keeps every other key; a clean resource is unchanged |
| CloudFront.FixAllDependsOn | mcp_server.py:433-446 | Every remaining resource is repaired in place, keys and order kept; it raises exactly when one repair raises |
| CloudFront.FixAllClears | mcp_server.py:433-446 | After the repair no remaining resource depends on a removed id |
| CloudFront.KeysSurvive | mcp_server.py:410-446 | Every resource id that was not removed is still present |
| CloudFront.Assemble | mcp_server.py:410-431 | The new document has the new resources, the kept outputs when any, and every other top-level key unchanged |
| CloudFront.AssembledClean | mcp_server.py:403-449 | The assembled document has no CloudFront resource and no reference to a removed id |
| CloudFront.StripDocument | mcp_server.py:403-449 | A document without CloudFront resources is not rewritten; a rewritten one is a dict |
| CloudFront.StripDocumentClean | mcp_server.py:403-449 | A rewritten document has no CloudFront resource and no dangling reference, keeps every other resource, and keeps every other top-level key |
| CloudFront.FixDependsOnKeepsKeys | mcp_server.py:434-446 | Repairing a resource changes nothing of it but its `DependsOn` |
| CloudFront.StripDocumentKept | mcp_server.py:410-446 | After a rewrite the surviving resources are the input's in order, each changed at most in its `DependsOn` and not at all when it named no removed id; the outputs lose at most the referring ones, and all of those when names are unique |
| CloudFront.StripCloudFront | mcp_server.py:393-451 | The text changes only when it parsed and had CloudFront resources |
| CloudFront.StripCloudFrontOutcome | mcp_server.py:393-451 | The text comes back unchanged, or as the dump, in its own format, of its parsed document with the CloudFront resources removed and no reference to them left. The other resources stay in order, each changed at most in its `DependsOn` and not at all when it named no removed id. Only referring outputs are dropped (all of them when names are unique), and every top-level key other than `Resources` and `Outputs` is unchanged |
| BucketNames.EditProps | mcp_server.py:471-480 | A bucket's properties end without `BucketName`. A nested stack's inline template is replaced by its stripped form. Other resources are untouched, and a reported edit really differs |
| BucketNames.StripResource | mcp_server.py:467-480 | A stripped resource has no bucket name, keeps its kind and every key other than `Properties`, and is flagged changed exactly when it differs. Resources that are neither buckets nor stacks are untouched |
| BucketNames.WithProps | mcp_server.py:471-480 | Installing edited properties changes only `Properties` |
| BucketNames.StripAll | mcp_server.py:466-480 | Each resource is stripped in place, keys and order kept; the pass raises exactly when one resource does; it is flagged changed exactly when something differs |
| BucketNames.StripAllUnnamed | mcp_server.py:466-480 | After the pass no bucket has a `BucketName`, the ids are kept, and an unchanged pass means there was none |
| BucketNames.StripDocumentUnnamed | mcp_server.py:463-482 | An edited document has no named bucket, keeps every resource id in order and every top-level key other than `Resources`; no edit means no bucket was named |
| BucketNames.StripResourceKeepsKeys | mcp_server.py:467-480 | Stripping a resource changes nothing of it but its `Properties` |
| BucketNames.StripDocumentKept | mcp_server.py:463-482 | An edited document keeps its resources in order, each changed at most in its `Properties` and not at all unless it is a bucket or a nested stack |
| BucketNames.StructuredOutcome | mcp_server.py:456-484 | The structured pass returns the text, or the dump in its own format of its parsed document. That document has no named bucket and the same resource ids in order. Each resource is changed at most in its `Properties`, and not at all unless it is a bucket or a nested stack. Every other top-level key is unchanged |
| BucketNames.BareKeyIsQuotedKey | mcp_server.py:494 | The second line pattern matches nothing the first does not |
| BucketNames.SuffixLineKept | mcp_server.py:494 | A `BucketNameSuffix` line, quoted or not, is not taken for a `BucketName` line |
| BucketNames.ShortIsNoKey | mcp_server.py:494 | A line shorter than the key is never a `BucketName` line |
| BucketNames.LineFallback | mcp_server.py:486-499 | Text that does not mention both markers, or has no `BucketName` line, is unchanged; otherwise its lines are exactly the non-`BucketName` lines |
| BucketNames.LineFallbackLeavesNone | mcp_server.py:486-499 | After the fallback no `BucketName` line is left |
| BucketNames.LineFallbackIdempotent | mcp_server.py:486-499 | Applying the fallback twice equals applying it once |
| BucketNames.BucketNameLinesKeysOnly | mcp_server.py:494-497 | A `BucketName` line is dropped alone, never together with the line after it |
| BucketNames.BucketLinesInOrder | mcp_server.py:494-498 | The fallback works line by line: a line is dropped exactly when it is a `BucketName` line, and the order of the others is kept |
| BucketNames.LineFallbackKeepsOthers | mcp_server.py:486-499 | Every line that is not a `BucketName` line survives the fallback |
| BucketNames.StripBucketNames | mcp_server.py:454-500 | Afterwards no `BucketName` line is left in text that mentions both markers, and the line fallback has nothing left to do |
| BucketNames.StripBucketNamesOutcome | mcp_server.py:454-500 | The answer is the line fallback applied to the input, or to the dump in the input's format of its parsed document with no named bucket, the resource ids in order, each resource changed at most in its `Properties`, and the other top-level keys kept |
| StackParams.AddParam | mcp_server.py:1406-1408 | Adding a caller entry succeeds exactly when it is readable |
| StackParams.AddParamGet | mcp_server.py:1407-1408 | A keyed entry stores its value under its key and changes no other key; an unkeyed one changes nothing |
| StackParams.UserParams | mcp_server.py:1404-1408 | Reading the caller's parameters succeeds exactly when every entry is readable |
| StackParams.UserParamsLast | mcp_server.py:1404-1408 | The last entry with a key decides that key's value |
| StackParams.UserParamsAbsent | mcp_server.py:1404-1408 | A key no entry carries is absent |
| StackParams.UserParamsUnique | mcp_server.py:1404-1408 | The caller's parameters hold each key once |
| StackParams.DeclaredKeys | mcp_server.py:1409-1416 | Non-empty declared keys are exactly the keys of the template's `Parameters` dict |
| StackParams.NamesWrittenAsKeys | mcp_server.py:1419-1421 | Exactly the VPC names written in key position are found |
| StackParams.TemplateKeys | mcp_server.py:1409-1421 | The template's keys are the declared ones, or, when there are none and the text mentions `Parameters`, exactly the VPC names written as keys |
| StackParams.CallerWantsDefaultIff | mcp_server.py:1436-1438 | The caller asks for the default VPC exactly when some VPC key is blank or `default` |
| StackParams.FillCallerKeys | mcp_server.py:1449-1460 | Caller keys asking for the default get the lookup's value for that key; every other entry is kept, with keys and order unchanged |
| StackParams.FillDeclaredEntries | mcp_server.py:1462-1469 | Filling declared VPC keys only adds values from the lookup |
| StackParams.FillDeclaredKeeps | mcp_server.py:1462-1469 | A caller value that is neither blank nor `default` survives the filling |
| StackParams.FirstUnresolved | mcp_server.py:1470-1480 | No key is reported exactly when no VPC key still asks for the default; a reported key is one that does |
| StackParams.ResolveVpc | mcp_server.py:1439-1480 | An unresolved key is a VPC key |
| StackParams.UsableLookupResolves | mcp_server.py:1448-1480 | A lookup with a VPC and subnets always resolves |
| StackParams.UnresolvedWithoutLookup | mcp_server.py:1470-1480 | Without a lookup the request fails exactly when some VPC key asks for the default |
| StackParams.ResolveKeeps | mcp_server.py:1439-1480 | A caller value that is neither blank nor `default` survives the VPC stage |
| StackParams.FirstSpelled | mcp_server.py:1486 | The first template key spelling the suffix name, case- and blank-insensitively, or none does |
| StackParams.SuffixKey | mcp_server.py:1484-1491 | A suffix is set exactly when a template key spells it or the text mentions it; the key used is that template key or the canonical name |
| StackParams.Inject | mcp_server.py:1489-1491 | An injected key stores the suffix and joins the key set; no other key joins |
| StackParams.SuffixesInjected | mcp_server.py:1481-1500 | On create, both the database and the bucket suffix keys the template asks for hold the unique suffix |
| StackParams.SuffixKeysGrow | mcp_server.py:1481-1500 | Injection adds no keys other than the two suffix names |
| StackParams.SuffixesKeep | mcp_server.py:1481-1500 | Caller entries that do not spell a suffix name survive injection |
| StackParams.FinalParameters | mcp_server.py:1501-1510 | No list is sent exactly when the parameters are empty. Only caller entries are sent, never a VPC key set to `default`, and only declared keys when any are known. Every sendable entry is sent |
| StackParams.SentIfStored | mcp_server.py:1501-1510 | A stored declared key whose value is not `default` is sent |
| Provision.StackNameFor | mcp_server.py:1347-1351 | The stack name is at most 50 characters: the stripped name when short enough, else the short prefix followed by the clock's last eight digits |
| Provision.StackNameStable | mcp_server.py:1347-1351 | Shortening an already chosen name changes nothing, whatever the clock |
| Provision.ForbiddenTest | mcp_server.py:1364 | A resource is refused exactly when its type is one of the nine VPC types; a list or dict type raises |
| Provision.ForbiddenAmong | mcp_server.py:1364-1366 | Reported types are non-empty, all forbidden, and exactly the forbidden types found |
| Provision.ForbiddenAmongExactly | mcp_server.py:1364-1370 | A template is refused exactly when some resource has a forbidden type and no type test raises |
| Provision.ForbiddenIn | mcp_server.py:1363-1370 | Only a dict document with dict-valued resources can be refused, and then by its resources |
| Provision.ForbiddenFound | mcp_server.py:1358-1372 | A refusal needs a parsed template and is decided on it; parse errors let the template pass |
| Provision.Rewritten | mcp_server.py:1374-1379 | The three rewrites leave nothing for the bucket-name line fallback to drop |
| Provision.CallFor | mcp_server.py:1388-1401 | The call carries the rewritten body, the parameters and a name of at most 50 characters. It updates exactly when the stack exists, tags exactly a new stack, and passes capabilities only when given |
| Provision.FinishSendsNoStray | mcp_server.py:1481-1510 | After injection and filtering no VPC key is sent as `default`, and with known keys only declared or suffix keys are sent |
| Provision.FinishKeeps | mcp_server.py:1481-1510 | A caller's non-blank, non-default entry under a declared key (or with no keys known and no suffix injected) is sent |
| Provision.FinishSendsSuffixes | mcp_server.py:1481-1500 | On create the unique suffix is sent under the database suffix key and under a bucket suffix key whenever the template asks for them |
| Provision.VpcStageWithoutLookup | mcp_server.py:1436-1480 | Without a lookup the request fails exactly when the VPC is needed and some VPC key asks for the default |
| Provision.VpcStageFacts | mcp_server.py:1430-1480 | A usable lookup always fills; an unresolved key is a VPC key |
| Provision.VpcStageKeeps | mcp_server.py:1430-1480 | A caller value that is neither blank nor `default` survives the VPC stage |
| Provision.AssembledVpcOutcome | mcp_server.py:1430-1480 | Without a lookup the assembly fails exactly when a VPC key asks for the default; a usable lookup never fails; a failure names a VPC key |
| Provision.AssembledSendsNoStray | mcp_server.py:1403-1510 | The assembled list never sends a VPC key as `default`, and with known keys sends only declared or suffix keys |
| Provision.AssembledKeepsCaller | mcp_server.py:1403-1510 | A caller's meaningful entry under a declared key (or with no keys known and nothing injected) reaches the list |
| Provision.AssembledSendsSuffixes | mcp_server.py:1481-1510 | On create, the suffixes the template asks for are sent with the unique value |
| Provision.Submit | mcp_server.py:1373-1517 | An unreadable caller list fails; the VPC stage fails exactly when assembly names an unresolved key, with that key and the hint for the account setting; otherwise the create or update call carries the rewritten template and the assembled list |
| Provision.Provision | mcp_server.py:1342-1372 | Read-only mode answers first and alone; a template with forbidden VPC resources is refused naming only forbidden types; otherwise the stack call proceeds, and a submitted call carries the rewritten template |
| Provision.ProvisionSendsNoStray | mcp_server.py:1325-1517 | A submitted call never sends a VPC key as `default`, and with known keys sends only declared or suffix keys |
| AgentCore.EncodeArn | deploy/lambda_websocket/handler.py:43 | The encoded ARN holds no colon and no slash, and grows by two characters per separator |
| AgentCore.EncodeArnIsReplace | deploy/lambda_websocket/handler.py:43 | Encoding is replacing every colon by `%3A` and then every slash by `%2F` |
| AgentCore.DecodeEncodeArn | deploy/lambda_websocket/handler.py:43-44 | An ARN without `%` is recovered from its encoding |
| AgentCore.EncodeArnInjective | deploy/lambda_websocket/handler.py:43-44 | Two ARNs without `%` with the same encoding are equal |
| AgentCore.McpUrl | deploy/lambda_websocket/handler.py:43-44 | For an ARN without `%`, the runtime read back from the URL is that ARN |
| AgentCore.RequestBody | deploy/lambda_websocket/handler.py:46-54 | The JSON-RPC body is a `tools/call` whose name and arguments read back as the ones sent |
| AgentCore.ForwardedVerbatim | deploy/lambda_backend/handler.py:36-58 | The proxied body reads back as the browser's request, with missing params as an empty dict |
| AgentCore.ForwardedToolCall | deploy/lambda_backend/handler.py:36-58 | A `tools/call` request is proxied as the same body the WebSocket Lambda sends |
| AgentCore.DataLine | deploy/lambda_websocket/handler.py:79-84 | The first line starting with `data: `, or none does |
| AgentCore.DataLineAppend | deploy/lambda_websocket/handler.py:79-84 | Later lines do not change which data line is found |
| AgentCore.DataPayload | deploy/lambda_websocket/handler.py:79-84 | A payload exists exactly when some line is a data line, and it is that line with the `data: ` prefix removed |
| AgentCore.Decode | deploy/lambda_websocket/handler.py:83 | Decoding succeeds exactly when the text parses |
| AgentCore.ParseWith | deploy/lambda_websocket/handler.py:78-87 | A caller reporting blank bodies reports them. A body read as a stream decodes its first data line, or reports or raises when there is none. Any other body is decoded whole |
| AgentCore.FrameLines | deploy/lambda_backend/handler.py:85 | A framed answer splits into the event line, the data line and two blank lines |
| AgentCore.FramedAnswerRoundTrip | deploy/lambda_backend/handler.py:85-92 | Every caller reads a framed one-line answer back as the answer itself |
| AgentCore.LaterDataIgnored | deploy/lambda_websocket/handler.py:80-84 | Only the first data line counts |
| AgentCore.PlainAnswerSplitsCallers | deploy/lambda_backend/handler.py:93-94 | Plain JSON is decoded by the proxy and the script, but the WebSocket Lambda reports no data |
| AgentCore.StreamWithoutData | deploy/lambda_backend/handler.py:86-102 | A stream without a data line makes the proxy raise and the other two callers report their missing-data errors |
| AgentCore.BlankBody | test_lambda_call.py:54-55 | A blank answer is reported as empty by the script and as missing data by the WebSocket Lambda, and is handed whole to the JSON parser by the proxy, which fails unless the parser accepts blank text |
| AgentCore.BlankLinesHaveNoData | test_lambda_call.py:54-66 | A blank text has no data line |
| WebSocket.MessageJson | deploy/lambda_websocket/handler.py:113-175 | Every message sent is a dict with the type first and the request id second |
| WebSocket.MessageTagged | deploy/lambda_websocket/handler.py:113-175 | Every message carries its type name and request id |
| WebSocket.CallTool | deploy/lambda_websocket/handler.py:38-87 | A transport failure is exactly a failed HTTPS call; a parse failure is a bad answer; an answer is what the stream reading gives |
| WebSocket.Classify | deploy/lambda_websocket/handler.py:130-157 | A classified answer gives one terminal message for the request, an error message always carries a reported value, and an answer that is not a dict fails |
| WebSocket.ClassifyMapping | deploy/lambda_websocket/handler.py:130-157 | An answer with `error` is forwarded as that error; a non-dict `result` fails as a bad shape; falsy content is reported as no result; truthy content goes to the data step |
| WebSocket.DataStep | deploy/lambda_websocket/handler.py:140-151 | A delivered response carries the request id and the tool |
| WebSocket.DataStepMapping | deploy/lambda_websocket/handler.py:140-151 | Content without a first text fails as a bad shape; a text that parses is delivered as that data; any other text fails as bad JSON |
| WebSocket.NonObjectAnswerFails | deploy/lambda_websocket/handler.py:131-140 | An answer that is not a dict ends in the `except`: the membership test raises on a number, boolean or null; the indexing or `.get` after it raises on a list or string |
| WebSocket.ErrorAnswerReported | deploy/lambda_websocket/handler.py:131-137 | An answer with `error` is forwarded as an error message with that error |
| WebSocket.EmptyAnswerReported | deploy/lambda_websocket/handler.py:152-157 | An answer without `error` or `result`, or whose `content` is falsy, is reported as no result |
| WebSocket.ToolAnswerClassified | deploy/lambda_websocket/handler.py:140-151 | A tool answer whose first content text parses is delivered as that data |
| WebSocket.ContentAnswerDelivered | deploy/lambda_websocket/handler.py:140-151 | An answer whose first content item's text parses is delivered as a response with that data, for the request's id and tool |
| WebSocket.DefaultRoute | deploy/lambda_websocket/handler.py:104-179 | A request sends an acknowledgement, a 10% progress note saying which tool is called, and one terminal message, all for its id; the status is 500 exactly when that terminal reports an exception |
| WebSocket.Handle | deploy/lambda_websocket/handler.py:89-179 | Connect and disconnect answer 200 with nothing sent; unknown routes answer 400 |
| WebSocket.DefaultSendsOneTerminal | deploy/lambda_websocket/handler.py:104-179 | A `$default` body that parses to a dict gets exactly one terminal message after the acknowledgement; any other body gets a 500 and no message |
| WebSocket.StatusCodes | deploy/lambda_websocket/handler.py:89-179 | The status is 200, 400 or 500: 400 exactly for unknown routes, 500 exactly for a failed `$default` request |
| WebSocket.ToolDataDelivered | deploy/lambda_websocket/handler.py:104-159 | A framed tool answer ends, with status 200, in a response message carrying the parsed data |
| WebSocket.FramedCallAnswered | deploy/lambda_websocket/handler.py:38-87 | A framed one-line answer that parses is the call's answer |
| WebSocket.RouteDone | deploy/lambda_websocket/handler.py:104-179 | When the tool answers and the answer classifies to a terminal message, the request answers 200 and sends that message third |
| WebSocket.HandleDefault | deploy/lambda_websocket/handler.py:89-104 | A `$default` event whose body parses to a dict is handled by the request route |
| Backend.ProxyUrl | deploy/lambda_backend/handler.py:31-34 | A URL exists exactly when the agent ARN is set, and it names that agent |
| Backend.ProxyMcp | deploy/lambda_backend/handler.py:49-102 | The proxy succeeds exactly when the ARN is set, the call answers and the answer decodes, and then returns the decoded answer; anything else is HTTP 500 |
| Backend.DatalessStreamFails | deploy/lambda_backend/handler.py:86-102 | A stream without a data line is HTTP 500 |
| Backend.FramedAnswerForwarded | deploy/lambda_backend/handler.py:86-96 | A framed answer reaches the browser as the answer itself |
| Backend.PlainAnswerForwarded | deploy/lambda_backend/handler.py:93-96 | A body not starting with `event:` succeeds exactly when it is JSON |
| LambdaCallScript.CallTool | test_lambda_call.py:13-69 | A failed call raises; otherwise the answer is read with the script's framing |
| LambdaCallScript.ScriptAgreesWithHandler | test_lambda_call.py:13-69 | On a framed answer the script and the WebSocket Lambda return the same value |
| LambdaCallScript.BlankAnswerDiffers | test_lambda_call.py:54-55 | On a blank answer the script reports an empty response where the WebSocket Lambda reports missing data |

## Left out

- AWS calls: CloudFormation (`describe_stacks`, `create_stack`, `update_stack`), EC2, STS, Bedrock, SigV4 signing
  and `urllib` are outside the model. Their answers are parameters: a `World` value, a default-VPC lookup, a
  `call` function, and a `respond` function.
- `time.sleep` is not modelled. Waits are recorded in tenths of a second, which is exact for the back-off
  `2 ** attempt + 0.1 * attempt`. The clock is a parameter.
- Parsing and dumping: JSON and YAML parse and dump are functions in a `Codec` value. YAML tags, indentation,
  quoting and flow style are not modelled.
- Depth fuel: nested-stack inline templates are followed to a bounded `depth`. Beyond it an inline template is
  left as it is.
- Case: lower-casing is ASCII only, so `str.lower` on other letters is not modelled. Whitespace follows Python's
  `str.isspace`.
- Set order: `template_param_keys` is a Python set. The model iterates it in declaration order, which decides only
  which of several equally spelled suffix keys is used.
- Dict keys: a `json.loads` document with duplicate keys keeps the last value in Python. The model's lookup takes
  the first.
- YAML mapping keys: every dict key is a string (`Entry.key`). `yaml.safe_load` also yields numbers, booleans and
  `null` as keys. A non-zero number among a template's `Parameters` keys makes `_is_vpc_param_key` raise on
  `.strip()` (mcp_server.py:1425) inside the `any` of mcp_server.py:1430, which ends in the generic failure; the
  model cannot express that template.
- YAML anchors and aliases: `yaml.safe_load` gives every alias of an anchor the same dict, so the in-place edits
  of mcp_server.py:201-383 and 466-480 reach every alias, and the dump writes the anchor back. The model's documents
  are trees: an alias is a separate copy, edited on its own when the pass visits it.
- Read-only and cross-account switches: the read-only variable is read per call rather than at import. Whether a
  cross-account role is configured is a boolean in `World`.
- Outcome texts:
  - The success dictionaries are not modelled. The outcome is a datatype naming what happened.
  - The texts of `str(e)` in error messages are stand-ins.
  - The forbidden-type list's order is a set.
- WebSocket handler:
  - `requestContext` is assumed to be a dict.
  - A body that is present but `null` is not distinguished from a missing body.
  - Failures of `send_message` are ignored, as the source does, so every message counts as sent.
  - API Gateway client construction is left out.
- Backend handler:
  - The CORS `OPTIONS` endpoint and `/health` (deploy/lambda_backend/handler.py:42-47, 104-112) are left out.
  - pydantic's coercion and its 422 answer to a malformed request are not modelled: `McpRequest` is already
    well-typed.
- Test script and server listing: the script's own prints and its calls at the bottom of test_lambda_call.py are
  left out. So are the other MCP tools of mcp_server.py: schema lookup, overview, the model-based template
  generation, validation calls, deletion and stack events.
- StackParams.UserParams: a truthy `ParameterKey` that is not a string raises at once, so `Provision.Provision`
  answers `Failed`. The source stores the key and raises at the first `.strip()` on it, which also ends in the
  generic failure, with one exception. Suppose a VPC key whose value asks for the default comes before the
  non-string key in the dict's order, and the default-VPC lookup finds nothing. Then the `any` at
  mcp_server.py:1436-1438 stops before the bad key, and the loop at mcp_server.py:1470-1480 returns the
  unresolved-VPC answer for the VPC key. The model answers `Failed` for that input.
- Converse.BuildRequest: the model records only the request settings that vary. The fixed `role`/`content` message
  shape and the cache point's `type` are not modelled.
- Normalize.NormalizeTemplate: its own contract leaves the dumped document unconstrained.
  `NormalizeFacts.TemplateOutcome` ties that document to the parsed input, and
  `NormalizeFacts.TemplateKeptUnlessChanged` says when the text comes back unchanged.
- Provision.Provision: takes the rewritten template as the argument `final`, which `Provision.Rewritten` computes
  from the body, rather than applying the three rewrites itself.
- Classify.ChooseSource: the button's `template_id` is the empty string when absent, and the format argument is
  folded into the `load` parameter.

=== FILE: agentcore.dfy ===
/** What the three AgentCore callers share: the invocation URL with the agent
    ARN percent-encoded (deploy/lambda_websocket/handler.py:43-44,
    deploy/lambda_backend/handler.py:31-34, test_lambda_call.py:18-19), the
    JSON-RPC `tools/call` body, and one response parser whose three framings
    are the three callers' ways of telling an event stream from plain JSON. */
module AgentCore {
  import opened Wrappers
  import opened Text
  import opened Json

  // ---------------------------------------------------------------------------
  // The invocation URL
  // ---------------------------------------------------------------------------

  /** One character of `arn.replace(':', '%3A').replace('/', '%2F')`. */
  function EncodeChar(c: char): string {
    if c == ':' then "%3A" else if c == '/' then "%2F" else [c]
  }

  /** The agent ARN with every `:` and `/` percent-encoded. */
  function EncodeArn(arn: string): (r: string)
    ensures ':' !in r && '/' !in r
    ensures '%' !in arn ==> |r| == |arn| + 2 * (|arn| - |DropSeparators(arn)|)
  {
    if |arn| == 0 then ""
    else
      var rest := EncodeArn(arn[1..]);
      assert '%' !in arn ==> '%' !in arn[1..] by {
        assert forall c | c in arn[1..] :: c in arn;
      }
      EncodeChar(arn[0]) + rest
  }

  /** The ARN without its `:` and `/`: what the encoding leaves in place. */
  function DropSeparators(arn: string): (r: string)
    ensures |r| <= |arn|
  {
    if |arn| == 0 then ""
    else (if arn[0] == ':' || arn[0] == '/' then "" else [arn[0]]) + DropSeparators(arn[1..])
  }

  /** The inverse of the encoding: `%3A` and `%2F` turn back into `:` and `/`. */
  function DecodeArn(s: string): string
    decreases |s|
  {
    if |s| == 0 then ""
    else if StartsWith(s, "%3A") then ":" + DecodeArn(s[3..])
    else if StartsWith(s, "%2F") then "/" + DecodeArn(s[3..])
    else [s[0]] + DecodeArn(s[1..])
  }

  /** Decoding undoes one encoded character in front of any text. */
  lemma DecodeEncodedChar(c: char, rest: string)
    requires c != '%'
    ensures DecodeArn(EncodeChar(c) + rest) == [c] + DecodeArn(rest)
  {
    var e := EncodeChar(c) + rest;
    if c == ':' {
      assert e[..3] == "%3A" && e[3..] == rest;
    } else if c == '/' {
      assert e[..3] == "%2F" && e[3..] == rest;
    } else {
      assert e[0] == c && e[1..] == rest;
      assert !StartsWith(e, "%3A") && !StartsWith(e, "%2F");
    }
  }

  /** An ARN (which never holds `%`) is recovered from its encoding. */
  lemma {:induction false} DecodeEncodeArn(arn: string)
    requires '%' !in arn
    ensures DecodeArn(EncodeArn(arn)) == arn
  {
    if |arn| > 0 {
      assert '%' !in arn[1..] by {
        assert forall c | c in arn[1..] :: c in arn;
      }
      DecodeEncodeArn(arn[1..]);
      assert EncodeArn(arn) == EncodeChar(arn[0]) + EncodeArn(arn[1..]);
      DecodeEncodedChar(arn[0], EncodeArn(arn[1..]));
      assert [arn[0]] + arn[1..] == arn;
    }
  }

  /** Two ARNs with the same encoding are the same ARN. */
  lemma EncodeArnInjective(a: string, b: string)
    requires '%' !in a && '%' !in b
    requires EncodeArn(a) == EncodeArn(b)
    ensures a == b
  {
    DecodeEncodeArn(a);
    DecodeEncodeArn(b);
  }

  /** One-character replacement splits over concatenation. */
  lemma {:induction false} ReplaceCharAppend(a: string, b: string, c: char, rep: string)
    ensures ReplaceAll(a + b, [c], rep) == ReplaceAll(a, [c], rep) + ReplaceAll(b, [c], rep)
    decreases |a|
  {
    if |a| == 0 {
      assert a + b == b;
    } else {
      assert (a + b)[..1] == a[..1] && (a + b)[1..] == a[1..] + b;
      ReplaceCharAppend(a[1..], b, c, rep);
      assert (a + b)[0] == a[0];
    }
  }

  /** `s.replace(c, rep)` on a single character. */
  lemma ReplaceOneChar(x: char, c: char, rep: string)
    ensures ReplaceAll([x], [c], rep) == if x == c then rep else [x]
  {
    assert [x][..1] == [x] && [x][1..] == [];
  }

  /** The encoding is the source's two chained replacements. */
  lemma {:induction false} EncodeArnIsReplace(arn: string)
    ensures EncodeArn(arn) == ReplaceAll(ReplaceAll(arn, ":", "%3A"), "/", "%2F")
  {
    if |arn| > 0 {
      EncodeArnIsReplace(arn[1..]);
      assert arn == [arn[0]] + arn[1..];
      ReplaceCharAppend([arn[0]], arn[1..], ':', "%3A");
      ReplaceOneChar(arn[0], ':', "%3A");
      var first := ReplaceAll([arn[0]], ":", "%3A");
      ReplaceCharAppend(first, ReplaceAll(arn[1..], ":", "%3A"), '/', "%2F");
      if arn[0] == ':' {
        assert !Contains("%3A", "/") by {
          forall i | 0 <= i <= 3 ensures !OccursAt("%3A", "/", i) {
          }
        }
        ReplaceAbsent("%3A", "/", "%2F");
      } else {
        ReplaceOneChar(arn[0], '/', "%2F");
      }
    }
  }

  /** The region when `REGION` is unset. */
  const DefaultRegion := "us-east-1"

  const UrlHead := "https://bedrock-agentcore."
  const UrlMiddle := ".amazonaws.com/runtimes/"
  const UrlTail := "/invocations?qualifier=DEFAULT"

  /** The invocation URL of the agent runtime in a region. It names the
      agent: the runtime read back from it is the ARN, so different agents
      get different URLs. */
  function McpUrl(region: string, arn: string): (r: string)
    ensures '%' !in arn ==> RuntimeOfUrl(region, r) == Some(arn)
  {
    var head := UrlHead + region + UrlMiddle;
    var url := head + EncodeArn(arn) + UrlTail;
    assert url[..|head|] == head;
    assert url[|url| - |UrlTail|..] == UrlTail;
    assert url[|head|..|url| - |UrlTail|] == EncodeArn(arn);
    if '%' !in arn then DecodeEncodeArn(arn); url else url
  }

  /** What AgentCore reads back from a URL of a region: the runtime ARN. */
  function RuntimeOfUrl(region: string, url: string): (r: Option<string>) {
    var head := UrlHead + region + UrlMiddle;
    if StartsWith(url, head) && |head| + |UrlTail| <= |url| && EndsWith(url, UrlTail)
    then Some(DecodeArn(url[|head|..|url| - |UrlTail|]))
    else None
  }

  // ---------------------------------------------------------------------------
  // The JSON-RPC request
  // ---------------------------------------------------------------------------

  datatype ToolCall = ToolCall(name: Json, arguments: Json)

  /** How a JSON-RPC 2.0 server reads a `tools/call` request. */
  function ToolCallOf(body: Json): Option<ToolCall> {
    if body.JObj? && Get(body.fields, "jsonrpc") == Some(JStr("2.0"))
       && Get(body.fields, "method") == Some(JStr("tools/call"))
       && Get(body.fields, "id").Some?
       && Field(body, "params").Some? && Field(body, "params").value.JObj?
       && Field(Field(body, "params").value, "name").Some?
    then Some(ToolCall(Field(Field(body, "params").value, "name").value,
                       Field(Field(body, "params").value, "arguments").GetOr(JObj([]))))
    else None
  }

  /** deploy/lambda_websocket/handler.py:46-54 and test_lambda_call.py:21-29:
      the body of a `tools/call` request with id 1, from which the server
      reads back exactly the tool and arguments the caller sent. */
  function RequestBody(tool: Json, arguments: Json): (r: Json)
    ensures ToolCallOf(r) == Some(ToolCall(tool, arguments))
  {
    var params := JObj([Entry("name", tool), Entry("arguments", arguments)]);
    var f3 := [Entry("params", params)];
    var f2 := [Entry("method", JStr("tools/call"))] + f3;
    var f1 := [Entry("id", JNum(1.0))] + f2;
    var f0 := [Entry("jsonrpc", JStr("2.0"))] + f1;
    assert f0[1..] == f1 && f1[1..] == f2 && f2[1..] == f3;
    assert Get(f0, "id") == Get(f1, "id");
    assert Get(f2, "method") == Some(JStr("tools/call"));
    assert Get(f0, "method") == Get(f2, "method") by {
      assert "jsonrpc" != "method" && "id" != "method";
    }
    assert Get(f3, "params") == Some(params);
    assert Get(f0, "params") == Get(f3, "params") by {
      assert "jsonrpc" != "params" && "id" != "params" && "method" != "params";
      assert Get(f2, "params") == Get(f3, "params");
    }
    assert Get(params.fields, "arguments") == Some(arguments) by {
      assert params.fields[1..] == [Entry("arguments", arguments)];
      assert "name" != "arguments";
    }
    JObj(f0)
  }

  /** deploy/lambda_backend/handler.py:36-40: the request the backend
      accepts; a missing `params` is the default `{}`. */
  datatype McpRequest = McpRequest(jsonrpc: string, id: int, rpcMethod: string, params: Option<seq<Entry<Json>>>)

  /** deploy/lambda_backend/handler.py:58: `request.dict()` in field order. */
  function Forwarded(req: McpRequest): Json {
    JObj([
      Entry("jsonrpc", JStr(req.jsonrpc)),
      Entry("id", JNum(req.id as real)),
      Entry("method", JStr(req.rpcMethod)),
      Entry("params", JObj(req.params.GetOr([])))])
  }

  /** Reading a forwarded body back as a request. */
  function RequestOf(body: Json): Option<McpRequest> {
    if body.JObj? && |body.fields| == 4
       && body.fields[0].key == "jsonrpc" && body.fields[0].val.JStr?
       && body.fields[1].key == "id" && body.fields[1].val.JNum? && body.fields[1].val.n.Floor as real == body.fields[1].val.n
       && body.fields[2].key == "method" && body.fields[2].val.JStr?
       && body.fields[3].key == "params" && body.fields[3].val.JObj?
    then Some(McpRequest(body.fields[0].val.s, body.fields[1].val.n.Floor, body.fields[2].val.s, Some(body.fields[3].val.fields)))
    else None
  }

  /** The backend forwards every field verbatim, with `{}` for missing params. */
  lemma ForwardedVerbatim(req: McpRequest)
    ensures RequestOf(Forwarded(req)) == Some(McpRequest(req.jsonrpc, req.id, req.rpcMethod, Some(req.params.GetOr([]))))
  {
    assert (req.id as real).Floor == req.id;
  }

  /** A browser request shaped like the handlers' own is forwarded as exactly
      the body they build. */
  lemma ForwardedToolCall(tool: Json, arguments: Json)
    ensures Forwarded(McpRequest("2.0", 1, "tools/call", Some([Entry("name", tool), Entry("arguments", arguments)])))
            == RequestBody(tool, arguments)
  {
  }

  // ---------------------------------------------------------------------------
  // The response
  // ---------------------------------------------------------------------------

  const DataPrefix := "data: "

  /** The index of the first line starting with `data: `. */
  function DataLine(lines: seq<string>): (r: Option<nat>)
    ensures r.Some? ==> r.value < |lines| && StartsWith(lines[r.value], DataPrefix)
    ensures r.Some? ==> forall j | 0 <= j < r.value :: !StartsWith(lines[j], DataPrefix)
    ensures r.None? <==> forall j | 0 <= j < |lines| :: !StartsWith(lines[j], DataPrefix)
  {
    if |lines| == 0 then None
    else if StartsWith(lines[0], DataPrefix) then Some(0)
    else
      match DataLine(lines[1..])
      case None => None
      case Some(i) => Some(i + 1)
  }

  /** Lines after the first data line do not matter. */
  lemma {:induction false} DataLineAppend(lines: seq<string>, more: seq<string>)
    requires DataLine(lines).Some?
    ensures DataLine(lines + more) == DataLine(lines)
  {
    if !StartsWith(lines[0], DataPrefix) {
      assert (lines + more)[1..] == lines[1..] + more;
      DataLineAppend(lines[1..], more);
    }
  }

  /** The text after `data: ` on the first data line of a body; none when
      no line starts with `data: `. */
  function DataPayload(body: string): (r: Option<string>)
    ensures r.None? <==> DataLine(Split(body, '\n')).None?
    ensures r.Some? ==> Split(body, '\n')[DataLine(Split(body, '\n')).value] == DataPrefix + r.value
  {
    var lines := Split(body, '\n');
    match DataLine(lines)
    case None => None
    case Some(i) =>
      assert lines[i] == lines[i][..|DataPrefix|] + lines[i][|DataPrefix|..];
      Some(lines[i][|DataPrefix|..])
  }

  /** What a caller ends up with: a JSON value, or an exception. */
  datatype Reply = Value(j: Json) | Raised

  /** `json.loads(text)` */
  function Decode(parse: string -> Option<Json>, text: string): (r: Reply)
    ensures r.Value? <==> parse(text).Some?
  {
    match parse(text)
    case None => Raised
    case Some(j) => Value(j)
  }

  /** `{'error': message}` */
  function ErrorObject(message: string): Json {
    JObj([Entry("error", JStr(message))])
  }

  /** How a caller decides the body is an event stream. */
  datatype Detect =
    | Always     // scan for a data line whatever the body
    | Prefix     // the body starts with `event:`
    | Anywhere   // the body holds `event:` somewhere

  /** A caller's framing rules: the error for a blank body (none: no check),
      the stream test, and the error for a stream without a data line (none:
      the caller raises). */
  datatype Framing = Framing(blankError: Option<string>, detect: Detect, noDataError: Option<string>)

  /** deploy/lambda_websocket/handler.py:78-87 */
  const WebSocketFraming := Framing(None, Always, Some("No data in SSE response"))

  /** deploy/lambda_backend/handler.py:86-94: a stream without a data line
      leaves `result` unbound, which raises. */
  const BackendFraming := Framing(None, Prefix, None)

  /** test_lambda_call.py:54-69 */
  const ScriptFraming := Framing(Some("Empty response from AgentCore"), Anywhere, Some("No data line in SSE response"))

  predicate IsStream(detect: Detect, body: string) {
    match detect
    case Always => true
    case Prefix => StartsWith(body, "event:")
    case Anywhere => Contains(body, "event:")
  }

  /** The response body as one caller reads it. */
  function ParseWith(f: Framing, body: string, parse: string -> Option<Json>): (r: Reply)
    ensures f.blankError.Some? && Strip(body) == "" ==> r == Value(ErrorObject(f.blankError.value))
    ensures (f.blankError.None? || Strip(body) != "") && IsStream(f.detect, body) && DataPayload(body).Some? ==>
              r == Decode(parse, DataPayload(body).value)
    ensures (f.blankError.None? || Strip(body) != "") && IsStream(f.detect, body) && DataPayload(body).None? ==>
              r == (if f.noDataError.Some? then Value(ErrorObject(f.noDataError.value)) else Raised)
    ensures (f.blankError.None? || Strip(body) != "") && !IsStream(f.detect, body) ==> r == Decode(parse, body)
  {
    if f.blankError.Some? && Strip(body) == "" then Value(ErrorObject(f.blankError.value))
    else if IsStream(f.detect, body) then
      match DataPayload(body)
      case Some(payload) => Decode(parse, payload)
      case None => if f.noDataError.Some? then Value(ErrorObject(f.noDataError.value)) else Raised
    else Decode(parse, body)
  }

  // ---------------------------------------------------------------------------
  // What the framings agree and differ on
  // ---------------------------------------------------------------------------

  /** How AgentCore frames one JSON-RPC answer as a server-sent event. */
  function Frame(payload: string): string {
    "event: message\n" + DataPrefix + payload + "\n\n"
  }

  /** A line without a break is the first piece of what it starts. */
  lemma FirstLine(a: string, rest: string)
    requires '\n' !in a
    ensures Split(a + "\n" + rest, '\n') == [a] + Split(rest, '\n')
  {
    SplitAppend(a, rest, '\n');
    SplitNoSep(a, '\n');
  }

  lemma FrameLines(payload: string)
    requires '\n' !in payload
    ensures Split(Frame(payload), '\n') == ["event: message", DataPrefix + payload, "", ""]
  {
    var b := DataPrefix + payload;
    assert '\n' !in b by {
      assert forall i | 0 <= i < |b| :: b[i] == if i < 6 then DataPrefix[i] else payload[i - 6];
    }
    assert Split("", '\n') == [""];
    assert Split("\n", '\n') == ["", ""] by {
      assert "\n"[1..] == "";
    }
    FirstLine(b, "\n");
    assert '\n' !in "event: message";
    FirstLine("event: message", b + "\n" + "\n");
    assert Frame(payload) == "event: message" + "\n" + (b + "\n" + "\n");
  }

  /** All three callers read a framed answer back as the answer. */
  lemma FramedAnswerRoundTrip(f: Framing, payload: string, parse: string -> Option<Json>)
    requires '\n' !in payload
    ensures ParseWith(f, Frame(payload), parse) == Decode(parse, payload)
  {
    var body := Frame(payload);
    FrameLines(payload);
    var lines := Split(body, '\n');
    assert !StartsWith(lines[0], DataPrefix);
    assert lines[1][..|DataPrefix|] == DataPrefix;
    assert DataLine(lines) == Some(1);
    assert lines[1][|DataPrefix|..] == payload;
    assert body[..6] == "event:";
    assert OccursAt(body, "event:", 0);
    assert Strip(body) != "" by {
      assert !IsSpace(body[0]);
    }
  }

  /** Later data lines are ignored: the WebSocket handler reads the first. */
  lemma LaterDataIgnored(first: string, later: string, parse: string -> Option<Json>)
    requires DataPayload(first).Some?
    ensures ParseWith(WebSocketFraming, first + "\n" + later, parse) == ParseWith(WebSocketFraming, first, parse)
  {
    SplitAppend(first, later, '\n');
    DataLineAppend(Split(first, '\n'), Split(later, '\n'));
    var lines := Split(first, '\n');
    var i := DataLine(lines).value;
    assert (lines + Split(later, '\n'))[i] == lines[i];
  }

  /** On a plain JSON answer the backend and the test script parse the body
      whole, while the WebSocket handler finds no data line and reports an
      error. */
  lemma PlainAnswerSplitsCallers(body: string, parse: string -> Option<Json>)
    requires !Contains(body, "event:") && Strip(body) != ""
    requires DataPayload(body).None?
    ensures ParseWith(BackendFraming, body, parse) == Decode(parse, body)
    ensures ParseWith(ScriptFraming, body, parse) == Decode(parse, body)
    ensures ParseWith(WebSocketFraming, body, parse) == Value(ErrorObject("No data in SSE response"))
  {
    assert !StartsWith(body, "event:") by {
      if StartsWith(body, "event:") {
        assert OccursAt(body, "event:", 0);
      }
    }
  }

  /** A stream without a data line is never a success for the backend: it
      raises, where the other two callers answer with an error object. */
  lemma StreamWithoutData(body: string, parse: string -> Option<Json>)
    requires StartsWith(body, "event:") && DataPayload(body).None?
    ensures ParseWith(BackendFraming, body, parse) == Raised
    ensures ParseWith(ScriptFraming, body, parse) == Value(ErrorObject("No data line in SSE response"))
    ensures ParseWith(WebSocketFraming, body, parse) == Value(ErrorObject("No data in SSE response"))
  {
    assert OccursAt(body, "event:", 0);
    assert Strip(body) != "" by {
      assert body[0] == 'e' && !IsSpace(body[0]);
    }
  }

  /** A blank body: the test script reports it as empty; the WebSocket
      handler finds no data line; the backend fails to parse it unless the
      parser accepts blank text. */
  lemma BlankBody(body: string, parse: string -> Option<Json>)
    requires Strip(body) == ""
    ensures ParseWith(ScriptFraming, body, parse) == Value(ErrorObject("Empty response from AgentCore"))
    ensures ParseWith(WebSocketFraming, body, parse) == Value(ErrorObject("No data in SSE response"))
    ensures ParseWith(BackendFraming, body, parse) == Decode(parse, body)
  {
    forall i | 0 <= i < |body| ensures IsSpace(body[i]) {
    }
    assert !StartsWith(body, "event:") by {
      assert |body| == 0 || body[0] != 'e';
    }
    var lines := Split(body, '\n');
    forall j | 0 <= j < |lines| ensures !StartsWith(lines[j], DataPrefix) {
      BlankLinesHaveNoData(body, j);
    }
  }

  /** Every line of a blank body is blank, so none starts with `data: `. */
  lemma BlankLinesHaveNoData(body: string, j: nat)
    requires forall i | 0 <= i < |body| :: IsSpace(body[i])
    requires j < |Split(body, '\n')|
    ensures !StartsWith(Split(body, '\n')[j], DataPrefix)
  {
    BlankLines(body);
    var line := Split(body, '\n')[j];
    assert |line| == 0 || line[0] != 'd';
  }

  lemma {:induction false} BlankLines(body: string)
    requires forall i | 0 <= i < |body| :: IsSpace(body[i])
    ensures forall j, i | 0 <= j < |Split(body, '\n')| && 0 <= i < |Split(body, '\n')[j]| :: IsSpace(Split(body, '\n')[j][i])
  {
    if |body| > 0 {
      BlankLines(body[1..]);
    }
  }
}

=== FILE: backend.dfy ===
/** deploy/lambda_backend/handler.py: the HTTP proxy. It forwards the
    browser's JSON-RPC request to AgentCore and answers with the parsed
    result, or with HTTP 500 when anything on the way raised. */
module Backend {
  import opened Wrappers
  import opened Text
  import opened Json
  import opened AgentCore

  /** What the proxy answers the browser. */
  datatype Proxied = Ok200(body: Json) | Http500

  /** handler.py:31-34, `get_mcp_url`: with `AGENT_ARN` unset the
      `.replace` on `None` raises. */
  function ProxyUrl(arn: Option<string>, region: Option<string>): (r: Option<string>)
    ensures r.Some? <==> arn.Some?
    ensures r.Some? ==> RuntimeOfUrl(region.GetOr(DefaultRegion), r.value) == Some(arn.value) || '%' in arn.value
  {
    match arn
    case None => None
    case Some(a) => Some(McpUrl(region.GetOr(DefaultRegion), a))
  }

  /** handler.py:49-102, `proxy_mcp`, given the signed HTTPS call
      (`None`: it raised) and the JSON parser. */
  function ProxyMcp(arn: Option<string>, region: Option<string>, req: McpRequest,
                    respond: (string, Json) -> Option<string>, parse: string -> Option<Json>): (r: Proxied)
    ensures r.Ok200? <==>
              arn.Some? && respond(ProxyUrl(arn, region).value, Forwarded(req)).Some? &&
              ParseWith(BackendFraming, respond(ProxyUrl(arn, region).value, Forwarded(req)).value, parse).Value?
    ensures r.Ok200? ==> ParseWith(BackendFraming, respond(ProxyUrl(arn, region).value, Forwarded(req)).value, parse) == Value(r.body)
  {
    match ProxyUrl(arn, region)
    case None => Http500
    case Some(url) =>
      match respond(url, Forwarded(req))
      case None => Http500
      case Some(text) =>
        match ParseWith(BackendFraming, text, parse)
        case Value(j) => Ok200(j)
        case Raised => Http500
  }

  /** A stream without a data line is never a success. */
  lemma DatalessStreamFails(arn: string, region: Option<string>, req: McpRequest,
                            respond: (string, Json) -> Option<string>, parse: string -> Option<Json>)
    requires respond(McpUrl(region.GetOr(DefaultRegion), arn), Forwarded(req)).Some?
    requires StartsWith(respond(McpUrl(region.GetOr(DefaultRegion), arn), Forwarded(req)).value, "event:")
    requires DataPayload(respond(McpUrl(region.GetOr(DefaultRegion), arn), Forwarded(req)).value).None?
    ensures ProxyMcp(Some(arn), region, req, respond, parse) == Http500
  {
    StreamWithoutData(respond(McpUrl(region.GetOr(DefaultRegion), arn), Forwarded(req)).value, parse);
  }

  /** An event-framed answer reaches the browser as the answer itself. */
  lemma FramedAnswerForwarded(arn: string, region: Option<string>, req: McpRequest,
                              respond: (string, Json) -> Option<string>, parse: string -> Option<Json>,
                              payload: string, answer: Json)
    requires respond(McpUrl(region.GetOr(DefaultRegion), arn), Forwarded(req)) == Some(Frame(payload))
    requires '\n' !in payload && parse(payload) == Some(answer)
    ensures ProxyMcp(Some(arn), region, req, respond, parse) == Ok200(answer)
  {
    FramedAnswerRoundTrip(BackendFraming, payload, parse);
  }

  /** Any body not starting with `event:` is parsed whole: a success exactly
      when it is JSON. */
  lemma PlainAnswerForwarded(arn: string, region: Option<string>, req: McpRequest,
                             respond: (string, Json) -> Option<string>, parse: string -> Option<Json>, body: string)
    requires respond(McpUrl(region.GetOr(DefaultRegion), arn), Forwarded(req)) == Some(body)
    requires !StartsWith(body, "event:")
    ensures ProxyMcp(Some(arn), region, req, respond, parse) ==
              (if parse(body).Some? then Ok200(parse(body).value) else Http500)
  {
  }
}

=== FILE: bucketnames.dfy ===
/** `_strip_s3_bucket_names_for_auto_naming` (mcp_server.py:454-500): every
    S3 bucket loses its `BucketName` so that CloudFormation picks a unique
    one, inline templates of nested stacks included; a line filter then
    removes any `BucketName:` line the structured pass could not reach. */
module BucketNames {
  import opened Wrappers
  import opened Text
  import opened Json
  import opened LineFilter
  import opened TemplateRules

  // ---------------------------------------------------------------------------
  // The structured pass (lines 456-484)
  // ---------------------------------------------------------------------------

  /** The resource's Properties when they are a dict. */
  function PropsDict(rdef: Json): Option<seq<Entry<Json>>> {
    var p: Option<Json> := Field(rdef, "Properties");
    if p.Some? && p.value.JObj? then Some(p.value.fields) else None
  }

  /** A bucket whose Properties dict holds no `BucketName`. */
  predicate Unnamed(rdef: Json) {
    HasType(rdef, BucketType) && PropsDict(rdef).Some? ==> Get(PropsDict(rdef).value, "BucketName").None?
  }

  /** Properties holding a non-blank inline template (lines 475-476). */
  predicate HasInline(props: seq<Entry<Json>>) {
    var tb: Option<Json> := Get(props, "TemplateBody");
    tb.Some? && tb.value.JStr? && Strip(tb.value.s) != ""
  }

  function InlineOf(props: seq<Entry<Json>>): string
    requires HasInline(props)
  {
    Get(props, "TemplateBody").value.s
  }

  /** A nested stack whose non-empty Properties dict holds an inline template. */
  predicate HasInlineTemplate(rdef: Json) {
    HasType(rdef, NestedStackType) && PropsDict(rdef).Some? && |PropsDict(rdef).value| > 0 && HasInline(PropsDict(rdef).value)
  }

  /** Lines 471-480 on a Properties dict the resource holds: the edited dict,
      or `None` when nothing changes. `nested` stands for the recursive call on
      a nested stack's inline template. */
  function EditProps(isBucket: bool, isStack: bool, props: seq<Entry<Json>>, nested: string -> string): (r: Option<seq<Entry<Json>>>)
    ensures isBucket ==> Get(r.GetOr(props), "BucketName").None?
    ensures r.Some? ==> r.value != props
    ensures !isBucket && !isStack ==> r.None?
    ensures !isBucket && isStack && HasInline(props) ==> Get(r.GetOr(props), "TemplateBody") == Some(JStr(nested(InlineOf(props))))
  {
    if isBucket && HasKey(props, "BucketName") then
      var pruned := Remove(props, "BucketName");
      assert Get(pruned, "BucketName") != Get(props, "BucketName");
      Some(pruned)
    else if !isBucket && isStack && HasInline(props) then
      var tb := InlineOf(props);
      var child := nested(tb);
      if child != tb then
        var edited := Put(props, "TemplateBody", JStr(child));
        assert Get(edited, "TemplateBody") != Get(props, "TemplateBody");
        Some(edited)
      else None
    else None
  }

  /** The new definition of one resource and whether it differs. */
  datatype Stripped = Stripped(rdef: Json, changed: bool)

  /** Lines 467-480 for one resource. `props` is `rdef.get('Properties') or
      {}`: deleting from a string or a list raises, and so does `props.get`
      on anything but a dict. */
  function StripResource(rdef: Json, nested: string -> string): (r: Try<Stripped>)
    ensures r.Ok? ==> Unnamed(r.value.rdef)
    ensures r.Ok? ==> r.value.rdef.JObj? == rdef.JObj?
    ensures r.Ok? ==> (r.value.changed <==> r.value.rdef != rdef)
    ensures r.Ok? ==> forall k {:trigger Field(r.value.rdef, k)} :: k != "Properties" ==> Field(r.value.rdef, k) == Field(rdef, k)
    ensures !HasType(rdef, BucketType) && !HasType(rdef, NestedStackType) ==> r == Ok(Stripped(rdef, false))
    ensures HasInlineTemplate(rdef) ==>
              r.Ok? && PropsDict(r.value.rdef).Some?
              && Get(PropsDict(r.value.rdef).value, "TemplateBody") == Some(JStr(nested(InlineOf(PropsDict(rdef).value))))
  {
    if !rdef.JObj? then Ok(Stripped(rdef, false))
    else
      var isBucket := HasType(rdef, BucketType);
      var isStack := HasType(rdef, NestedStackType);
      assert !(isBucket && isStack);
      match ViewOf(Get(rdef.fields, "Properties"))
      case Detached => Ok(Stripped(rdef, false))
      case Foreign(p) =>
        if isBucket then
          match PyContains(p, "BucketName")
          case Raises => Raises
          case Ok(named) => if named then Raises else Ok(Stripped(rdef, false))
        else if isStack then Raises
        else Ok(Stripped(rdef, false))
      case Attached(props) =>
        match EditProps(isBucket, isStack, props, nested)
        case None => Ok(Stripped(rdef, false))
        case Some(edited) => Ok(Stripped(WithProps(rdef, edited), true))
  }

  /** `rdef['Properties'] = edited` on a resource dict. */
  function WithProps(rdef: Json, edited: seq<Entry<Json>>): (r: Json)
    requires rdef.JObj?
    ensures r.JObj? && PropsDict(r) == Some(edited)
    ensures forall k {:trigger Field(r, k)} :: k != "Properties" ==> Field(r, k) == Field(rdef, k)
  {
    JObj(Put(rdef.fields, "Properties", JObj(edited)))
  }

  /** The resources after the loop and whether any changed. */
  datatype Pass = Pass(resources: seq<Entry<Json>>, changed: bool)

  /** Lines 466-480: the loop over `resources.values()`, editing in place. */
  function StripAll(entries: seq<Entry<Json>>, nested: string -> string): (r: Try<Pass>)
    ensures r.Raises? <==> exists i | 0 <= i < |entries| :: StripResource(entries[i].val, nested).Raises?
    ensures r.Ok? ==> |r.value.resources| == |entries|
    ensures r.Ok? ==> forall i | 0 <= i < |entries| ::
              r.value.resources[i].key == entries[i].key
              && StripResource(entries[i].val, nested) == Ok(Stripped(r.value.resources[i].val, StripResource(entries[i].val, nested).value.changed))
    ensures r.Ok? ==> (r.value.changed <==> r.value.resources != entries)
    decreases |entries|
  {
    if |entries| == 0 then Ok(Pass([], false))
    else
      assert forall i | 1 <= i < |entries| :: entries[i] == entries[1..][i - 1];
      match StripResource(entries[0].val, nested)
      case Raises => Raises
      case Ok(s) =>
        match StripAll(entries[1..], nested)
        case Raises => Raises
        case Ok(p) =>
          var rs := [Entry(entries[0].key, s.rdef)] + p.resources;
          assert rs[1..] == p.resources;
          assert rs == entries <==> s.rdef == entries[0].val && p.resources == entries[1..];
          Ok(Pass(rs, s.changed || p.changed))
  }

  /** Lines 463-482 on a parsed dict: the edited document when a resource
      changed, `None` when none did. */
  function StripDocument(fields: seq<Entry<Json>>, nested: string -> string): (r: Try<Option<Json>>)
    ensures r.Ok? && r.value.Some? ==> r.value.value.JObj?
  {
    match ViewOf(Get(fields, "Resources"))
    case Foreign(_) => Raises
    case Detached => Ok(None)
    case Attached(entries) =>
      match StripAll(entries, nested)
      case Raises => Raises
      case Ok(p) => if p.changed then Ok(Some(JObj(Put(fields, "Resources", JObj(p.resources))))) else Ok(None)
  }

  /** Lines 456-484: the dump of the edited document in the input's format
      when the pass changed something, else the input. */
  function Structured(codec: Codec, body: string, nested: string -> string): string {
    var isJson := IsJsonText(body);
    var parsed := if isJson then codec.parseJson(body) else codec.parseYaml(body);
    if parsed.None? || !Truthy(parsed.value) || !parsed.value.JObj? then body
    else
      match StripDocument(parsed.value.fields, nested)
      case Ok(Some(d)) => if isJson then codec.dumpJson(d) else codec.dumpYaml(d)
      case _ => body
  }

  // ---------------------------------------------------------------------------
  // The line fallback (lines 486-499)
  // ---------------------------------------------------------------------------

  predicate IsQuote(c: char) {
    c == '"' || c == '\''
  }

  /** The length of an optional leading quote. */
  function QuoteLen(s: string): (n: nat)
    ensures n <= |s|
  {
    if |s| > 0 && IsQuote(s[0]) then 1 else 0
  }

  /** After `BucketName`: an optional quote, blanks, then `:`. */
  predicate ColonNext(rest: string) {
    var tail := LStrip(rest[QuoteLen(rest)..]);
    |tail| > 0 && tail[0] == ':'
  }

  /** `re.match(r'^["\']?BucketName["\']?\s*:\s*', s)`, read left to right.
      Each optional quote is taken when present: backtracking over it cannot
      help, since a quote is neither the `B` that must follow the first one
      nor a blank or the `:` that may follow the second. The closing `\s*`
      also matches nothing, so it adds no condition. */
  predicate MatchesQuotedKey(s: string) {
    var a := QuoteLen(s);
    StartsWith(s[a..], "BucketName") && ColonNext(s[a + 10..])
  }

  /** `re.match(r'^BucketName\s*:\s*', s)` */
  predicate MatchesBareKey(s: string) {
    StartsWith(s, "BucketName") && var tail := LStrip(s[10..]); |tail| > 0 && tail[0] == ':'
  }

  /** Line 494: the condition under which a line is dropped. */
  predicate IsBucketNameLine(line: string) {
    var t := Strip(line);
    MatchesQuotedKey(t) || MatchesBareKey(t)
  }

  /** The fallback drops single lines; it never takes the next one along. */
  const BucketNameLines := LineRule(IsBucketNameLine, (key: string, next: string) => false)

  /** Lines 486-499: when the text still mentions both `S3::Bucket` and
      `BucketName`, split it on newlines, drop the key lines and join again. */
  function LineFallback(text: string): (r: string)
    ensures !(Contains(text, "S3::Bucket") && Contains(text, "BucketName")) ==> r == text
    ensures !HasKeyLine(Split(text, '\n'), BucketNameLines) ==> r == text
    ensures Contains(text, "S3::Bucket") && Contains(text, "BucketName") ==>
              var kept := DropKeyLines(Split(text, '\n'), BucketNameLines);
              (|kept| > 0 ==> Split(r, '\n') == kept) && (|kept| == 0 ==> r == "")
  {
    var lines := Split(text, '\n');
    var kept := DropKeyLines(lines, BucketNameLines);
    assert !HasKeyLine(lines, BucketNameLines) ==> Join('\n', kept) == text by {
      if !HasKeyLine(lines, BucketNameLines) {
        DropNothing(lines, BucketNameLines);
        JoinSplit(text, '\n');
      }
    }
    assert |kept| > 0 ==> Split(Join('\n', kept), '\n') == kept by {
      if |kept| > 0 {
        DropKeepsOthers(lines, BucketNameLines);
        SplitJoin(kept, '\n');
      }
    }
    if Contains(text, "S3::Bucket") && Contains(text, "BucketName") then Join('\n', kept) else text
  }

  /** Lines 454-500 with nested stacks followed `depth` levels down. A
      result that still mentions a bucket and `BucketName` has no
      `BucketName` line left, so the fallback would not change it again. */
  function StripBucketNames(codec: Codec, body: string, depth: nat): (r: string)
    ensures Contains(r, "S3::Bucket") && Contains(r, "BucketName") ==> !HasKeyLine(Split(r, '\n'), BucketNameLines)
    ensures LineFallback(r) == r
    decreases depth, 1
  {
    var structured := Structured(codec, body, Nested(codec, depth));
    LineFallbackIdempotent(structured);
    LineFallback(structured)
  }

  /** Line 478: the recursive call on a nested stack's inline template, cut
      off `depth` levels down. */
  function Nested(codec: Codec, depth: nat): string -> string
    decreases depth, 0
  {
    (tb: string) => if depth == 0 then tb else StripBucketNames(codec, tb, depth - 1)
  }

  // ---------------------------------------------------------------------------
  // Properties
  // ---------------------------------------------------------------------------

  /** Every bucket among the document's resources is unnamed. */
  predicate AllUnnamed(d: Json) {
    forall i | 0 <= i < |ResourcesOf(d)| :: Unnamed(ResourcesOf(d)[i].val)
  }

  /** The loop leaves every resource unnamed and every id in place. */
  lemma StripAllUnnamed(entries: seq<Entry<Json>>, nested: string -> string)
    requires StripAll(entries, nested).Ok?
    ensures forall i | 0 <= i < |StripAll(entries, nested).value.resources| :: Unnamed(StripAll(entries, nested).value.resources[i].val)
    ensures !StripAll(entries, nested).value.changed ==> forall i | 0 <= i < |entries| :: Unnamed(entries[i].val)
    ensures Keys(StripAll(entries, nested).value.resources) == Keys(entries)
  {
    var rs := StripAll(entries, nested).value.resources;
    forall i | 0 <= i < |rs| ensures Unnamed(rs[i].val) {
      assert StripResource(entries[i].val, nested).Ok?;
    }
  }

  /** Lines 463-482: a completed pass leaves no bucket with a `BucketName`,
      whether it edited the document or found nothing to edit; the resource
      ids are kept. */
  lemma StripDocumentUnnamed(fields: seq<Entry<Json>>, nested: string -> string)
    requires StripDocument(fields, nested).Ok?
    ensures StripDocument(fields, nested).value.None? ==> AllUnnamed(JObj(fields))
    ensures StripDocument(fields, nested).value.Some? ==>
              && AllUnnamed(StripDocument(fields, nested).value.value)
              && Keys(ResourcesOf(StripDocument(fields, nested).value.value)) == Keys(ResourcesOf(JObj(fields)))
              && forall k | k != "Resources" :: Get(StripDocument(fields, nested).value.value.fields, k) == Get(fields, k)
  {
    match ViewOf(Get(fields, "Resources"))
    case Detached =>
    case Attached(entries) =>
      ResourcesOfField(JObj(fields), entries);
      StripAllUnnamed(entries, nested);
      var p := StripAll(entries, nested).value;
      if p.changed {
        var d := JObj(Put(fields, "Resources", JObj(p.resources)));
        ResourcesOfField(d, p.resources);
      }
  }

  /** Lines 467-480 touch nothing of a resource but its `Properties`. */
  lemma StripResourceKeepsKeys(rdef: Json, nested: string -> string)
    requires StripResource(rdef, nested).Ok?
    ensures KeepsAllBut(rdef, StripResource(rdef, nested).value.rdef, "Properties")
  {
    var r := StripResource(rdef, nested).value.rdef;
    if rdef.JObj? {
      forall k | k != "Properties" ensures Get(r.fields, k) == Get(rdef.fields, k) {
        assert Field(r, k) == Field(rdef, k);
      }
    }
  }

  /** `rs` is `entries` after the loop: the same resources in the same
      order, each changed at most in its `Properties`, and resources that
      are neither buckets nor nested stacks not at all. */
  ghost predicate ResourcesKept(entries: seq<Entry<Json>>, rs: seq<Entry<Json>>) {
    && |rs| == |entries|
    && forall i | 0 <= i < |entries| ::
         && rs[i].key == entries[i].key
         && KeepsAllBut(entries[i].val, rs[i].val, "Properties")
         && (!HasType(entries[i].val, BucketType) && !HasType(entries[i].val, NestedStackType) ==> rs[i] == entries[i])
  }

  /** A pass that edited the document kept its resources as `ResourcesKept` says. */
  lemma StripDocumentKept(fields: seq<Entry<Json>>, nested: string -> string)
    requires StripDocument(fields, nested).Ok? && StripDocument(fields, nested).value.Some?
    ensures ResourcesKept(ResourcesOf(JObj(fields)), ResourcesOf(StripDocument(fields, nested).value.value))
  {
    var entries := ViewOf(Get(fields, "Resources")).fields;
    ResourcesOfField(JObj(fields), entries);
    var p := StripAll(entries, nested).value;
    var d := JObj(Put(fields, "Resources", JObj(p.resources)));
    assert StripDocument(fields, nested).value.value == d;
    ResourcesOfField(d, p.resources);
    forall i | 0 <= i < |entries| ensures KeepsAllBut(entries[i].val, p.resources[i].val, "Properties") {
      StripResourceKeepsKeys(entries[i].val, nested);
    }
  }

  /** `d` is `parsed` after a pass that edited it: no bucket keeps a name,
      the resource ids are the same and in the same order, each resource is
      changed at most in its `Properties` and not at all unless it is a
      bucket or a nested stack, and every top-level key but `Resources` is
      as it was. */
  ghost predicate UnnamedFrom(parsed: Json, d: Json) {
    && parsed.JObj? && d.JObj? && AllUnnamed(d)
    && Keys(ResourcesOf(d)) == Keys(ResourcesOf(parsed))
    && ResourcesKept(ResourcesOf(parsed), ResourcesOf(d))
    && forall k | k != "Resources" :: Get(d.fields, k) == Get(parsed.fields, k)
  }

  /** Lines 456-484 end to end: the input comes back, or the dump in the
      input's format of the parsed input with every bucket name removed and
      everything else in place. */
  lemma StructuredOutcome(codec: Codec, body: string, nested: string -> string)
    ensures var r := Structured(codec, body, nested);
            var parsed := if IsJsonText(body) then codec.parseJson(body) else codec.parseYaml(body);
            || r == body
            || (parsed.Some? && exists d :: (UnnamedFrom(parsed.value, d)
                  && r == (if IsJsonText(body) then codec.dumpJson(d) else codec.dumpYaml(d))))
  {
    var parsed := if IsJsonText(body) then codec.parseJson(body) else codec.parseYaml(body);
    if parsed.Some? && Truthy(parsed.value) && parsed.value.JObj? {
      var out := StripDocument(parsed.value.fields, nested);
      if out.Ok? && out.value.Some? {
        StripDocumentUnnamed(parsed.value.fields, nested);
        StripDocumentKept(parsed.value.fields, nested);
        assert UnnamedFrom(parsed.value, out.value.value);
      }
    }
  }

  /** Lines 454-500 end to end: the answer is the line fallback applied
      either to the input or to the dump, in the input's format, of the
      parsed input with every bucket name removed and everything else in
      place. */
  lemma StripBucketNamesOutcome(codec: Codec, body: string, depth: nat)
    ensures var r := StripBucketNames(codec, body, depth);
            var parsed := if IsJsonText(body) then codec.parseJson(body) else codec.parseYaml(body);
            || r == LineFallback(body)
            || (parsed.Some? && exists d :: (UnnamedFrom(parsed.value, d)
                  && r == LineFallback(if IsJsonText(body) then codec.dumpJson(d) else codec.dumpYaml(d))))
  {
    StructuredOutcome(codec, body, Nested(codec, depth));
  }

  /** The second pattern of line 494 adds nothing to the first. */
  lemma BareKeyIsQuotedKey(s: string)
    ensures MatchesBareKey(s) ==> MatchesQuotedKey(s)
  {
    if MatchesBareKey(s) {
      assert s[0] == 'B';
      var rest := s[10..];
      assert QuoteLen(rest) == 0;
    }
  }

  /** A key followed by a letter is not followed by a colon. */
  lemma LetterIsNoColon(rest: string)
    requires |rest| > 0 && 'A' <= rest[0] <= 'Z'
    ensures !ColonNext(rest)
  {
    assert QuoteLen(rest) == 0;
    assert LStrip(rest) == rest;
  }

  /** After the optional quote comes `BucketNameSuffix`: the quote is skipped
      and the letter after `BucketName` rules the key out. */
  lemma SuffixKeyNotQuoted(t: string, q: string)
    requires OptQuote(q)
    requires |t| >= |q| + 16 && t[..|q|] == q && t[|q|..|q| + 16] == "BucketNameSuffix"
    ensures !MatchesQuotedKey(t)
  {
    var k := |q|;
    assert t[k..k + 16][0] == 'B' && t[k..k + 16][10] == 'S';
    assert QuoteLen(t) == k by {
      if k == 1 {
        assert t[0] == q[0];
      }
    }
    LetterIsNoColon(t[k + 10..]);
  }

  /** Nor does the bare pattern match such a text. */
  lemma SuffixKeyNotBare(t: string, q: string)
    requires OptQuote(q)
    requires |t| >= |q| + 16 && t[..|q|] == q && t[|q|..|q| + 16] == "BucketNameSuffix"
    ensures !MatchesBareKey(t)
  {
    var k := |q|;
    if k == 1 {
      assert t[0] == q[0];
    } else {
      assert t[..16] == "BucketNameSuffix";
      assert t[10] == 'S';
      LetterIsNoColon(t[10..]);
    }
  }

  /** Text such as `BucketNameSuffix: ...` or `"BucketNameSuffix": ...` is no
      key: after `BucketName` comes a letter, not a quote, a blank or `:`. */
  lemma SuffixKeyRejected(t: string, q: string)
    requires OptQuote(q)
    requires |t| >= |q| + 16 && t[..|q|] == q && t[|q|..|q| + 16] == "BucketNameSuffix"
    ensures !MatchesQuotedKey(t) && !MatchesBareKey(t)
  {
    SuffixKeyNotQuoted(t, q);
    SuffixKeyNotBare(t, q);
  }

  /** Lines whose stripped text opens with `BucketNameSuffix`, bare or quoted, are kept. */
  lemma SuffixLineKept(line: string, q: string)
    requires OptQuote(q)
    requires StartsWith(Strip(line), q + "BucketNameSuffix")
    ensures !IsBucketNameLine(line)
  {
    var t := Strip(line);
    assert t[..|q|] == q && t[|q|..|q| + 16] == "BucketNameSuffix" by {
      assert t[..|q| + 16] == q + "BucketNameSuffix";
    }
    SuffixKeyRejected(t, q);
  }

  /** One optional quote: nothing, `"` or `'`. */
  predicate OptQuote(q: string) {
    q == "" || (|q| == 1 && IsQuote(q[0]))
  }

  predicate Blanks(w: string) {
    forall i | 0 <= i < |w| :: IsSpace(w[i])
  }

  /** Stripping blanks ahead of a non-blank character leaves it first. */
  lemma LStripBlanks(w: string, x: string)
    requires Blanks(w) && |x| > 0 && !IsSpace(x[0])
    ensures LStrip(w + x) == x
  {
    var s := w + x;
    assert s[|w|..] == x;
  }

  /** An optional quote ahead of a text that does not open with one is the
      part the reading skips. */
  lemma QuoteLenOf(q: string, x: string)
    requires OptQuote(q) && |x| > 0 && !IsQuote(x[0])
    ensures QuoteLen(q + x) == |q| && (q + x)[|q|..] == x
  {
    if |q| == 1 {
      assert (q + x)[0] == q[0];
    } else {
      assert q + x == x;
    }
  }

  /** After the key: an optional quote, blanks, then a colon. */
  lemma ColonNextOf(q2: string, w: string, rest: string)
    requires OptQuote(q2) && Blanks(w)
    ensures ColonNext(q2 + (w + ([':'] + rest)))
  {
    var z := w + ([':'] + rest);
    assert z[0] == if |w| > 0 then w[0] else ':';
    LStripBlanks(w, [':'] + rest);
    QuoteLenOf(q2, z);
  }

  /** Texts of the shape `["']?BucketName["']?\s*:` followed by anything
      satisfy the left-to-right reading. */
  lemma QuotedKeyIsPattern(q1: string, q2: string, w: string, rest: string)
    requires OptQuote(q1) && OptQuote(q2) && Blanks(w)
    ensures MatchesQuotedKey(q1 + ("BucketName" + (q2 + (w + ([':'] + rest)))))
  {
    var y := q2 + (w + ([':'] + rest));
    ColonNextOf(q2, w, rest);
    var x := "BucketName" + y;
    assert x[0] == 'B';
    QuoteLenOf(q1, x);
    assert x[..10] == "BucketName" && x[10..] == y;
  }

  /** The characters `lstrip` removes are blanks. */
  lemma StrippedBlanks(s: string)
    ensures Blanks(s[..|s| - |LStrip(s)|])
  {
  }

  /** Blanks then a colon, split at the end of the blanks; `r` is what
      `lstrip` left. */
  lemma ColonTail(after: string, r: string) returns (w: string, rest: string)
    requires |r| <= |after| && r == after[|after| - |r|..] && Blanks(after[..|after| - |r|])
    requires |r| > 0 && r[0] == ':'
    ensures Blanks(w) && after == w + ([':'] + rest)
  {
    w, rest := after[..|after| - |r|], r[1..];
    assert r == [':'] + rest;
    assert after == w + r;
  }

  /** The parts of a text that passes the test after the key. */
  lemma ColonParts(y: string) returns (q2: string, w: string, rest: string)
    requires ColonNext(y)
    ensures OptQuote(q2) && Blanks(w) && y == q2 + (w + ([':'] + rest))
  {
    var b := QuoteLen(y);
    var after := y[b..];
    StrippedBlanks(after);
    w, rest := ColonTail(after, LStrip(after));
    q2 := y[..b];
    assert y == q2 + after;
  }

  /** A text cut after an optional quote and the key. */
  lemma CutAfterKey(s: string, a: nat)
    requires a + 10 <= |s| && s[a..][..10] == "BucketName"
    ensures s == s[..a] + ("BucketName" + s[a + 10..])
  {
    assert s[a..] == s[a..][..10] + s[a + 10..];
    assert s == s[..a] + s[a..];
  }

  /** The parts of a text the reading accepts. */
  lemma QuotedKeyParts(s: string) returns (q1: string, q2: string, w: string, rest: string)
    requires MatchesQuotedKey(s)
    ensures OptQuote(q1) && OptQuote(q2) && Blanks(w)
    ensures s == q1 + ("BucketName" + (q2 + (w + ([':'] + rest))))
  {
    var a := QuoteLen(s);
    q2, w, rest := ColonParts(s[a + 10..]);
    CutAfterKey(s, a);
    q1 := s[..a];
  }

  /** Conversely every text the reading accepts has that shape. */
  lemma PatternOfQuotedKey(s: string)
    requires MatchesQuotedKey(s)
    ensures exists q1, q2, w, rest :: OptQuote(q1) && OptQuote(q2) && Blanks(w)
              && s == q1 + ("BucketName" + (q2 + (w + ([':'] + rest))))
  {
    var q1, q2, w, rest := QuotedKeyParts(s);
  }

  /** A line shorter than the key is no key line. */
  lemma ShortIsNoKey(line: string)
    requires |line| < 10
    ensures !IsBucketNameLine(line)
  {
    assert |Strip(line)| <= |line|;
  }

  /** No key line survives the fallback when it fires. */
  lemma LineFallbackLeavesNone(text: string)
    requires Contains(text, "S3::Bucket") && Contains(text, "BucketName")
    ensures !HasKeyLine(Split(LineFallback(text), '\n'), BucketNameLines)
  {
    var lines := Split(text, '\n');
    var kept := DropKeyLines(lines, BucketNameLines);
    if |kept| > 0 {
      DropKeepsOthers(lines, BucketNameLines);
    } else {
      ShortIsNoKey("");
      assert Split("", '\n') == [""];
    }
  }

  /** A second run of the fallback changes nothing. */
  lemma LineFallbackIdempotent(text: string)
    ensures LineFallback(LineFallback(text)) == LineFallback(text)
    ensures var r := LineFallback(text);
            Contains(r, "S3::Bucket") && Contains(r, "BucketName") ==> !HasKeyLine(Split(r, '\n'), BucketNameLines)
  {
    if Contains(text, "S3::Bucket") && Contains(text, "BucketName") {
      LineFallbackLeavesNone(text);
    }
  }


  /** The bucket-name rule drops single lines and never the one after. */
  lemma BucketNameLinesKeysOnly()
    ensures KeysOnly(BucketNameLines)
  {
    forall key, next ensures !BucketNameLines.isValue(key, next) {
    }
  }

  /** The fallback filters line by line and keeps the order: around any
      line, what survives before it comes first and what survives after it
      comes last, and the line itself survives exactly when it is not a
      `BucketName` line. */
  lemma BucketLinesInOrder(before: seq<string>, line: string, after: seq<string>)
    ensures DropKeyLines(before + [line] + after, BucketNameLines)
            == DropKeyLines(before, BucketNameLines)
               + (if IsBucketNameLine(line) then [] else [line])
               + DropKeyLines(after, BucketNameLines)
  {
    BucketNameLinesKeysOnly();
    DropKeysOnlyAppend(before + [line], after, BucketNameLines);
    DropKeysOnlyAppend(before, [line], BucketNameLines);
    DropKeysOnlyOne(line, BucketNameLines);
  }

  /** Every line that is not a `BucketName` line survives the fallback. */
  lemma LineFallbackKeepsOthers(text: string)
    requires Contains(text, "S3::Bucket") && Contains(text, "BucketName")
    ensures var lines := Split(text, '\n');
            forall i | 0 <= i < |lines| :: !IsBucketNameLine(lines[i]) ==> lines[i] in Split(LineFallback(text), '\n')
  {
    var lines := Split(text, '\n');
    BucketNameLinesKeysOnly();
    DropKeysOnlyKeeps(lines, BucketNameLines);
  }
}

=== FILE: classify.dfy ===
/** Choosing a canned template for a prompt (mcp_server.py:713-900): four
    keyword classifiers and the order in which `build_cfn_template` tries
    a button's template, then the classifiers, before generating one. Reading
    the template files is a parameter. */
module Classify {
  import opened Wrappers
  import opened Text

  // ---------------------------------------------------------------------------
  // Keyword classifiers (lines 713-796)
  // ---------------------------------------------------------------------------

  predicate MentionsAny(text: string, phrases: seq<string>) {
    exists i | 0 <= i < |phrases| :: Contains(text, phrases[i])
  }

  /** A non-empty prompt whose stripped, lower-cased text contains one of the
      phrases. A missing prompt is the empty string here. */
  predicate Matches(prompt: string, phrases: seq<string>) {
    |prompt| > 0 && MentionsAny(Lower(Strip(prompt)), phrases)
  }

  const ThreeTierPhrases: seq<string> :=
    ["3-tier", "three tier", "three-tier", "3 tier", "three tier app", "3-tier app"]
  const MicroservicesPhrases: seq<string> :=
    ["microservices", "micro services", "micro-service", "micro service",
     "microservices architecture", "microservices platform"]
  const ServerlessRestPhrases: seq<string> :=
    ["serverless rest api", "serverless rest", "serverless api", "serverless architecture",
     "serverless rest api architecture"]
  const DataPipelinePhrases: seq<string> :=
    ["data processing pipeline", "data pipeline", "data pipeline architecture",
     "etl", "kinesis", "step functions", "glue", "athena"]

  /** Lines 713-721 */
  predicate IsThreeTierRequest(prompt: string) {
    Matches(prompt, ThreeTierPhrases)
  }

  /** Lines 744-759 */
  predicate IsMicroservicesRequest(prompt: string) {
    Matches(prompt, MicroservicesPhrases)
  }

  /** Lines 762-776 */
  predicate IsServerlessRestRequest(prompt: string) {
    Matches(prompt, ServerlessRestPhrases)
  }

  /** Lines 779-796 */
  predicate IsDataPipelineRequest(prompt: string) {
    Matches(prompt, DataPipelinePhrases)
  }

  /** Every phrase starts with a kept one (`cover[i]` names it) and every
      kept phrase is listed (at `back[j]`). */
  predicate Covers(phrases: seq<string>, kept: seq<string>, cover: seq<nat>, back: seq<nat>) {
    && |cover| == |phrases| && |back| == |kept|
    && (forall i | 0 <= i < |phrases| :: cover[i] < |kept| && StartsWith(phrases[i], kept[cover[i]]))
    && (forall j | 0 <= j < |kept| :: back[j] < |phrases| && phrases[back[j]] == kept[j])
  }

  /** A covered list of phrases can be cut down to the kept ones: a text
      contains one of either list exactly when it contains one of the other. */
  lemma Reduce(text: string, phrases: seq<string>, kept: seq<string>, cover: seq<nat>, back: seq<nat>)
    requires Covers(phrases, kept, cover, back)
    ensures MentionsAny(text, phrases) <==> MentionsAny(text, kept)
  {
    if MentionsAny(text, phrases) {
      var i :| 0 <= i < |phrases| && Contains(text, phrases[i]);
      var q := kept[cover[i]];
      assert phrases[i] == q + phrases[i][|q|..];
      ContainsPiece(text, q, phrases[i][|q|..]);
    }
    if MentionsAny(text, kept) {
      var j :| 0 <= j < |kept| && Contains(text, kept[j]);
      assert Contains(text, phrases[back[j]]);
    }
  }

  const ThreeTierKept: seq<string> := ["3-tier", "three tier", "three-tier", "3 tier"]
  const MicroservicesKept: seq<string> := ["microservices", "micro-service", "micro service"]
  const ServerlessRestKept: seq<string> := ["serverless rest", "serverless api", "serverless architecture"]
  const DataPipelineKept: seq<string> :=
    ["data processing pipeline", "data pipeline", "etl", "kinesis", "step functions", "glue", "athena"]

  lemma ThreeTierCovered()
    ensures Covers(ThreeTierPhrases, ThreeTierKept, [0, 1, 2, 3, 1, 0], [0, 1, 2, 3])
  {
    assert StartsWith(ThreeTierPhrases[4], ThreeTierKept[1]);
    assert StartsWith(ThreeTierPhrases[5], ThreeTierKept[0]);
  }

  lemma MicroservicesCovered()
    ensures Covers(MicroservicesPhrases, MicroservicesKept, [0, 2, 1, 2, 0, 0], [0, 2, 3])
  {
    assert StartsWith(MicroservicesPhrases[1], MicroservicesKept[2]);
    assert StartsWith(MicroservicesPhrases[4], MicroservicesKept[0]);
    assert StartsWith(MicroservicesPhrases[5], MicroservicesKept[0]);
  }

  lemma ServerlessRestCovered()
    ensures Covers(ServerlessRestPhrases, ServerlessRestKept, [0, 0, 1, 2, 0], [1, 2, 3])
  {
    assert StartsWith(ServerlessRestPhrases[0], ServerlessRestKept[0]);
    assert StartsWith(ServerlessRestPhrases[4], ServerlessRestKept[0]);
  }

  lemma DataPipelineCovered()
    ensures Covers(DataPipelinePhrases, DataPipelineKept, [0, 1, 1, 2, 3, 4, 5, 6], [0, 1, 3, 4, 5, 6, 7])
  {
    assert StartsWith(DataPipelinePhrases[2], DataPipelineKept[1]);
  }

  /** "three tier app" and "3-tier app" add nothing to the four shorter phrases. */
  lemma ThreeTierCore(prompt: string)
    ensures IsThreeTierRequest(prompt) <==> Matches(prompt, ThreeTierKept)
  {
    ThreeTierCovered();
    Reduce(Lower(Strip(prompt)), ThreeTierPhrases, ThreeTierKept, [0, 1, 2, 3, 1, 0], [0, 1, 2, 3]);
  }

  /** "micro services" and the two longer "microservices ..." phrases add nothing. */
  lemma MicroservicesCore(prompt: string)
    ensures IsMicroservicesRequest(prompt) <==> Matches(prompt, MicroservicesKept)
  {
    MicroservicesCovered();
    Reduce(Lower(Strip(prompt)), MicroservicesPhrases, MicroservicesKept, [0, 2, 1, 2, 0, 0], [0, 2, 3]);
  }

  /** Both phrases with "serverless rest api" add nothing to "serverless rest". */
  lemma ServerlessRestCore(prompt: string)
    ensures IsServerlessRestRequest(prompt) <==> Matches(prompt, ServerlessRestKept)
  {
    ServerlessRestCovered();
    Reduce(Lower(Strip(prompt)), ServerlessRestPhrases, ServerlessRestKept, [0, 0, 1, 2, 0], [1, 2, 3]);
  }

  /** "data pipeline architecture" adds nothing to "data pipeline". */
  lemma DataPipelineCore(prompt: string)
    ensures IsDataPipelineRequest(prompt) <==> Matches(prompt, DataPipelineKept)
  {
    DataPipelineCovered();
    Reduce(Lower(Strip(prompt)), DataPipelinePhrases, DataPipelineKept, [0, 1, 1, 2, 3, 4, 5, 6], [0, 1, 3, 4, 5, 6, 7]);
  }

  // ---------------------------------------------------------------------------
  // Loading a canned template (lines 724-741, 799-816)
  // ---------------------------------------------------------------------------

  /** `(format or "yaml").lower() == "json"`; a missing format is the empty string. */
  predicate WantsJson(format: string) {
    Lower(if format == "" then "yaml" else format) == "json"
  }

  /** The loader: `""` when the file cannot be read; the YAML text, or its JSON
      dump when JSON is asked for and the conversion succeeds. `toJson`
      stands for `json.dumps(yaml.safe_load(...))`, `None` where it raises. */
  function LoadTemplate(format: string, read: Option<string>, toJson: string -> Option<string>): (r: string)
    ensures read.None? ==> r == ""
    ensures read.Some? && (!WantsJson(format) || toJson(read.value).None?) ==> r == read.value
    ensures read.Some? && WantsJson(format) && toJson(read.value).Some? ==> r == toJson(read.value).value
  {
    match read
    case None => ""
    case Some(yaml) =>
      if WantsJson(format) then toJson(yaml).GetOr(yaml) else yaml
  }

  // ---------------------------------------------------------------------------
  // Which template answers (lines 840-900)
  // ---------------------------------------------------------------------------

  const TemplateIds: seq<string> := ["three_tier", "microservices", "serverless_rest_api", "data_pipeline"]

  /** The file of each button: `three_tier` through its own loader, the other
      three through the mapping at line 845. */
  function IdFile(id: string): string
    requires id in TemplateIds
  {
    if id == "three_tier" then "three_tier.yaml"
    else if id == "microservices" then "microservices.yaml"
    else if id == "serverless_rest_api" then "serverless_rest_api.yaml"
    else "data_pipeline.yaml"
  }

  /** A canned template with its file, or the call to the model. */
  datatype Source = Canned(file: string, text: string) | Generated

  /** The button's file, when the button names a known template. */
  function ButtonFile(templateId: string): Option<string> {
    if templateId != "" && templateId in TemplateIds then Some(IdFile(templateId)) else None
  }

  /** Lines 840-900 as the code runs them, with the four classifier answers
      given: each step returns a canned template when the loader gave a
      non-empty text and falls through otherwise. */
  function ChooseBy(button: Option<string>, threeTier: bool, micro: bool, rest: bool, pipeline: bool,
                    load: string -> string): (r: Source)
    ensures r.Canned? ==> r.text == load(r.file) && r.text != ""
  {
    if button.Some? && load(button.value) != "" then Canned(button.value, load(button.value))
    else if threeTier && load("three_tier.yaml") != "" then Canned("three_tier.yaml", load("three_tier.yaml"))
    else if micro && load("microservices.yaml") != "" then Canned("microservices.yaml", load("microservices.yaml"))
    else if rest && load("serverless_rest_api.yaml") != "" then
      Canned("serverless_rest_api.yaml", load("serverless_rest_api.yaml"))
    else if pipeline && load("data_pipeline.yaml") != "" then Canned("data_pipeline.yaml", load("data_pipeline.yaml"))
    else Generated
  }

  /** `build_cfn_template`'s choice for a prompt and an optional button
      (the empty string when there is none); `load` is the loader above for
      the requested format. */
  function ChooseSource(prompt: string, templateId: string, load: string -> string): (r: Source)
    ensures r.Canned? ==> r.text == load(r.file) && r.text != ""
  {
    ChooseBy(ButtonFile(templateId), IsThreeTierRequest(prompt), IsMicroservicesRequest(prompt),
             IsServerlessRestRequest(prompt), IsDataPipelineRequest(prompt), load)
  }

  function Opt(b: bool, file: string): seq<string> {
    if b then [file] else []
  }

  /** The files worth trying, in order: the button's, then one per matching
      classifier. */
  function CandidatesBy(button: Option<string>, threeTier: bool, micro: bool, rest: bool, pipeline: bool): seq<string> {
    (if button.Some? then [button.value] else [])
    + (Opt(threeTier, "three_tier.yaml") + (Opt(micro, "microservices.yaml")
    + (Opt(rest, "serverless_rest_api.yaml") + Opt(pipeline, "data_pipeline.yaml"))))
  }

  function Candidates(prompt: string, templateId: string): seq<string> {
    CandidatesBy(ButtonFile(templateId), IsThreeTierRequest(prompt), IsMicroservicesRequest(prompt),
                 IsServerlessRestRequest(prompt), IsDataPipelineRequest(prompt))
  }

  /** The first file whose text is non-empty. */
  function FirstLoaded(files: seq<string>, load: string -> string): (r: Source)
    ensures r.Canned? ==> r.file in files && r.text == load(r.file) && r.text != ""
    ensures r.Generated? <==> forall i | 0 <= i < |files| :: load(files[i]) == ""
    decreases |files|
  {
    if |files| == 0 then Generated
    else if load(files[0]) != "" then Canned(files[0], load(files[0]))
    else
      var r := FirstLoaded(files[1..], load);
      assert forall i | 1 <= i < |files| :: files[i] == files[1..][i - 1];
      r
  }

  lemma {:induction false} FirstLoadedAppend(a: seq<string>, b: seq<string>, load: string -> string)
    ensures FirstLoaded(a + b, load) == if FirstLoaded(a, load).Canned? then FirstLoaded(a, load) else FirstLoaded(b, load)
    decreases |a|
  {
    if |a| > 0 {
      assert (a + b)[0] == a[0] && (a + b)[1..] == a[1..] + b;
      FirstLoadedAppend(a[1..], b, load);
    } else {
      assert a + b == b;
    }
  }

  lemma FirstLoadedOne(file: string, load: string -> string)
    ensures FirstLoaded([file], load) == if load(file) != "" then Canned(file, load(file)) else Generated
  {
    assert [file][1..] == [];
  }

  /** The if-chain is "the first candidate that loads". */
  lemma ChooseByIsFirstLoaded(button: Option<string>, threeTier: bool, micro: bool, rest: bool, pipeline: bool,
                              load: string -> string)
    ensures ChooseBy(button, threeTier, micro, rest, pipeline, load)
            == FirstLoaded(CandidatesBy(button, threeTier, micro, rest, pipeline), load)
  {
    var a := if button.Some? then [button.value] else [];
    var b := Opt(threeTier, "three_tier.yaml");
    var c := Opt(micro, "microservices.yaml");
    var d := Opt(rest, "serverless_rest_api.yaml");
    var e := Opt(pipeline, "data_pipeline.yaml");
    FirstLoadedAppend(a, b + (c + (d + e)), load);
    FirstLoadedAppend(b, c + (d + e), load);
    FirstLoadedAppend(c, d + e, load);
    FirstLoadedAppend(d, e, load);
    if button.Some? { FirstLoadedOne(button.value, load); }
    FirstLoadedOne("three_tier.yaml", load);
    FirstLoadedOne("microservices.yaml", load);
    FirstLoadedOne("serverless_rest_api.yaml", load);
    FirstLoadedOne("data_pipeline.yaml", load);
  }

  /** The button's template wins when it loads, then the classifiers in the
      order three-tier, microservices, serverless REST, data pipeline: the
      first that matches and loads answers. */
  lemma ChooseIsFirstLoaded(prompt: string, templateId: string, load: string -> string)
    ensures ChooseSource(prompt, templateId, load) == FirstLoaded(Candidates(prompt, templateId), load)
  {
    ChooseByIsFirstLoaded(ButtonFile(templateId), IsThreeTierRequest(prompt), IsMicroservicesRequest(prompt),
                          IsServerlessRestRequest(prompt), IsDataPipelineRequest(prompt), load);
  }

  /** The model is called exactly when no candidate template loads. */
  lemma GeneratedIffNothingLoads(prompt: string, templateId: string, load: string -> string)
    ensures ChooseSource(prompt, templateId, load).Generated? <==>
              forall f | f in Candidates(prompt, templateId) :: load(f) == ""
  {
    ChooseIsFirstLoaded(prompt, templateId, load);
    var fs := Candidates(prompt, templateId);
    assert forall f | f in fs :: exists i | 0 <= i < |fs| :: fs[i] == f;
  }
}

=== FILE: cloudfront.dfy ===
/** `_strip_cloudfront_from_template` (mcp_server.py:393-451): every resource
    whose type starts with `AWS::CloudFront::` is removed, together with the
    outputs and `DependsOn` entries that refer to it. Any failure, and a
    template with nothing to remove, gives the input back. */
module CloudFront {
  import opened Wrappers
  import opened Text
  import opened Json

  const CloudFrontPrefix := "AWS::CloudFront::"

  /** A dict resource whose string `Type` starts with the CloudFront prefix. */
  predicate IsCloudFront(rdef: Json) {
    var t: Option<Json> := Field(rdef, "Type");
    t.Some? && t.value.JStr? && StartsWith(t.value.s, CloudFrontPrefix)
  }

  /** The logical ids the pass removes, defined directly. */
  function RemovedSet(entries: seq<Entry<Json>>): set<string> {
    set i | 0 <= i < |entries| && IsCloudFront(entries[i].val) :: entries[i].key
  }

  /** Line 406 for one resource. `(rdef.get('Type') or '')` turns a falsy type
      into the empty string; a truthy type that is not a string has no
      `startswith` and raises. */
  function CloudFrontTest(rdef: Json): (r: Try<bool>)
    ensures r.Ok? ==> r.value == IsCloudFront(rdef)
    ensures r.Raises? <==> (rdef.JObj? && HasKey(rdef.fields, "Type")
                            && Truthy(Get(rdef.fields, "Type").value) && !Get(rdef.fields, "Type").value.JStr?)
  {
    if !rdef.JObj? then Ok(false)
    else
      var t: Option<Json> := Get(rdef.fields, "Type");
      if t.None? || !Truthy(t.value) then Ok(false)
      else if t.value.JStr? then Ok(StartsWith(t.value.s, CloudFrontPrefix))
      else Raises
  }

  /** The keys of the entries a test accepts, collected as a set the way the
      comprehension of lines 404-407 and the loop of lines 415-429 do: a test that
      raises on any entry ends the whole pass. */
  function KeysWhere(entries: seq<Entry<Json>>, test: Json -> Try<bool>): (r: Try<set<string>>)
    ensures r.Raises? <==> exists i | 0 <= i < |entries| :: test(entries[i].val).Raises?
    ensures r.Ok? ==> forall i | 0 <= i < |entries| :: test(entries[i].val) == Ok(true) ==> entries[i].key in r.value
    ensures r.Ok? ==> forall k | k in r.value :: exists i | 0 <= i < |entries| :: entries[i].key == k && test(entries[i].val) == Ok(true)
    decreases |entries|
  {
    if |entries| == 0 then Ok({})
    else
      match test(entries[0].val)
      case Raises => Raises
      case Ok(hit) =>
        match KeysWhere(entries[1..], test)
        case Raises =>
          assert exists i | 1 <= i < |entries| :: test(entries[i].val).Raises? by {
            var i :| 0 <= i < |entries[1..]| && test(entries[1..][i].val).Raises?;
            assert entries[i + 1] == entries[1..][i];
          }
          Raises
        case Ok(rest) =>
          assert forall i | 1 <= i < |entries| :: entries[i] == entries[1..][i - 1];
          Ok(if hit then {entries[0].key} + rest else rest)
  }

  /** The CloudFront test collects exactly the CloudFront resources' ids. */
  lemma CloudFrontIdsAre(entries: seq<Entry<Json>>)
    requires KeysWhere(entries, CloudFrontTest).Ok?
    ensures KeysWhere(entries, CloudFrontTest).value == RemovedSet(entries)
  {
    var ids := KeysWhere(entries, CloudFrontTest).value;
    forall k | k in RemovedSet(entries) ensures k in ids {
      var i :| 0 <= i < |entries| && IsCloudFront(entries[i].val) && entries[i].key == k;
      assert CloudFrontTest(entries[i].val).Ok?;
    }
  }

  /** `d.pop(k)` for every `k` of `ids`: the entries under other keys stay in order. */
  function DropIds(entries: seq<Entry<Json>>, ids: set<string>): (r: seq<Entry<Json>>)
    ensures |r| <= |entries|
    ensures forall i | 0 <= i < |r| :: r[i].key !in ids && r[i] in entries
    ensures forall i | 0 <= i < |entries| :: entries[i].key !in ids ==> entries[i] in r
    decreases |entries|
  {
    if |entries| == 0 then []
    else
      assert forall i | 1 <= i < |entries| :: entries[i] == entries[1..][i - 1];
      if entries[0].key in ids then DropIds(entries[1..], ids)
      else [entries[0]] + DropIds(entries[1..], ids)
  }

  /** `val.get('Ref')`, `val['Fn::GetAtt']` and `['Ref', id]` naming a removed
      id: the output forms lines 419-429 recognise, as one disjunction. */
  predicate ReferencesRemoved(val: Json, ids: set<string>) {
    match val
    case JObj(vf) =>
      var ref: Option<Json> := Get(vf, "Ref");
      var att: Option<Json> := Get(vf, "Fn::GetAtt");
      || (ref.Some? && ref.value.JStr? && ref.value.s in ids)
      || (att.Some? && att.value.JArr? && |att.value.items| > 0
          && att.value.items[0].JStr? && att.value.items[0].s in ids)
      || (att.Some? && att.value.JStr? && Split(att.value.s, '.')[0] in ids)
    case JArr(items) => |items| == 2 && items[0] == JStr("Ref") && items[1].JStr? && items[1].s in ids
    case _ => false
  }

  /** An output whose `Value` refers to a removed resource. */
  predicate OutputRefers(outDef: Json, ids: set<string>) {
    var v: Option<Json> := Field(outDef, "Value");
    v.Some? && ReferencesRemoved(v.value, ids)
  }

  /** Lines 416-429 for one output. Membership in the id set raises on a list
      or dict (unhashable) at each place the code tests one. */
  function RefersTest(outDef: Json, ids: set<string>): (r: Try<bool>)
    ensures r.Ok? ==> r.value == OutputRefers(outDef, ids)
    ensures !outDef.JObj? ==> r == Ok(false)
  {
    var v: Option<Json> := Field(outDef, "Value");
    if v.None? then Ok(false)
    else if v.value.JObj? then
      var ref: Option<Json> := Get(v.value.fields, "Ref");
      var att: Option<Json> := Get(v.value.fields, "Fn::GetAtt");
      match InIds(ref.GetOr(JNull), ids)
      case Raises => Raises
      case Ok(hit) =>
        if hit || att.None? then Ok(hit)
        else if att.value.JArr? then
          if |att.value.items| > 0 then InIds(att.value.items[0], ids) else Ok(false)
        else if att.value.JStr? then Ok(Split(att.value.s, '.')[0] in ids)
        else Ok(false)
    else if v.value.JArr? then
      var items := v.value.items;
      if |items| == 2 && items[0] == JStr("Ref") then InIds(items[1], ids) else Ok(false)
    else Ok(false)
  }

  /** The test the output loop applies, for a given set of removed ids. */
  function RefersTestFor(ids: set<string>): Json -> Try<bool> {
    (o: Json) => RefersTest(o, ids)
  }

  /** Entries a test accepts are dropped by key; what stays fails the
      predicate the test decides. */
  lemma DropWhere(entries: seq<Entry<Json>>, test: Json -> Try<bool>, pred: Json -> bool)
    requires KeysWhere(entries, test).Ok?
    requires forall j :: test(j).Ok? ==> test(j).value == pred(j)
    ensures forall e | e in DropIds(entries, KeysWhere(entries, test).value) :: !pred(e.val)
  {
    var gone := KeysWhere(entries, test).value;
    var kept := DropIds(entries, gone);
    forall e | e in kept ensures !pred(e.val) {
      var i :| 0 <= i < |kept| && kept[i] == e;
      var j :| 0 <= j < |entries| && entries[j] == e;
      assert test(entries[j].val).Ok?;
    }
  }

  /** With unique keys only the entries the test accepts are dropped. */
  lemma DropOnlyWhere(entries: seq<Entry<Json>>, test: Json -> Try<bool>, pred: Json -> bool)
    requires UniqueKeys(entries)
    requires KeysWhere(entries, test).Ok?
    requires forall j :: test(j).Ok? ==> test(j).value == pred(j)
    ensures forall i | 0 <= i < |entries| :: !pred(entries[i].val) ==> entries[i] in DropIds(entries, KeysWhere(entries, test).value)
  {
    var gone := KeysWhere(entries, test).value;
    assert forall i | 0 <= i < |entries| && !pred(entries[i].val) :: entries[i].key !in gone;
  }

  /** Lines 413-431: `doc.get('Outputs') or {}` with the referring outputs
      popped; `None` when there is no dict to edit. */
  function StripOutputs(outputs: Option<Json>, ids: set<string>): (r: Try<Option<seq<Entry<Json>>>>)
    ensures r.Ok? && r.value.Some? ==> ViewOf(outputs).Attached?
    ensures r.Ok? && r.value.Some? ==>
              forall e | e in r.value.value :: !OutputRefers(e.val, ids) && e in ViewOf(outputs).fields
    ensures r.Ok? && r.value.None? ==> ViewOf(outputs).Detached?
  {
    match ViewOf(outputs)
    case Foreign(_) => Raises
    case Detached => Ok(None)
    case Attached(outs) =>
      match KeysWhere(outs, RefersTestFor(ids))
      case Raises => Raises
      case Ok(gone) =>
        DropWhere(outs, RefersTestFor(ids), (o: Json) => OutputRefers(o, ids));
        Ok(Some(DropIds(outs, gone)))
  }

  /** With unique output names, exactly the referring outputs are popped. */
  lemma StripOutputsKeepsOthers(outputs: Option<Json>, ids: set<string>)
    requires StripOutputs(outputs, ids).Ok? && StripOutputs(outputs, ids).value.Some?
    requires UniqueKeys(ViewOf(outputs).fields)
    ensures forall i | 0 <= i < |ViewOf(outputs).fields| :: !OutputRefers(ViewOf(outputs).fields[i].val, ids) ==>
              ViewOf(outputs).fields[i] in StripOutputs(outputs, ids).value.value
  {
    var outs := ViewOf(outputs).fields;
    DropOnlyWhere(outs, RefersTestFor(ids), (o: Json) => OutputRefers(o, ids));
  }

  /** A `DependsOn` value naming a removed resource. */
  predicate NamesRemoved(dep: Json, ids: set<string>) {
    dep.JStr? && dep.s in ids
  }

  /** No `DependsOn` of the resource names a removed id, as a single id or in a list. */
  predicate DependsClear(rdef: Json, ids: set<string>) {
    var dep: Option<Json> := Field(rdef, "DependsOn");
    dep.Some? ==>
      && !NamesRemoved(dep.value, ids)
      && (dep.value.JArr? ==> forall i | 0 <= i < |dep.value.items| :: !NamesRemoved(dep.value.items[i], ids))
  }

  /** Line 440: `[d for d in dep if d not in removed_ids]`; an unhashable item raises. */
  function KeepDeps(deps: seq<Json>, ids: set<string>): (r: Try<seq<Json>>)
    ensures r.Raises? <==> exists i | 0 <= i < |deps| :: deps[i].JArr? || deps[i].JObj?
    ensures r.Ok? ==> |r.value| <= |deps|
    ensures r.Ok? ==> forall i | 0 <= i < |r.value| :: r.value[i] in deps && !NamesRemoved(r.value[i], ids)
    ensures r.Ok? ==> forall i | 0 <= i < |deps| :: !NamesRemoved(deps[i], ids) ==> deps[i] in r.value
    ensures r.Ok? && |r.value| == |deps| ==> r.value == deps
    ensures r.Ok? && (forall i | 0 <= i < |deps| :: !NamesRemoved(deps[i], ids)) ==> r.value == deps
    decreases |deps|
  {
    if |deps| == 0 then Ok([])
    else
      assert forall i | 1 <= i < |deps| :: deps[i] == deps[1..][i - 1];
      match InIds(deps[0], ids)
      case Raises => Raises
      case Ok(hit) =>
        match KeepDeps(deps[1..], ids)
        case Raises => Raises
        case Ok(rest) => Ok(if hit then rest else [deps[0]] + rest)
  }

  /** Lines 434-446 for one resource: a list loses its removed ids and goes
      when nothing is left of it; a single removed id goes; `None` and a list
      naming nothing removed stay as they are. */
  function FixDependsOn(rdef: Json, ids: set<string>): (r: Try<Json>)
    ensures r.Ok? ==> r.value.JObj? == rdef.JObj? && DependsClear(r.value, ids)
    ensures r.Ok? ==> forall k {:trigger Field(r.value, k)} :: k != "DependsOn" ==> Field(r.value, k) == Field(rdef, k)
    ensures r.Ok? && DependsClear(rdef, ids) ==> r.value == rdef
    ensures r.Ok? && Field(r.value, "DependsOn") == Some(JArr([])) ==> Field(rdef, "DependsOn") == Some(JArr([]))
    ensures !rdef.JObj? ==> r == Ok(rdef)
  {
    if !rdef.JObj? then Ok(rdef)
    else
      var dep: Option<Json> := Get(rdef.fields, "DependsOn");
      if dep.None? || dep.value == JNull then Ok(rdef)
      else
        if dep.value.JArr? then
          var deps := dep.value.items;
          match KeepDeps(deps, ids)
          case Raises => Raises
          case Ok(kept) =>
            if |kept| == |deps| then Ok(rdef)
            else if |kept| > 0 then Ok(JObj(Put(rdef.fields, "DependsOn", JArr(kept))))
            else Ok(JObj(Remove(rdef.fields, "DependsOn")))
        else
          match InIds(dep.value, ids)
          case Raises => Raises
          case Ok(hit) => if hit then Ok(JObj(Remove(rdef.fields, "DependsOn"))) else Ok(rdef)
  }

  /** The loop of lines 433-446 over the remaining resources. */
  function FixAllDependsOn(entries: seq<Entry<Json>>, ids: set<string>): (r: Try<seq<Entry<Json>>>)
    ensures r.Raises? <==> exists i | 0 <= i < |entries| :: FixDependsOn(entries[i].val, ids).Raises?
    ensures r.Ok? ==> |r.value| == |entries|
    ensures r.Ok? ==> forall i | 0 <= i < |entries| ::
              r.value[i].key == entries[i].key && FixDependsOn(entries[i].val, ids) == Ok(r.value[i].val)
    decreases |entries|
  {
    if |entries| == 0 then Ok([])
    else
      assert forall i | 1 <= i < |entries| :: entries[i] == entries[1..][i - 1];
      match FixDependsOn(entries[0].val, ids)
      case Raises => Raises
      case Ok(v) =>
        match FixAllDependsOn(entries[1..], ids)
        case Raises => Raises
        case Ok(rest) => Ok([Entry(entries[0].key, v)] + rest)
  }

  /** Lines 403-449 on a parsed dict: `Ok(None)` when no resource is
      CloudFront, the edited document otherwise. */
  function StripDocument(fields: seq<Entry<Json>>): (r: Try<Option<Json>>)
    ensures RemovedSet(ResourcesOf(JObj(fields))) == {} ==> r.Ok? ==> r.value.None?
    ensures r.Ok? && r.value.Some? ==> r.value.value.JObj?
  {
    match ViewOf(Get(fields, "Resources"))
    case Foreign(_) => Raises
    case Detached => Ok(None)
    case Attached(entries) =>
      match KeysWhere(entries, CloudFrontTest)
      case Raises => Raises
      case Ok(ids) =>
        CloudFrontIdsAre(entries);
        if ids == {} then Ok(None)
        else
          match StripOutputs(Get(fields, "Outputs"), ids)
          case Raises => Raises
          case Ok(outs) =>
            match FixAllDependsOn(DropIds(entries, ids), ids)
            case Raises => Raises
            case Ok(rs) => Ok(Some(Assemble(fields, rs, outs)))
  }

  /** Lines 410-411 and 430-431: the document with its resources and, when it
      had a dict of them, its outputs replaced. */
  function Assemble(fields: seq<Entry<Json>>, rs: seq<Entry<Json>>, outs: Option<seq<Entry<Json>>>): (d: Json)
    ensures d.JObj? && Get(d.fields, "Resources") == Some(JObj(rs))
    ensures outs.Some? ==> Get(d.fields, "Outputs") == Some(JObj(outs.value))
    ensures outs.None? ==> Get(d.fields, "Outputs") == Get(fields, "Outputs")
    ensures forall k {:trigger Get(d.fields, k)} | k != "Resources" && k != "Outputs" :: Get(d.fields, k) == Get(fields, k)
  {
    var withRes := Put(fields, "Resources", JObj(rs));
    JObj(if outs.Some? then Put(withRes, "Outputs", JObj(outs.value)) else withRes)
  }

  /** Lines 393-451: the input text unless it parses to a dict with a
      CloudFront resource and the pass completes, then the edited document
      dumped in the input's format. */
  function StripCloudFront(codec: Codec, body: string): (r: string)
    ensures r != body ==>
              var parsed := if IsJsonText(body) then codec.parseJson(body) else codec.parseYaml(body);
              parsed.Some? && RemovedSet(ResourcesOf(parsed.value)) != {}
  {
    var isJson := IsJsonText(body);
    var parsed := if isJson then codec.parseJson(body) else codec.parseYaml(body);
    if parsed.None? || !Truthy(parsed.value) || !parsed.value.JObj? then body
    else
      match StripDocument(parsed.value.fields)
      case Ok(Some(d)) => if isJson then codec.dumpJson(d) else codec.dumpYaml(d)
      case _ => body
  }

  // ---------------------------------------------------------------------------
  // What a completed strip leaves behind
  // ---------------------------------------------------------------------------

  /** No output of the document refers to a removed id. */
  predicate OutputsClear(d: Json, ids: set<string>) {
    var o: Option<Json> := Field(d, "Outputs");
    o.Some? && o.value.JObj? ==> forall e | e in o.value.fields :: !OutputRefers(e.val, ids)
  }

  /** No resource is CloudFront and no `DependsOn` names a removed id. */
  predicate ResourcesClear(rs: seq<Entry<Json>>, ids: set<string>) {
    forall i | 0 <= i < |rs| :: !IsCloudFront(rs[i].val) && DependsClear(rs[i].val, ids)
  }

  /** What a completed strip leaves behind. */
  predicate StrippedOf(d: Json, ids: set<string>) {
    ResourcesClear(ResourcesOf(d), ids) && OutputsClear(d, ids)
  }

  /** Editing `DependsOn` leaves the type alone. */
  lemma FixDependsOnKeepsType(rdef: Json, ids: set<string>)
    requires FixDependsOn(rdef, ids).Ok?
    ensures IsCloudFront(FixDependsOn(rdef, ids).value) == IsCloudFront(rdef)
  {
    assert Field(FixDependsOn(rdef, ids).value, "Type") == Field(rdef, "Type");
  }

  /** Dropping the removed ids leaves no CloudFront resource behind. */
  lemma DropLeavesNoCloudFront(entries: seq<Entry<Json>>)
    ensures forall i | 0 <= i < |DropIds(entries, RemovedSet(entries))| :: !IsCloudFront(DropIds(entries, RemovedSet(entries))[i].val)
  {
    var kept := DropIds(entries, RemovedSet(entries));
    forall i | 0 <= i < |kept| ensures !IsCloudFront(kept[i].val) {
      var j :| 0 <= j < |entries| && entries[j] == kept[i];
    }
  }

  /** The DependsOn pass over resources with no CloudFront one leaves them clear. */
  lemma FixAllClears(entries: seq<Entry<Json>>, ids: set<string>)
    requires FixAllDependsOn(entries, ids).Ok?
    requires forall i | 0 <= i < |entries| :: !IsCloudFront(entries[i].val)
    ensures ResourcesClear(FixAllDependsOn(entries, ids).value, ids)
  {
    var rs := FixAllDependsOn(entries, ids).value;
    forall i | 0 <= i < |rs| ensures !IsCloudFront(rs[i].val) && DependsClear(rs[i].val, ids) {
      FixDependsOnKeepsType(entries[i].val, ids);
    }
  }

  /** The assembled document shows the resources and outputs it was given. */
  lemma AssembledClean(fields: seq<Entry<Json>>, rs: seq<Entry<Json>>, outs: Option<seq<Entry<Json>>>, ids: set<string>)
    requires ResourcesClear(rs, ids)
    requires outs.Some? ==> forall e | e in outs.value :: !OutputRefers(e.val, ids)
    requires outs.None? ==> ViewOf(Get(fields, "Outputs")).Detached?
    ensures StrippedOf(Assemble(fields, rs, outs), ids)
  {
    var d := Assemble(fields, rs, outs);
    if |rs| > 0 {
      ResourcesOfField(d, rs);
    }
  }

  /** Keys outside the removed set survive the drop and the DependsOn pass. */
  lemma KeysSurvive(entries: seq<Entry<Json>>, ids: set<string>, rs: seq<Entry<Json>>)
    requires FixAllDependsOn(DropIds(entries, ids), ids) == Ok(rs)
    ensures forall k | HasKey(entries, k) && k !in ids :: HasKey(rs, k)
  {
    var kept := DropIds(entries, ids);
    forall k | HasKey(entries, k) && k !in ids ensures HasKey(rs, k) {
      var i :| 0 <= i < |entries| && entries[i].key == k;
      var j :| 0 <= j < |kept| && kept[j] == entries[i];
      assert rs[j].key == k;
    }
  }

  /** Lines 403-449: after a completed strip the document holds no CloudFront
      resource, no output referring to one and no `DependsOn` naming one;
      every other resource id and every other top-level key is still there. */
  lemma StripDocumentClean(fields: seq<Entry<Json>>)
    requires StripDocument(fields).Ok? && StripDocument(fields).value.Some?
    ensures StrippedOf(StripDocument(fields).value.value, RemovedSet(ResourcesOf(JObj(fields))))
    ensures forall k | HasKey(ResourcesOf(JObj(fields)), k) && k !in RemovedSet(ResourcesOf(JObj(fields))) ::
              HasKey(ResourcesOf(StripDocument(fields).value.value), k)
    ensures forall k {:trigger Field(StripDocument(fields).value.value, k)} | k != "Resources" && k != "Outputs" ::
              Field(StripDocument(fields).value.value, k) == Get(fields, k)
  {
    var entries := ViewOf(Get(fields, "Resources")).fields;
    ResourcesOfField(JObj(fields), entries);
    CloudFrontIdsAre(entries);
    var ids := RemovedSet(entries);
    var outs := StripOutputs(Get(fields, "Outputs"), ids).value;
    var rs := FixAllDependsOn(DropIds(entries, ids), ids).value;
    var d := Assemble(fields, rs, outs);
    assert StripDocument(fields).value.value == d;
    DropLeavesNoCloudFront(entries);
    FixAllClears(DropIds(entries, ids), ids);
    AssembledClean(fields, rs, outs, ids);
    KeysSurvive(entries, ids, rs);
    if |rs| > 0 {
      ResourcesOfField(d, rs);
    } else {
      assert forall k :: !HasKey(entries, k) || k in ids;
    }
  }

  /** `rs` are the surviving resources `kept` after the `DependsOn` pass:
      the same ids in the same order, each changed at most in its
      `DependsOn`, and not at all when it named no removed id. */
  ghost predicate SurvivorsKept(kept: seq<Entry<Json>>, rs: seq<Entry<Json>>, ids: set<string>) {
    && |rs| == |kept|
    && forall i | 0 <= i < |kept| ::
         && rs[i].key == kept[i].key
         && KeepsAllBut(kept[i].val, rs[i].val, "DependsOn")
         && (DependsClear(kept[i].val, ids) ==> rs[i] == kept[i])
  }

  /** `o'` is the `Outputs` entry after the strip: an output dict keeps only
      outputs it had, and, when its names are unique, every one that refers
      to no removed id; anything else under `Outputs` stays as it was. */
  ghost predicate OutputsKept(o: Option<Json>, o': Option<Json>, ids: set<string>) {
    match ViewOf(o)
    case Attached(outs) =>
      && o'.Some? && o'.value.JObj?
      && (forall e | e in o'.value.fields :: e in outs)
      && (UniqueKeys(outs) ==> forall i | 0 <= i < |outs| :: !OutputRefers(outs[i].val, ids) ==> outs[i] in o'.value.fields)
    case _ => o' == o
  }

  /** Lines 434-446 touch nothing of a resource but its `DependsOn`. */
  lemma FixDependsOnKeepsKeys(rdef: Json, ids: set<string>)
    requires FixDependsOn(rdef, ids).Ok?
    ensures KeepsAllBut(rdef, FixDependsOn(rdef, ids).value, "DependsOn")
  {
    var r := FixDependsOn(rdef, ids).value;
    if rdef.JObj? {
      forall k | k != "DependsOn" ensures Get(r.fields, k) == Get(rdef.fields, k) {
        assert Field(r, k) == Field(rdef, k);
      }
    }
  }

  /** After a completed strip the surviving resources are the input's in
      order with at most their `DependsOn` edited, and the outputs are the
      input's less those referring to a removed id. */
  lemma StripDocumentKept(fields: seq<Entry<Json>>)
    requires StripDocument(fields).Ok? && StripDocument(fields).value.Some?
    ensures var ids := RemovedSet(ResourcesOf(JObj(fields)));
      var d := StripDocument(fields).value.value;
      && SurvivorsKept(DropIds(ResourcesOf(JObj(fields)), ids), ResourcesOf(d), ids)
      && OutputsKept(Get(fields, "Outputs"), Field(d, "Outputs"), ids)
  {
    var entries := ViewOf(Get(fields, "Resources")).fields;
    ResourcesOfField(JObj(fields), entries);
    CloudFrontIdsAre(entries);
    var ids := RemovedSet(entries);
    var kept := DropIds(entries, ids);
    var outs := StripOutputs(Get(fields, "Outputs"), ids).value;
    var rs := FixAllDependsOn(kept, ids).value;
    var d := Assemble(fields, rs, outs);
    assert StripDocument(fields).value.value == d;
    if |rs| > 0 {
      ResourcesOfField(d, rs);
    } else {
      assert ResourcesOf(d) == rs;
    }
    forall i | 0 <= i < |kept|
      ensures KeepsAllBut(kept[i].val, rs[i].val, "DependsOn")
      ensures DependsClear(kept[i].val, ids) ==> rs[i] == kept[i]
    {
      FixDependsOnKeepsKeys(kept[i].val, ids);
    }
    if outs.Some? && UniqueKeys(ViewOf(Get(fields, "Outputs")).fields) {
      StripOutputsKeepsOthers(Get(fields, "Outputs"), ids);
    }
  }

  /** `d` is `parsed` after a completed strip: no CloudFront resource, no
      output and no `DependsOn` referring to one, every other resource id
      still present, the surviving resources in order with at most their
      `DependsOn` edited, the outputs less at most the referring ones, and
      every top-level key but `Resources` and `Outputs` as it was. */
  ghost predicate CleanedFrom(parsed: Json, d: Json) {
    && parsed.JObj?
    && StrippedOf(d, RemovedSet(ResourcesOf(parsed)))
    && SurvivorsKept(DropIds(ResourcesOf(parsed), RemovedSet(ResourcesOf(parsed))), ResourcesOf(d), RemovedSet(ResourcesOf(parsed)))
    && OutputsKept(Get(parsed.fields, "Outputs"), Field(d, "Outputs"), RemovedSet(ResourcesOf(parsed)))
    && (forall k | HasKey(ResourcesOf(parsed), k) && k !in RemovedSet(ResourcesOf(parsed)) :: HasKey(ResourcesOf(d), k))
    && (forall k {:trigger Field(d, k)} | k != "Resources" && k != "Outputs" :: Field(d, k) == Get(parsed.fields, k))
  }

  /** Lines 393-451 end to end: the text is either returned as it came or is
      the dump, in the input's format, of the parsed input stripped of its
      CloudFront resources and otherwise kept. */
  lemma StripCloudFrontOutcome(codec: Codec, body: string)
    ensures var r := StripCloudFront(codec, body);
            var parsed := if IsJsonText(body) then codec.parseJson(body) else codec.parseYaml(body);
            || r == body
            || (parsed.Some? && exists d :: (CleanedFrom(parsed.value, d)
                  && r == (if IsJsonText(body) then codec.dumpJson(d) else codec.dumpYaml(d))))
  {
    var parsed := if IsJsonText(body) then codec.parseJson(body) else codec.parseYaml(body);
    if parsed.Some? && parsed.value.JObj? {
      var s := StripDocument(parsed.value.fields);
      if s.Ok? && s.value.Some? {
        StripDocumentClean(parsed.value.fields);
        StripDocumentKept(parsed.value.fields);
        assert CleanedFrom(parsed.value, s.value.value);
      }
    }
  }
}

=== FILE: converse.dfy ===
/** Calling the Bedrock Converse API (mcp_server.py:509-591): the request
    settings, the throttling retry schedule and the reading of the answer.
    The API call itself, the environment and `time.sleep` stay outside: each
    attempt's outcome and the environment flag are parameters, and waits are
    reported in tenths of a second rather than slept. */
module Converse {
  import opened Wrappers
  import opened Text
  import opened Json

  // ---------------------------------------------------------------------------
  // Request settings (lines 555-567)
  // ---------------------------------------------------------------------------

  const MinThinkingBudget := 1024
  const DefaultTemperature: real := 0.2

  datatype Inference = Inference(maxTokens: int, temperature: Option<real>, topP: Option<real>)

  /** `additionalModelRequestFields`, or its absence. */
  datatype Additional =
    | Thinking(budget: int)
    | TopK(k: int)
    | NoAdditional

  datatype SystemBlock =
    | TextBlock(text: string)
    | CachePoint(ttl: string)

  datatype Request = Request(
    modelId: string,
    userMessage: string,
    system: seq<SystemBlock>,
    inference: Inference,
    additional: Additional,
    latencyOptimized: bool)

  datatype Options = Options(
    maxTokens: int,
    enableThinking: bool,
    thinkingBudget: int,
    temperature: Option<real>,
    topP: Option<real>,
    topK: Option<int>,
    cacheTtl: Option<string>)

  /** Lines 555-580: the keyword arguments of every attempt.
      `latencyFlag` is the `BEDROCK_LATENCY_OPTIMIZED` variable, `""` when unset. */
  function BuildRequest(modelId: string, systemPrompt: string, userMessage: string, o: Options, latencyFlag: string): (r: Request)
    ensures r.inference.maxTokens == o.maxTokens
    ensures o.enableThinking ==>
              && r.inference.temperature.None? && r.inference.topP.None?
              && r.additional.Thinking?
              && r.additional.budget >= MinThinkingBudget && r.additional.budget >= o.thinkingBudget
              && (r.additional.budget == MinThinkingBudget || r.additional.budget == o.thinkingBudget)
    ensures !o.enableThinking ==>
              && r.inference.temperature == Some(o.temperature.GetOr(DefaultTemperature))
              && (r.inference.topP.Some? <==> (o.topP.Some? && o.temperature.None?))
              && (r.additional.TopK? <==> o.topK.Some?)
              && !r.additional.Thinking?
    ensures 1 <= |r.system| <= 2 && r.system[0] == TextBlock(systemPrompt)
    ensures |r.system| == 2 <==> (o.cacheTtl == Some("5m") || o.cacheTtl == Some("1h"))
    ensures r.latencyOptimized <==> Lower(latencyFlag) == "true"
  {
    var inference :=
      if o.enableThinking then Inference(o.maxTokens, None, None)
      else Inference(o.maxTokens, Some(o.temperature.GetOr(DefaultTemperature)),
                     if o.topP.Some? && o.temperature.None? then o.topP else None);
    var additional :=
      if o.enableThinking then Thinking(if o.thinkingBudget > MinThinkingBudget then o.thinkingBudget else MinThinkingBudget)
      else if o.topK.Some? then TopK(o.topK.value)
      else NoAdditional;
    var system :=
      if o.cacheTtl == Some("5m") || o.cacheTtl == Some("1h") then [TextBlock(systemPrompt), CachePoint(o.cacheTtl.value)]
      else [TextBlock(systemPrompt)];
    Request(modelId, userMessage, system, inference, additional, Lower(latencyFlag) == "true")
  }

  // ---------------------------------------------------------------------------
  // The retry schedule (lines 568-591)
  // ---------------------------------------------------------------------------

  /** What one `bedrock.converse` call did: answer, or raise with this text. */
  datatype CallResult<R> = Returned(response: R) | Failed(error: string)

  /** The answer, the error re-raised, or `None` when `range(max_retries)` is empty. */
  datatype Outcome<R> = Answered(response: R) | Raised(error: string) | GaveUp

  /** How many calls were made, the waits between them and how it ended. */
  datatype Trace<R> = Trace(calls: nat, waits: seq<nat>, outcome: Outcome<R>)

  /** Line 585: the error text names one of the two throttling exceptions. */
  predicate IsThrottle(error: string) {
    Contains(error, "ThrottlingException") || Contains(error, "TooManyRequestsException")
  }

  function Pow2(n: nat): (r: nat)
    ensures r >= 1
  {
    if n == 0 then 1 else 2 * Pow2(n - 1)
  }

  /** Line 587, `2 ** attempt + 0.1 * attempt` seconds, in tenths of a second. */
  function WaitTenths(attempt: nat): nat {
    10 * Pow2(attempt) + attempt
  }

  /** Each wait is longer than the one before. */
  lemma WaitIncreases(a: nat)
    ensures WaitTenths(a) < WaitTenths(a + 1)
  {
    assert Pow2(a + 1) == 2 * Pow2(a);
  }

  /** The whole schedule is strictly increasing. */
  lemma {:induction false} WaitIncreasing(a: nat, b: nat)
    requires a < b
    ensures WaitTenths(a) < WaitTenths(b)
    decreases b - a
  {
    WaitIncreases(a);
    if a + 1 < b {
      WaitIncreasing(a + 1, b);
    }
  }

  /** The loop from `attempt` on: `call(i)` is what attempt `i` does. A
      throttle retries while attempts remain; anything else ends the loop. */
  function RetryFrom<R>(attempt: nat, maxRetries: int, call: nat -> CallResult<R>): (t: Trace<R>)
    ensures t.outcome.GaveUp? <==> maxRetries <= attempt
    ensures t.outcome.GaveUp? ==> t.calls == 0 && t.waits == []
    ensures !t.outcome.GaveUp? ==> 1 <= t.calls && attempt + t.calls <= maxRetries && |t.waits| == t.calls - 1
    decreases maxRetries - attempt
  {
    if maxRetries <= attempt then Trace(0, [], GaveUp)
    else
      match call(attempt)
      case Returned(r) => Trace(1, [], Answered(r))
      case Failed(e) =>
        if IsThrottle(e) && attempt < maxRetries - 1 then
          var rest := RetryFrom(attempt + 1, maxRetries, call);
          Trace(rest.calls + 1, [WaitTenths(attempt)] + rest.waits, rest.outcome)
        else Trace(1, [], Raised(e))
  }

  /** The waits of a trace starting at `attempt` follow the back-off schedule. */
  predicate WaitsFollow(attempt: nat, waits: seq<nat>) {
    forall i | 0 <= i < |waits| :: waits[i] == WaitTenths(attempt + i)
  }

  /** The `n` calls from `attempt` on all failed with a throttle. */
  predicate ThrottledRun<R>(attempt: nat, n: nat, call: nat -> CallResult<R>) {
    forall i | attempt <= i < attempt + n :: call(i).Failed? && IsThrottle(call(i).error)
  }

  /** The schedule the loop keeps: each retried attempt failed with a
      throttle and is followed by its back-off wait. */
  lemma {:induction false} RetrySchedule<R>(attempt: nat, maxRetries: int, call: nat -> CallResult<R>)
    ensures WaitsFollow(attempt, RetryFrom(attempt, maxRetries, call).waits)
    ensures ThrottledRun(attempt, |RetryFrom(attempt, maxRetries, call).waits|, call)
    decreases maxRetries - attempt
  {
    var t := RetryFrom(attempt, maxRetries, call);
    if attempt < maxRetries && call(attempt).Failed? && IsThrottle(call(attempt).error) && attempt < maxRetries - 1 {
      RetrySchedule(attempt + 1, maxRetries, call);
      var rest := RetryFrom(attempt + 1, maxRetries, call);
      assert t.waits == [WaitTenths(attempt)] + rest.waits;
      forall i | 0 <= i < |t.waits|
        ensures t.waits[i] == WaitTenths(attempt + i)
      {
        if i > 0 {
          assert t.waits[i] == rest.waits[i - 1];
        }
      }
      forall i | attempt <= i < attempt + |t.waits|
        ensures call(i).Failed? && IsThrottle(call(i).error)
      {
        if i > attempt {
          assert attempt + 1 <= i < attempt + 1 + |rest.waits|;
        }
      }
    } else {
      assert t.waits == [];
    }
  }

  /** How the loop ends: the answer of the last call, or its error when
      that error is not a throttle or came on the last attempt. */
  lemma {:induction false} RetryEnding<R>(attempt: nat, maxRetries: int, call: nat -> CallResult<R>)
    ensures var t := RetryFrom(attempt, maxRetries, call);
            && (t.outcome.Answered? ==> call(attempt + t.calls - 1) == Returned(t.outcome.response))
            && (t.outcome.Raised? ==>
                  && call(attempt + t.calls - 1) == Failed(t.outcome.error)
                  && (!IsThrottle(t.outcome.error) || attempt + t.calls == maxRetries))
    decreases maxRetries - attempt
  {
    if attempt < maxRetries && call(attempt).Failed? && IsThrottle(call(attempt).error) && attempt < maxRetries - 1 {
      RetryEnding(attempt + 1, maxRetries, call);
      var rest := RetryFrom(attempt + 1, maxRetries, call);
      assert RetryFrom(attempt, maxRetries, call) == Trace(rest.calls + 1, [WaitTenths(attempt)] + rest.waits, rest.outcome);
    }
  }

  function Continue<R>(n: nat, waits: seq<nat>, rest: Trace<R>): Trace<R> {
    Trace(n + rest.calls, waits + rest.waits, rest.outcome)
  }

  /** Lines 568-591 as the loop they are: at most `max_retries` calls, the
      waits of the schedule between them, the last error re-raised. */
  method ConverseWithRetry<R>(maxRetries: int, call: nat -> CallResult<R>) returns (t: Trace<R>)
    ensures t == RetryFrom(0, maxRetries, call)
    ensures t.calls <= if maxRetries > 0 then maxRetries else 0
  {
    var attempt: nat := 0;
    var waits: seq<nat> := [];
    while attempt < maxRetries
      invariant attempt == |waits|
      invariant attempt == 0 || attempt < maxRetries
      invariant Continue(attempt, waits, RetryFrom(attempt, maxRetries, call)) == RetryFrom(0, maxRetries, call)
      decreases maxRetries - attempt
    {
      match call(attempt)
      case Returned(r) =>
        return Trace(attempt + 1, waits, Answered(r));
      case Failed(e) =>
        if IsThrottle(e) && attempt < maxRetries - 1 {
          var rest := RetryFrom(attempt + 1, maxRetries, call);
          assert waits + ([WaitTenths(attempt)] + rest.waits) == (waits + [WaitTenths(attempt)]) + rest.waits;
          waits := waits + [WaitTenths(attempt)];
          attempt := attempt + 1;
        } else {
          return Trace(attempt + 1, waits, Raised(e));
        }
    }
    return Trace(0, [], GaveUp);
  }

  /** A call that is not throttled is never retried. */
  lemma NoRetryWithoutThrottle<R>(maxRetries: int, call: nat -> CallResult<R>)
    requires forall i: nat :: call(i).Failed? ==> !IsThrottle(call(i).error)
    ensures RetryFrom(0, maxRetries, call).calls <= 1
  {
  }

  /** A service that throttles every call is called exactly `max_retries`
      times and its last error is re-raised. */
  lemma AlwaysThrottled<R>(maxRetries: int, call: nat -> CallResult<R>)
    requires maxRetries > 0
    requires forall i: nat :: call(i).Failed? && IsThrottle(call(i).error)
    ensures RetryFrom(0, maxRetries, call).calls == maxRetries
    ensures RetryFrom(0, maxRetries, call).outcome == Raised(call(maxRetries - 1).error)
  {
    ThrottledFrom(0, maxRetries, call);
  }

  lemma {:induction false} ThrottledFrom<R>(attempt: nat, maxRetries: int, call: nat -> CallResult<R>)
    requires attempt < maxRetries
    requires forall i: nat :: call(i).Failed? && IsThrottle(call(i).error)
    ensures RetryFrom(attempt, maxRetries, call).calls == maxRetries - attempt
    ensures RetryFrom(attempt, maxRetries, call).outcome == Raised(call(maxRetries - 1).error)
    decreases maxRetries - attempt
  {
    assert call(attempt).Failed? && IsThrottle(call(attempt).error);
    if attempt < maxRetries - 1 {
      ThrottledFrom(attempt + 1, maxRetries, call);
    }
  }

  // ---------------------------------------------------------------------------
  // Reading the answer (lines 509-544)
  // ---------------------------------------------------------------------------

  /** Lines 515-525: the reasoning text of a thinking block. A dict's `text`
      is passed on whatever its type; the join below then raises on a non-string. */
  function ThinkingValue(value: Json): (r: Json)
    ensures value.JStr? ==> r == value
    ensures !value.JObj? && !value.JStr? ==> r == JStr("")
    ensures value.JObj? && !r.JStr? ==>
              var rt := Reasoning(value.fields);
              rt.Some? && rt.value.JObj? && Get(rt.value.fields, "text") == Some(r)
  {
    if value.JStr? then value
    else if value.JObj? then
      var rt := Reasoning(value.fields);
      if rt.Some? && rt.value.JObj? && HasKey(rt.value.fields, "text") then Get(rt.value.fields, "text").value
      else if rt.Some? && rt.value.JStr? then rt.value
      else JStr("")
    else JStr("")
  }

  /** Line 520: `value.get("reasoningText") or value.get("reasoningContent")`. */
  function Reasoning(fields: seq<Entry<Json>>): (rt: Option<Json>)
    ensures Get(fields, "reasoningText").Some? && Truthy(Get(fields, "reasoningText").value) ==> rt == Get(fields, "reasoningText")
    ensures !(Get(fields, "reasoningText").Some? && Truthy(Get(fields, "reasoningText").value)) ==> rt == Get(fields, "reasoningContent")
  {
    var first := Get(fields, "reasoningText");
    if first.Some? && Truthy(first.value) then first else Get(fields, "reasoningContent")
  }

  /** Lines 534-542 for one block: the text piece, if any; non-dicts are skipped. */
  function TextOf(block: Json): (p: seq<Json>)
    ensures |p| <= 1
    ensures block.JObj? && Get(block.fields, "text").Some? ==> p == [Get(block.fields, "text").value]
    ensures !(block.JObj? && Get(block.fields, "text").Some?) ==> p == []
  {
    if block.JObj? && Get(block.fields, "text").Some? then [Get(block.fields, "text").value] else []
  }

  /** The thinking pieces of one block: `thinking` first, then `reasoningContent`. */
  function ThinkingOf(block: Json): (p: seq<Json>)
    ensures !block.JObj? ==> p == []
    ensures |p| <= 2
  {
    if !block.JObj? then []
    else
      var thinking := Get(block.fields, "thinking");
      var reasoning := Get(block.fields, "reasoningContent");
      (if thinking.Some? then [ThinkingValue(thinking.value)] else [])
      + (if reasoning.Some? then [ThinkingValue(reasoning.value)] else [])
  }

  /** The pieces of all blocks, in the order the loop appends them. */
  function Collect(blocks: seq<Json>, of: Json -> seq<Json>): seq<Json>
    decreases |blocks|
  {
    if |blocks| == 0 then [] else of(blocks[0]) + Collect(blocks[1..], of)
  }

  /** `"".join(parts)`: raises on any part that is not a string. */
  function JoinText(parts: seq<Json>): (r: Try<string>)
    ensures r.Raises? <==> exists i | 0 <= i < |parts| :: !parts[i].JStr?
    decreases |parts|
  {
    if |parts| == 0 then Ok("")
    else if !parts[0].JStr? then Raises
    else
      match JoinText(parts[1..])
      case Raises =>
        assert exists i | 0 <= i < |parts| :: !parts[i].JStr? by {
          var i :| 0 <= i < |parts[1..]| && !parts[1..][i].JStr?;
          assert parts[i + 1] == parts[1..][i];
        }
        Raises
      case Ok(rest) =>
        assert forall i | 1 <= i < |parts| :: parts[i] == parts[1..][i - 1];
        Ok(parts[0].s + rest)
  }

  datatype Content = Content(text: string, thinking: string)

  /** The content list as joined text and thinking. */
  function BlocksContent(blocks: seq<Json>): Try<Content> {
    var text :- JoinText(Collect(blocks, TextOf));
    var thinking :- JoinText(Collect(blocks, ThinkingOf));
    Ok(Content(text, thinking))
  }

  /** Line 532: `response.get("output", {}).get("message", {}).get("content") or []`,
      then the `for` over it. Missing levels read as `{}`; a level present but
      not a dict raises on `.get`; a truthy string or dict iterates as
      characters or keys, which are never dicts; any other truthy value is not
      iterable. */
  function ContentBlocks(response: Json): (r: Try<seq<Json>>)
    ensures !response.JObj? ==> r.Raises?
  {
    if !response.JObj? then Raises
    else
      var output := Get(response.fields, "output").GetOr(JObj([]));
      if !output.JObj? then Raises
      else
        var message := Get(output.fields, "message").GetOr(JObj([]));
        if !message.JObj? then Raises
        else
          var content := Get(message.fields, "content");
          if content.None? || !Truthy(content.value) then Ok([])
          else
            match content.value
            case JArr(items) => Ok(items)
            case JStr(_) => Ok([])
            case JObj(_) => Ok([])
            case _ => Raises
  }

  /** Lines 528-544: the text and thinking of a Converse response. A
      response that is not a dict raises; one without `output` has empty
      text and thinking. */
  function ExtractContent(response: Json): (r: Try<Content>)
    ensures !response.JObj? ==> r.Raises?
    ensures response.JObj? && Get(response.fields, "output").None? ==> r == Ok(Content("", ""))
  {
    var blocks :- ContentBlocks(response);
    BlocksContent(blocks)
  }

  /** Lines 509-512: the text alone, failing exactly when the full
      extraction does. */
  function ExtractText(response: Json): (r: Try<string>)
    ensures r.Ok? <==> ExtractContent(response).Ok?
    ensures r.Ok? ==> r.value == ExtractContent(response).value.text
  {
    var c :- ExtractContent(response);
    Ok(c.text)
  }

  /** The shape of a Converse answer: `output.message.content` holds the blocks. */
  function AnswerResponse(blocks: seq<Json>): Json {
    JObj([Entry("output", JObj([Entry("message", JObj([
      Entry("role", JStr("assistant")), Entry("content", JArr(blocks))]))]))])
  }

  // ---------------------------------------------------------------------------
  // Facts
  // ---------------------------------------------------------------------------

  lemma {:induction false} CollectAppend(a: seq<Json>, b: seq<Json>, of: Json -> seq<Json>)
    ensures Collect(a + b, of) == Collect(a, of) + Collect(b, of)
    decreases |a|
  {
    if |a| == 0 {
      assert a + b == b;
    } else {
      assert (a + b)[0] == a[0] && (a + b)[1..] == a[1..] + b;
      CollectAppend(a[1..], b, of);
    }
  }

  lemma {:induction false} JoinTextAppend(a: seq<Json>, b: seq<Json>)
    ensures JoinText(a + b).Ok? <==> JoinText(a).Ok? && JoinText(b).Ok?
    ensures JoinText(a + b).Ok? ==> JoinText(a + b).value == JoinText(a).value + JoinText(b).value
    decreases |a|
  {
    if |a| == 0 {
      assert a + b == b;
    } else {
      assert (a + b)[1..] == a[1..] + b;
      JoinTextAppend(a[1..], b);
    }
  }

  /** The extraction works block by block: the content of two lists of blocks
      is the concatenation of their contents, and it fails exactly when one
      of them does. */
  lemma BlocksContentAppend(a: seq<Json>, b: seq<Json>)
    ensures BlocksContent(a + b).Ok? <==> BlocksContent(a).Ok? && BlocksContent(b).Ok?
    ensures BlocksContent(a + b).Ok? ==>
              && BlocksContent(a + b).value.text == BlocksContent(a).value.text + BlocksContent(b).value.text
              && BlocksContent(a + b).value.thinking == BlocksContent(a).value.thinking + BlocksContent(b).value.thinking
  {
    CollectAppend(a, b, TextOf);
    CollectAppend(a, b, ThinkingOf);
    JoinTextAppend(Collect(a, TextOf), Collect(b, TextOf));
    JoinTextAppend(Collect(a, ThinkingOf), Collect(b, ThinkingOf));
  }

  /** A lone text block yields its text and no thinking. */
  lemma TextBlockContent(s: string)
    ensures BlocksContent([JObj([Entry("text", JStr(s))])]) == Ok(Content(s, ""))
  {
    var block := JObj([Entry("text", JStr(s))]);
    assert [block][1..] == [];
    assert Collect([block], TextOf) == [JStr(s)] && Collect([block], ThinkingOf) == [];
    assert [JStr(s)][1..] == [];
    assert JoinText([JStr(s)]) == Ok(s + "") && s + "" == s;
    assert JoinText([]) == Ok("");
  }

  /** A lone thinking block given as a string yields that thinking and no text. */
  lemma ThinkingBlockContent(s: string)
    ensures BlocksContent([JObj([Entry("thinking", JStr(s))])]) == Ok(Content("", s))
  {
    var block := JObj([Entry("thinking", JStr(s))]);
    assert [block][1..] == [];
    assert Get(block.fields, "reasoningContent") == None;
    assert Collect([block], TextOf) == [] && Collect([block], ThinkingOf) == [JStr(s)];
    assert [JStr(s)][1..] == [];
    assert JoinText([JStr(s)]) == Ok(s + "") && s + "" == s;
    assert JoinText([]) == Ok("");
  }

  /** Blocks that are not dicts add nothing. */
  lemma SkippedBlock(block: Json, rest: seq<Json>)
    requires !block.JObj?
    ensures BlocksContent([block] + rest) == BlocksContent(rest)
  {
    assert ([block] + rest)[1..] == rest;
    assert Collect([block] + rest, TextOf) == Collect(rest, TextOf);
    assert Collect([block] + rest, ThinkingOf) == Collect(rest, ThinkingOf);
  }

  /** The extraction reads exactly the blocks of an answer. */
  lemma ExtractBlocks(blocks: seq<Json>)
    ensures ExtractContent(AnswerResponse(blocks)) == BlocksContent(blocks)
  {
    var message := JObj([Entry("role", JStr("assistant")), Entry("content", JArr(blocks))]);
    assert Get(message.fields, "content") == Some(JArr(blocks)) by {
      assert message.fields[1..] == [Entry("content", JArr(blocks))];
    }
    if |blocks| == 0 {
      assert BlocksContent([]) == Ok(Content("", ""));
    } else {
      assert ContentBlocks(AnswerResponse(blocks)) == Ok(blocks);
    }
  }

  /** A one-block text answer `s` extracts to `s`. */
  lemma ExtractTextAnswer(s: string)
    ensures ExtractText(AnswerResponse([JObj([Entry("text", JStr(s))])])) == Ok(s)
  {
    ExtractBlocks([JObj([Entry("text", JStr(s))])]);
    TextBlockContent(s);
  }
}

=== FILE: crossaccount.dfy ===
/** The role the provisioner assumes in a target account
    (mcp_server.py:33-47). The three environment variables are parameters,
    `None` when unset. */
module CrossAccount {
  import opened Wrappers
  import opened Text

  /** Lines 33-35: `os.environ.get(name, '').strip() or None`. */
  function Setting(env: Option<string>): (r: Option<string>)
    ensures r.Some? ==> |r.value| > 0 && IsStripped(r.value)
    ensures r.None? <==> Strip(env.GetOr("")) == ""
  {
    StripIsStripped(env.GetOr(""));
    var s := Strip(env.GetOr(""));
    if s == "" then None else Some(s)
  }

  const ArnPrefix := "arn:aws:iam::"
  const RolePart := ":role/"

  function RoleArnOf(accountId: string, roleName: string): string {
    ArnPrefix + accountId + RolePart + roleName
  }

  /** Lines 41-47: a full role ARN wins; otherwise account and role name are
      combined when both are set; otherwise there is no cross-account role. */
  function CrossAccountRoleArn(roleArnEnv: Option<string>, accountEnv: Option<string>, roleNameEnv: Option<string>): (r: Option<string>)
    ensures Setting(roleArnEnv).Some? ==> r == Setting(roleArnEnv)
    ensures Setting(roleArnEnv).None? ==>
              (r.Some? <==> Setting(accountEnv).Some? && Setting(roleNameEnv).Some?)
    ensures Setting(roleArnEnv).None? && r.Some? ==> StartsWith(r.value, ArnPrefix)
    ensures Setting(roleArnEnv).None? && r.Some? && ':' !in Setting(accountEnv).value ==>
              AccountOf(r.value) == Setting(accountEnv).value && RoleNameOf(r.value) == Setting(roleNameEnv).value
  {
    var arn := Setting(roleArnEnv);
    var account := Setting(accountEnv);
    var role := Setting(roleNameEnv);
    if arn.Some? then arn
    else if account.Some? && role.Some? then
      var r := RoleArnOf(account.value, role.value);
      RoleArnParts(account.value, role.value);
      Some(r)
    else None
  }

  /** Index of the first `c` in `s`, or `|s|` when there is none. */
  function IndexOf(s: string, c: char): (i: nat)
    ensures i <= |s|
    ensures forall j | 0 <= j < i :: s[j] != c
    ensures i < |s| ==> s[i] == c
  {
    if |s| == 0 then 0 else if s[0] == c then 0 else 1 + IndexOf(s[1..], c)
  }

  /** The account of an ARN built above: the text after the prefix up to the next `:`. */
  function AccountOf(arn: string): string {
    if StartsWith(arn, ArnPrefix) then
      var rest := arn[|ArnPrefix|..];
      rest[..IndexOf(rest, ':')]
    else ""
  }

  /** The role name: whatever follows `:role/` after the account. */
  function RoleNameOf(arn: string): string {
    if StartsWith(arn, ArnPrefix) then
      var rest := arn[|ArnPrefix|..];
      var i := IndexOf(rest, ':');
      if StartsWith(rest[i..], RolePart) then rest[i + |RolePart|..] else ""
    else ""
  }

  /** An account id without `:` and a role name are read back from the ARN
      built from them. */
  lemma RoleArnParts(accountId: string, roleName: string)
    ensures StartsWith(RoleArnOf(accountId, roleName), ArnPrefix)
    ensures ':' !in accountId ==>
              AccountOf(RoleArnOf(accountId, roleName)) == accountId
              && RoleNameOf(RoleArnOf(accountId, roleName)) == roleName
  {
    var arn := RoleArnOf(accountId, roleName);
    assert arn[..|ArnPrefix|] == ArnPrefix;
    var rest := arn[|ArnPrefix|..];
    assert rest == accountId + RolePart + roleName;
    if ':' !in accountId {
      IndexAfter(accountId, RolePart + roleName);
      assert rest == accountId + (RolePart + roleName);
      assert rest[|accountId|..] == RolePart + roleName;
      assert (RolePart + roleName)[..|RolePart|] == RolePart;
    }
  }

  lemma IndexAfter(a: string, b: string)
    requires ':' !in a && |b| > 0 && b[0] == ':'
    ensures IndexOf(a + b, ':') == |a|
  {
    assert (a + b)[|a|] == ':';
    assert forall j | 0 <= j < |a| :: (a + b)[j] == a[j];
  }
}

=== FILE: json.dfy ===
/** The parsed form of a template or of a downstream response: a JSON value
    tree whose objects keep their keys in insertion order, as Python dicts do. */
module Json {
  import opened Wrappers
  import opened Text

  /** One key of an ordered dictionary. */
  datatype Entry<+V> = Entry(key: string, val: V)

  datatype Json =
    | JNull
    | JBool(b: bool)
    | JNum(n: real)
    | JStr(s: string)
    | JArr(items: seq<Json>)
    | JObj(fields: seq<Entry<Json>>)

  /** JSON and YAML parsing and dumping are library code and stay opaque:
      a parser answers `None` where the library raises. */
  datatype Codec = Codec(
    parseJson: string -> Option<Json>,
    parseYaml: string -> Option<Json>,
    dumpJson: Json -> string,
    dumpYaml: Json -> string)

  // ---------------------------------------------------------------------------
  // Ordered dictionaries
  // ---------------------------------------------------------------------------

  /** `k in d` */
  predicate HasKey<V>(d: seq<Entry<V>>, k: string) {
    exists i | 0 <= i < |d| :: d[i].key == k
  }

  /** `d.get(k)`: the value of the first entry with key `k`. */
  function Get<V>(d: seq<Entry<V>>, k: string): (r: Option<V>)
    ensures r.Some? <==> HasKey(d, k)
  {
    if |d| == 0 then None
    else if d[0].key == k then Some(d[0].val)
    else
      assert HasKey(d, k) ==> HasKey(d[1..], k) by {
        if HasKey(d, k) {
          var i :| 0 <= i < |d| && d[i].key == k;
          assert d[1..][i - 1].key == k;
        }
      }
      Get(d[1..], k)
  }

  /** The value `d.get(k)` answers is the one of the first entry carrying `k`. */
  lemma {:induction false} GetFirst<V>(d: seq<Entry<V>>, k: string, i: nat)
    requires i < |d| && d[i].key == k
    requires forall j :: 0 <= j < i ==> d[j].key != k
    ensures Get(d, k) == Some(d[i].val)
  {
    if i > 0 {
      GetFirst(d[1..], k, i - 1);
    }
  }

  /** Whatever `d.get(k)` answers is stored under `k` in `d`. */
  lemma {:induction false} GetIsStored<V>(d: seq<Entry<V>>, k: string)
    requires HasKey(d, k)
    ensures exists i | 0 <= i < |d| :: d[i] == Entry(k, Get(d, k).value)
  {
    if d[0].key == k {
      assert d[0] == Entry(k, Get(d, k).value);
    } else {
      GetIsStored(d[1..], k);
      var i :| 0 <= i < |d[1..]| && d[1..][i] == Entry(k, Get(d[1..], k).value);
      assert d[i + 1] == Entry(k, Get(d, k).value);
    }
  }

  /** `d[k] = v`: replaces the value in place when `k` is present, appends otherwise. */
  function Put<V>(d: seq<Entry<V>>, k: string, v: V): (r: seq<Entry<V>>)
    ensures Get(r, k) == Some(v)
    ensures forall k' {:trigger Get(r, k')} :: k' != k ==> Get(r, k') == Get(d, k')
  {
    if |d| == 0 then [Entry(k, v)]
    else if d[0].key == k then
      var r := [Entry(k, v)] + d[1..];
      assert r[1..] == d[1..];
      r
    else
      var r := [d[0]] + Put(d[1..], k, v);
      assert r[1..] == Put(d[1..], k, v);
      r
  }

  lemma HasKeyTail<V>(d: seq<Entry<V>>, k: string)
    requires |d| > 0 && d[0].key != k
    ensures HasKey(d, k) <==> HasKey(d[1..], k)
  {
    if HasKey(d, k) {
      var i :| 0 <= i < |d| && d[i].key == k;
      assert d[1..][i - 1].key == k;
    }
    if HasKey(d[1..], k) {
      var i :| 0 <= i < |d[1..]| && d[1..][i].key == k;
      assert d[i + 1].key == k;
    }
  }

  /** A new key is appended. */
  lemma {:induction false} PutNew<V>(d: seq<Entry<V>>, k: string, v: V)
    requires !HasKey(d, k)
    ensures Put(d, k, v) == d + [Entry(k, v)]
  {
    if |d| > 0 {
      HasKeyTail(d, k);
      PutNew(d[1..], k, v);
      assert [d[0]] + (d[1..] + [Entry(k, v)]) == d + [Entry(k, v)];
    }
  }

  /** Assigning an existing key keeps every key in its place. */
  lemma {:induction false} PutExisting<V>(d: seq<Entry<V>>, k: string, v: V)
    requires HasKey(d, k)
    ensures |Put(d, k, v)| == |d| && forall i | 0 <= i < |d| :: Put(d, k, v)[i].key == d[i].key
  {
    if d[0].key != k {
      HasKeyTail(d, k);
      PutExisting(d[1..], k, v);
      var r := Put(d, k, v);
      assert forall i | 1 <= i < |d| :: r[i] == Put(d[1..], k, v)[i - 1];
    }
  }

  lemma PutKeys<V>(d: seq<Entry<V>>, k: string, v: V)
    ensures HasKey(d, k) ==> Keys(Put(d, k, v)) == Keys(d)
    ensures !HasKey(d, k) ==> Keys(Put(d, k, v)) == Keys(d) + [k]
  {
    var r := Put(d, k, v);
    if HasKey(d, k) {
      PutExisting(d, k, v);
      assert forall i | 0 <= i < |d| :: Keys(r)[i] == Keys(d)[i];
    } else {
      PutNew(d, k, v);
      assert forall i | 0 <= i < |r| :: Keys(r)[i] == (Keys(d) + [k])[i];
    }
  }

  /** Keys that occur once each, as in any dict the parsers produce. */
  predicate UniqueKeys<V>(d: seq<Entry<V>>) {
    forall i, j | 0 <= i < j < |d| :: d[i].key != d[j].key
  }

  /** Every entry after an assignment is the assigned one or was there before. */
  lemma {:induction false} PutEntries<V>(d: seq<Entry<V>>, k: string, v: V)
    ensures forall e | e in Put(d, k, v) :: e == Entry(k, v) || e in d
  {
    if |d| > 0 && d[0].key != k {
      PutEntries(d[1..], k, v);
      assert forall e | e in d[1..] :: e in d;
    }
  }

  /** An assignment leaves the entries of every other key in place. */
  lemma {:induction false} PutKeepsOthers<V>(d: seq<Entry<V>>, k: string, v: V, e: Entry<V>)
    requires e in d && e.key != k
    ensures e in Put(d, k, v)
  {
    if d[0] != e {
      PutKeepsOthers(d[1..], k, v, e);
    }
  }

  /** With unique keys `d.get` finds every stored entry. */
  lemma {:induction false} GetUnique<V>(d: seq<Entry<V>>, e: Entry<V>)
    requires UniqueKeys(d) && e in d
    ensures Get(d, e.key) == Some(e.val)
  {
    if d[0] != e {
      assert d[0].key != e.key by {
        var i :| 0 <= i < |d| && d[i] == e;
      }
      GetUnique(d[1..], e);
    }
  }

  /** An assignment keeps keys unique. */
  lemma PutUnique<V>(d: seq<Entry<V>>, k: string, v: V)
    requires UniqueKeys(d)
    ensures UniqueKeys(Put(d, k, v))
  {
    PutKeys(d, k, v);
    var r := Put(d, k, v);
    forall i, j | 0 <= i < j < |r| ensures r[i].key != r[j].key {
      assert r[i].key == Keys(r)[i] && r[j].key == Keys(r)[j];
      assert Keys(r)[i] == d[i].key;
      if j < |d| {
        assert Keys(r)[j] == d[j].key;
      }
    }
  }

  /** `del d[k]` / `d.pop(k)`: drops the key. */
  function Remove<V>(d: seq<Entry<V>>, k: string): (r: seq<Entry<V>>)
    ensures Get(r, k) == None
    ensures forall k' {:trigger Get(r, k')} :: k' != k ==> Get(r, k') == Get(d, k')
    ensures !HasKey(d, k) ==> r == d
  {
    if |d| == 0 then []
    else if d[0].key == k then Remove(d[1..], k)
    else [d[0]] + Remove(d[1..], k)
  }

  /** `list(d.keys())` */
  function Keys<V>(d: seq<Entry<V>>): (ks: seq<string>)
    ensures |ks| == |d|
  {
    seq(|d|, i requires 0 <= i < |d| => d[i].key)
  }

  /** Index of the first entry at or after `from` whose key satisfies `p`:
      the `for key in list(d): if p(key): ...; break` loop. */
  function FirstKeyWhere<V>(d: seq<Entry<V>>, p: string -> bool, from: nat): (r: Option<nat>)
    requires from <= |d|
    ensures r.Some? ==> from <= r.value < |d| && p(d[r.value].key)
    ensures r.Some? ==> forall j :: from <= j < r.value ==> !p(d[j].key)
    ensures r.None? ==> forall j :: from <= j < |d| ==> !p(d[j].key)
    decreases |d| - from
  {
    if from == |d| then None
    else if p(d[from].key) then Some(from)
    else FirstKeyWhere(d, p, from + 1)
  }

  /** A value at the given key, looked up through an object. */
  function Field(j: Json, k: string): Option<Json> {
    if j.JObj? then Get(j.fields, k) else None
  }

  // ---------------------------------------------------------------------------
  // Python semantics on parsed values
  // ---------------------------------------------------------------------------

  /** Python truthiness: `None`, `False`, zero and empty containers are false. */
  predicate Truthy(j: Json) {
    match j
    case JNull => false
    case JBool(b) => b
    case JNum(n) => n != 0.0
    case JStr(s) => |s| > 0
    case JArr(items) => |items| > 0
    case JObj(fields) => |fields| > 0
  }

  /** `d.get(k) or {}` seen as the object the code goes on to use. */
  datatype View =
    | Attached(fields: seq<Entry<Json>>)   // a non-empty dict stored in the parent: edits stick
    | Detached                              // missing or falsy: a fresh `{}`, edits are lost
    | Foreign(j: Json)                      // truthy but not a dict: dict methods raise

  function ViewOf(v: Option<Json>): (r: View)
    ensures r.Attached? ==> |r.fields| > 0 && v == Some(JObj(r.fields))
    ensures r.Detached? <==> (v.None? || !Truthy(v.value))
    ensures r.Foreign? ==> v.Some? && Truthy(v.value) && !v.value.JObj?
  {
    match v
    case None => Detached
    case Some(j) =>
      if !Truthy(j) then Detached
      else if j.JObj? then Attached(j.fields)
      else Foreign(j)
  }

  /** The resources a template pass walks: `doc.get('Resources') or {}` when it is a dict. */
  function ResourcesOf(doc: Json): seq<Entry<Json>> {
    if doc.JObj? then
      match ViewOf(Get(doc.fields, "Resources"))
      case Attached(entries) => entries
      case _ => []
    else []
  }

  lemma ResourcesOfField(d: Json, rs: seq<Entry<Json>>)
    requires d.JObj? && Get(d.fields, "Resources") == Some(JObj(rs)) && |rs| > 0
    ensures ResourcesOf(d) == rs
  {
  }

  lemma ResourcesOfSame(a: Json, b: Json)
    requires a.JObj? && b.JObj? && Get(a.fields, "Resources") == Get(b.fields, "Resources")
    ensures ResourcesOf(a) == ResourcesOf(b)
  {
  }

  /** `b` is `a` with at most the entry under `key` changed: a dict stays a
      dict whose other keys keep their values, and anything else stays as
      it is. */
  ghost predicate KeepsAllBut(a: Json, b: Json, key: string) {
    if a.JObj? then b.JObj? && forall k | k != key :: Get(b.fields, k) == Get(a.fields, k)
    else b == a
  }

  /** Python's `key in container` for a string key. */
  function PyContains(container: Json, key: string): (r: Try<bool>)
    ensures container.JObj? ==> r == Ok(HasKey(container.fields, key))
    ensures container.JStr? ==> r == Ok(Contains(container.s, key))
    ensures r.Raises? <==> (container.JNull? || container.JBool? || container.JNum?)
  {
    match container
    case JObj(fields) => Ok(HasKey(fields, key))
    case JArr(items) => Ok(JStr(key) in items)
    case JStr(s) => Ok(Contains(s, key))
    case _ => Raises
  }

  /** Python's `value in ids` for a set of strings: lists and dicts are unhashable. */
  function InIds(value: Json, ids: set<string>): (r: Try<bool>)
    ensures r.Raises? <==> (value.JArr? || value.JObj?)
    ensures r == Ok(true) <==> (value.JStr? && value.s in ids)
  {
    match value
    case JArr(_) => Raises
    case JObj(_) => Raises
    case JStr(s) => Ok(s in ids)
    case _ => Ok(false)
  }

  /** The template parameter the provisioner fills with a unique value. */
  const SuffixParamName := "BucketNameSuffix"

  /** `'bucketnamesuffix' in text.lower()`: the needle is the parameter's name lower-cased. */
  predicate NamesSuffix(text: string) {
    Contains(Lower(text), Lower(SuffixParamName))
  }

  /** Any text spelling the parameter's name out names the suffix. */
  lemma SpelledNamesSuffix(text: string, i: int)
    requires OccursAt(text, SuffixParamName, i)
    ensures NamesSuffix(text)
  {
    LowerOccurs(text, SuffixParamName, i);
  }

  // ---------------------------------------------------------------------------
  // `json.dumps` of keys and strings
  // ---------------------------------------------------------------------------

  /** A lower-case hexadecimal digit. */
  function HexDigit(d: nat): char
    requires d < 16
  {
    if d < 10 then ('0' as int + d) as char else ('a' as int + d - 10) as char
  }

  /** `'\\u{0:04x}'.format(n)`: a `\u` escape of one UTF-16 code unit, in four
      lower-case hexadecimal digits. */
  function UnicodeEscape(n: nat): (r: string)
    requires n < 0x10000
    ensures |r| == 6 && r[0] == '\\' && r[1] == 'u'
    ensures forall k | 2 <= k < 6 :: '0' <= r[k] <= '9' || 'a' <= r[k] <= 'f'
  {
    ['\\', 'u', HexDigit(n / 4096), HexDigit(n / 256 % 16), HexDigit(n / 16 % 16), HexDigit(n % 16)]
  }

  /** The characters `json.dumps` writes as themselves: printable ASCII
      other than the quote and the backslash. */
  predicate PlainChar(c: char) {
    ' ' <= c <= '~' && c != '"' && c != '\\'
  }

  /** How `json.dumps`, with its default `ensure_ascii`, writes one character
      of a key or string: the quote and the backslash are backslash-escaped,
      backspace, form feed, newline, carriage return and tab get their
      one-letter escapes, any other control character, DEL and every
      non-ASCII character become `\u` escapes (a surrogate pair above
      U+FFFF). */
  function EscapeChar(c: char): (r: string)
    ensures PlainChar(c) ==> r == [c]
    ensures !PlainChar(c) ==> 2 <= |r| && r[0] == '\\' && forall k | 0 <= k < |r| :: r[k] as int < 128
  {
    if PlainChar(c) then [c]
    else if c == '"' then ['\\', '"']
    else if c == '\\' then ['\\', '\\']
    else if c as int == 8 then ['\\', 'b']
    else if c as int == 12 then ['\\', 'f']
    else if c == '\n' then ['\\', 'n']
    else if c == '\r' then ['\\', 'r']
    else if c == '\t' then ['\\', 't']
    else if c as int < 0x10000 then UnicodeEscape(c as int)
    else
      var v := c as int - 0x10000;
      UnicodeEscape(0xD800 + v / 1024) + UnicodeEscape(0xDC00 + v % 1024)
  }

  /** The body of a key or string in `json.dumps`, between its quotes. */
  function Escaped(s: string): (r: string)
    ensures |r| >= |s|
  {
    if |s| == 0 then [] else EscapeChar(s[0]) + Escaped(s[1..])
  }

  /** Escaping works character by character. */
  lemma {:induction false} EscapedAppend(a: string, b: string)
    ensures Escaped(a + b) == Escaped(a) + Escaped(b)
  {
    if |a| == 0 {
      assert a + b == b;
    } else {
      assert (a + b)[0] == a[0] && (a + b)[1..] == a[1..] + b;
      EscapedAppend(a[1..], b);
    }
  }

  /** A string of plain characters is written as it is. */
  lemma {:induction false} EscapedPlain(s: string)
    requires forall i | 0 <= i < |s| :: PlainChar(s[i])
    ensures Escaped(s) == s
  {
    if |s| > 0 {
      EscapedPlain(s[1..]);
    }
  }

  /** Whether `'bucketnamesuffix'` occurs in the lower-cased `json.dumps` of
      a non-string value. The dump separates keys, strings, numbers and the
      literals by quotes, colons, commas, brackets and spaces, none of them a
      letter; numbers, `null`, `true` and `false` never spell the word; so an
      occurrence lies inside the written form of one key or one string. That
      written form is the escaped text: an escape starts with a backslash, but
      the letter after it (`\b`, or the last digit of a `\u` escape) can
      start the word. The dump is pure ASCII, so ASCII lower-casing is exact
      here. */
  predicate DumpMentionsSuffix(j: Json) {
    match j
    case JStr(s) => NamesSuffix(Escaped(s))
    case JArr(items) => exists i | 0 <= i < |items| :: DumpMentionsSuffix(items[i])
    case JObj(fields) =>
      exists i | 0 <= i < |fields| :: NamesSuffix(Escaped(fields[i].key)) || DumpMentionsSuffix(fields[i].val)
    case _ => false
  }

  /** Lines 167-172 of mcp_server.py: a string is searched as it is, any other
      value in its `json.dumps` form; null never mentions the suffix. */
  predicate MentionsSuffix(j: Json) {
    if j.JStr? then NamesSuffix(j.s) else DumpMentionsSuffix(j)
  }

  /** A word of plain characters is written unchanged in the middle of any text. */
  lemma EscapedAround(pre: string, word: string, post: string)
    requires forall i | 0 <= i < |word| :: PlainChar(word[i])
    ensures Escaped(pre + word + post) == Escaped(pre) + word + Escaped(post)
  {
    EscapedPlain(word);
    EscapedAppend(pre, word);
    EscapedAppend(pre + word, post);
  }

  lemma SuffixNamePlain()
    ensures forall i | 0 <= i < |SuffixParamName| :: PlainChar(SuffixParamName[i])
  {
  }

  /** Any string spelling the parameter's name out still spells it once dumped. */
  lemma EscapedSpellsSuffix(pre: string, post: string)
    ensures NamesSuffix(Escaped(pre + SuffixParamName + post))
  {
    SuffixNamePlain();
    EscapedAround(pre, SuffixParamName, post);
    var e := Escaped(pre + SuffixParamName + post);
    var at := |Escaped(pre)|;
    assert e[at..at + |SuffixParamName|] == SuffixParamName;
    SpelledNamesSuffix(e, at);
  }

  /** A backspace followed by the rest of a word that starts with `b` or `B`
      dumps to a text spelling the word. */
  lemma {:induction false} BackspaceSpells(word: string)
    requires |word| > 0 && LowerChar(word[0]) == 'b'
    requires forall i | 1 <= i < |word| :: PlainChar(word[i])
    ensures Contains(Lower(Escaped([8 as char] + word[1..])), Lower(word))
  {
    var rest := word[1..];
    EscapedAround([8 as char], rest, []);
    assert [8 as char] + rest + [] == [8 as char] + rest;
    var e := Escaped([8 as char] + rest);
    assert e == ['\\', 'b'] + rest;
    forall k | 0 <= k < |word|
      ensures Lower(e)[1 + k] == Lower(word)[k]
    {
      if k > 0 {
        assert e[1 + k] == rest[k - 1] == word[k];
      }
    }
    assert Lower(e)[1..1 + |word|] == Lower(word);
    assert OccursAt(Lower(e), Lower(word), 1);
  }

  /** The string of a backspace and `ucketNameSuffix` mentions the suffix
      once it sits inside a dict or a list: its dump starts with the escape
      `\b`. */
  lemma BackspaceSpellsSuffix(rest: string)
    requires rest == SuffixParamName[1..]
    ensures DumpMentionsSuffix(JArr([JStr([8 as char] + rest)]))
  {
    SuffixNamePlain();
    BackspaceSpells(SuffixParamName);
    var j := JArr([JStr([8 as char] + rest)]);
    assert DumpMentionsSuffix(j.items[0]);
  }

  /** A string value is a resource's `Type` only when equal to the literal. */
  predicate HasType(rdef: Json, t: string) {
    rdef.JObj? && Get(rdef.fields, "Type") == Some(JStr(t))
  }
}

=== FILE: lambda_call.dfy ===
/** test_lambda_call.py: a script that calls AgentCore the way the WebSocket
    Lambda does, with its own, more forgiving response parser. */
module LambdaCallScript {
  import opened Wrappers
  import opened Text
  import opened Json
  import opened AgentCore
  import WebSocket

  /** test_lambda_call.py:10-11 */
  const ScriptArn := "arn:aws:bedrock-agentcore:us-east-1:611291728384:runtime/cfn_mcp_server-4KOBaDFd4a"
  const ScriptRegion := "us-east-1"

  /** test_lambda_call.py:13-69, `call_mcp_tool` against the runtime `arn`
      in `region` (the script passes `ScriptArn` and `ScriptRegion`), given
      the signed HTTPS call (`None`: it raised) and the JSON parser. */
  function CallTool(arn: string, region: string, tool: Json, arguments: Json,
                    respond: (string, Json) -> Option<string>, parse: string -> Option<Json>): (r: Reply)
    ensures respond(McpUrl(region, arn), RequestBody(tool, arguments)).None? ==> r == Raised
    ensures respond(McpUrl(region, arn), RequestBody(tool, arguments)).Some? ==>
              r == ParseWith(ScriptFraming, respond(McpUrl(region, arn), RequestBody(tool, arguments)).value, parse)
  {
    match respond(McpUrl(region, arn), RequestBody(tool, arguments))
    case None => Raised
    case Some(text) => ParseWith(ScriptFraming, text, parse)
  }

  /** Against the deployment it imitates, the script sends the same request
      and reads an event-framed answer the same way as the WebSocket Lambda. */
  lemma ScriptAgreesWithHandler(w: WebSocket.Downstream, tool: Json, arguments: Json, payload: string)
    requires w.respond(McpUrl(w.region.GetOr(DefaultRegion), w.arn), RequestBody(tool, arguments)) == Some(Frame(payload))
    requires '\n' !in payload && w.parse(payload).Some?
    ensures WebSocket.CallTool(w, tool, arguments) == WebSocket.Answered(w.parse(payload).value)
    ensures CallTool(w.arn, w.region.GetOr(DefaultRegion), tool, arguments, w.respond, w.parse) == Value(w.parse(payload).value)
  {
    FramedAnswerRoundTrip(WebSocketFraming, payload, w.parse);
    FramedAnswerRoundTrip(ScriptFraming, payload, w.parse);
  }

  /** On a blank answer the script reports an empty response where the
      WebSocket Lambda reports a missing data line. */
  lemma BlankAnswerDiffers(w: WebSocket.Downstream, tool: Json, arguments: Json, body: string)
    requires w.respond(McpUrl(w.region.GetOr(DefaultRegion), w.arn), RequestBody(tool, arguments)) == Some(body)
    requires Strip(body) == ""
    ensures CallTool(w.arn, w.region.GetOr(DefaultRegion), tool, arguments, w.respond, w.parse) == Value(ErrorObject("Empty response from AgentCore"))
    ensures WebSocket.CallTool(w, tool, arguments) == WebSocket.Answered(ErrorObject("No data in SSE response"))
  {
    BlankBody(body, w.parse);
  }
}

=== FILE: line_filter.dfy ===
/** Line filters over a template's text. The YAML branch of
    `_normalize_cfn_template_for_provision` cuts scaling-policy cooldown keys
    out before parsing (mcp_server.py:314-334), so that tags such as `!Ref`
    survive untouched; the bucket-name fallback (mcp_server.py:486-499) drops
    single lines the same way. */
module LineFilter {
  import opened Text

  /** Lines 322-323: the stripped line starts with one of the two cooldown keys. */
  predicate IsCooldownLine(line: string) {
    var t := Strip(line);
    StartsWith(t, "ScaleInCooldown:") || StartsWith(t, "ScaleOutCooldown:")
  }

  /** Lines 327-328: the number of leading blanks, `len(line) - len(line.lstrip())`. */
  function Indent(line: string): (n: nat)
    ensures n <= |line|
    ensures forall i :: 0 <= i < n ==> IsSpace(line[i])
    ensures n < |line| ==> !IsSpace(line[n])
  {
    |line| - |LStrip(line)|
  }

  /** Line 329: the line after a cooldown key is taken as its value when it is
      more deeply indented and not blank. */
  predicate IsValueLine(key: string, next: string) {
    Indent(next) > Indent(key) && Strip(next) != ""
  }

  /** Which lines are keys to drop and when the following line goes with them.
      The filter below is stated for any such pair, so that its proofs never
      look inside the two tests. */
  datatype LineRule = LineRule(isKey: string -> bool, isValue: (string, string) -> bool)

  const Cooldowns := LineRule(IsCooldownLine, IsValueLine)

  predicate HasKeyLine(lines: seq<string>, rule: LineRule) {
    exists i | 0 <= i < |lines| :: rule.isKey(lines[i])
  }

  /** Lines 319-333 as a recursive definition: each key line goes, and with it
      the following line when that is its value. */
  function DropKeyLines(lines: seq<string>, rule: LineRule): (out: seq<string>)
    ensures |out| <= |lines|
    decreases |lines|
  {
    if |lines| == 0 then []
    else if rule.isKey(lines[0]) then
      if |lines| >= 2 && rule.isValue(lines[0], lines[1]) then DropKeyLines(lines[2..], rule)
      else DropKeyLines(lines[1..], rule)
    else [lines[0]] + DropKeyLines(lines[1..], rule)
  }

  /** What survives holds no key line and is drawn from the input. */
  lemma {:induction false} DropKeepsOthers(lines: seq<string>, rule: LineRule)
    ensures forall i :: 0 <= i < |DropKeyLines(lines, rule)| ==> !rule.isKey(DropKeyLines(lines, rule)[i])
    ensures forall i :: 0 <= i < |DropKeyLines(lines, rule)| ==> DropKeyLines(lines, rule)[i] in lines
    decreases |lines|
  {
    if |lines| > 0 {
      var rest := if rule.isKey(lines[0]) && |lines| >= 2 && rule.isValue(lines[0], lines[1]) then lines[2..] else lines[1..];
      DropKeepsOthers(rest, rule);
      assert forall l :: l in rest ==> l in lines;
    }
  }

  /** Lines with no key line pass through unchanged. */
  lemma {:induction false} DropNothing(lines: seq<string>, rule: LineRule)
    requires !HasKeyLine(lines, rule)
    ensures DropKeyLines(lines, rule) == lines
    decreases |lines|
  {
    if |lines| > 0 {
      assert !rule.isKey(lines[0]);
      assert !HasKeyLine(lines[1..], rule) by {
        forall i | 0 <= i < |lines[1..]| ensures !rule.isKey(lines[1..][i]) {
          assert lines[1..][i] == lines[i + 1];
        }
      }
      DropNothing(lines[1..], rule);
    }
  }

  /** A rule that never takes a following line along: the filter then keeps
      exactly the lines that are not keys. */
  ghost predicate KeysOnly(rule: LineRule) {
    forall key, next :: !rule.isValue(key, next)
  }

  /** Under such a rule the filter distributes over concatenation, so the
      kept lines appear in their original order. */
  lemma {:induction false} DropKeysOnlyAppend(a: seq<string>, b: seq<string>, rule: LineRule)
    requires KeysOnly(rule)
    ensures DropKeyLines(a + b, rule) == DropKeyLines(a, rule) + DropKeyLines(b, rule)
    decreases |a|
  {
    if |a| == 0 {
      assert a + b == b;
    } else {
      assert (a + b)[1..] == a[1..] + b;
      DropKeysOnlyAppend(a[1..], b, rule);
    }
  }

  /** Under such a rule a single line goes exactly when it is a key. */
  lemma DropKeysOnlyOne(line: string, rule: LineRule)
    requires KeysOnly(rule)
    ensures DropKeyLines([line], rule) == if rule.isKey(line) then [] else [line]
  {
    assert [line][1..] == [];
  }

  /** Under such a rule every line that is not a key is kept. */
  lemma {:induction false} DropKeysOnlyKeeps(lines: seq<string>, rule: LineRule)
    requires KeysOnly(rule)
    ensures forall i | 0 <= i < |lines| :: !rule.isKey(lines[i]) ==> lines[i] in DropKeyLines(lines, rule)
    decreases |lines|
  {
    if |lines| > 0 {
      DropKeysOnlyKeeps(lines[1..], rule);
      assert forall i | 1 <= i < |lines| :: lines[i] == lines[1..][i - 1];
    }
  }

  /** One step of the recursive definition, taken at position `i`. */
  lemma DropAt(lines: seq<string>, rule: LineRule, i: nat)
    requires i < |lines|
    ensures rule.isKey(lines[i]) && i + 1 < |lines| && rule.isValue(lines[i], lines[i + 1]) ==>
              DropKeyLines(lines[i..], rule) == DropKeyLines(lines[i + 2..], rule)
    ensures rule.isKey(lines[i]) && !(i + 1 < |lines| && rule.isValue(lines[i], lines[i + 1])) ==>
              DropKeyLines(lines[i..], rule) == DropKeyLines(lines[i + 1..], rule)
    ensures !rule.isKey(lines[i]) ==>
              DropKeyLines(lines[i..], rule) == [lines[i]] + DropKeyLines(lines[i + 1..], rule)
  {
    assert lines[i..][1..] == lines[i + 1..];
    if i + 1 < |lines| {
      assert lines[i..][2..] == lines[i + 2..];
    }
  }

  /** Lines 319-333, the while loop itself: it computes the recursive
      definition and reports whether any key line was seen. */
  method FilterLines(lines: seq<string>, rule: LineRule) returns (out: seq<string>, changed: bool)
    ensures out == DropKeyLines(lines, rule)
    ensures changed <==> HasKeyLine(lines, rule)
  {
    out := [];
    changed := false;
    var i := 0;
    while i < |lines|
      invariant 0 <= i <= |lines|
      invariant out + DropKeyLines(lines[i..], rule) == DropKeyLines(lines, rule)
      invariant changed <==> exists j | 0 <= j < i :: rule.isKey(lines[j])
      decreases |lines| - i
    {
      var line := lines[i];
      DropAt(lines, rule, i);
      if rule.isKey(line) {
        changed := true;
        if i + 1 < |lines| && rule.isValue(line, lines[i + 1]) {
          i := i + 2;
        } else {
          i := i + 1;
        }
      } else {
        assert out + DropKeyLines(lines[i..], rule) == (out + [line]) + DropKeyLines(lines[i + 1..], rule);
        out := out + [line];
        i := i + 1;
      }
    }
    assert lines[i..] == [];
  }

  predicate NoBreaks(lines: seq<string>) {
    forall i :: 0 <= i < |lines| ==> forall c :: c in lines[i] ==> !IsLineBreak(c)
  }

  /** Line 334: the joined kept lines if a cooldown line was seen, else the
      original text (line boundaries and a final newline survive only then). */
  function CooldownFilter(text: string): (r: string)
    ensures !HasKeyLine(SplitLines(text), Cooldowns) ==> r == text
    ensures HasKeyLine(SplitLines(text), Cooldowns) && |DropKeyLines(SplitLines(text), Cooldowns)| > 0 ==>
              Split(r, '\n') == DropKeyLines(SplitLines(text), Cooldowns)
    ensures HasKeyLine(SplitLines(text), Cooldowns) && |DropKeyLines(SplitLines(text), Cooldowns)| == 0 ==> r == ""
  {
    var lines := SplitLines(text);
    if HasKeyLine(lines, Cooldowns) then
      var kept := DropKeyLines(lines, Cooldowns);
      KeptHaveNoBreaks(lines, Cooldowns);
      if |kept| > 0 then
        assert IsLineBreak('\n');
        SplitJoin(kept, '\n');
        Join('\n', kept)
      else Join('\n', kept)
    else text
  }

  lemma KeptHaveNoBreaks(lines: seq<string>, rule: LineRule)
    requires NoBreaks(lines)
    ensures NoBreaks(DropKeyLines(lines, rule))
  {
    var kept := DropKeyLines(lines, rule);
    DropKeepsOthers(lines, rule);
    forall i | 0 <= i < |kept| ensures forall c :: c in kept[i] ==> !IsLineBreak(c) {
      var j :| 0 <= j < |lines| && lines[j] == kept[i];
    }
  }

  /** Re-splitting lines joined by newlines yields only those lines (a final
      empty line disappears). */
  lemma {:induction false} SplitLinesOfJoin(parts: seq<string>)
    requires NoBreaks(parts)
    ensures forall l :: l in SplitLines(Join('\n', parts)) ==> l in parts
    decreases |parts|
  {
    if |parts| == 1 {
      var p := parts[0];
      if |p| > 0 {
        assert FirstBreak(p) == |p|;
      }
    } else if |parts| >= 2 {
      var p := parts[0];
      var rest := Join('\n', parts[1..]);
      var s := Join('\n', parts);
      assert s == p + ['\n'] + rest;
      assert IsLineBreak(s[|p|]);
      assert forall j :: 0 <= j < |p| ==> s[j] == p[j] && p[j] in p;
      var i := FirstBreak(s);
      assert i == |p|;
      assert s[..i] == p;
      assert s[i + 1..] == rest;
      assert NoBreaks(parts[1..]) by {
        forall k | 0 <= k < |parts[1..]| ensures forall c :: c in parts[1..][k] ==> !IsLineBreak(c) {
          assert parts[1..][k] == parts[k + 1];
        }
      }
      SplitLinesOfJoin(parts[1..]);
      assert SplitLines(s) == [p] + SplitLines(rest);
    }
  }

  /** No cooldown line is left in the filtered text. */
  lemma CooldownFilterLeavesNone(text: string)
    ensures !HasKeyLine(SplitLines(CooldownFilter(text)), Cooldowns)
  {
    var lines := SplitLines(text);
    if HasKeyLine(lines, Cooldowns) {
      var kept := DropKeyLines(lines, Cooldowns);
      KeptHaveNoBreaks(lines, Cooldowns);
      SplitLinesOfJoin(kept);
      DropKeepsOthers(lines, Cooldowns);
      var again := SplitLines(CooldownFilter(text));
      forall i | 0 <= i < |again| ensures !Cooldowns.isKey(again[i]) {
        assert again[i] in kept;
      }
    }
  }

  /** Filtering a second time changes nothing. */
  lemma CooldownFilterIdempotent(text: string)
    ensures CooldownFilter(CooldownFilter(text)) == CooldownFilter(text)
  {
    CooldownFilterLeavesNone(text);
  }
}

=== FILE: normalize.dfy ===
/** `_normalize_cfn_template_for_provision` (mcp_server.py:175-390): the text-level
    bucket pre-fix, then the JSON path or the YAML path that run the resource
    rules of the TemplateRules module over every resource, recursing into the
    inline templates of nested stacks. Any exception falls back to a text. */
module Normalize {
  import opened Wrappers
  import opened Text
  import opened Json
  import opened LineFilter
  import opened TemplateRules

  /** Which of the two rule sets runs: the JSON path has nine resource rules,
      the YAML path five. */
  datatype Flavor = JsonFlavor | YamlFlavor

  predicate Handles(flavor: Flavor, t: string) {
    || t == LogGroupType || t == ScalingPolicyType || t == BucketType
    || t == BucketPolicyType || t == NestedStackType
    || (flavor == JsonFlavor && (t == StageType || t == DistributionType || t == InstanceType || t == ApiResourceType))
  }

  /** `rdef.get('Type')` when it is a string; nothing else equals a type literal. */
  function TypeOf(rdef: seq<Entry<Json>>): (t: Option<string>)
    ensures t.Some? <==> Get(rdef, "Type").Some? && Get(rdef, "Type").value.JStr?
    ensures t.Some? ==> Get(rdef, "Type") == Some(JStr(t.value))
  {
    var g: Option<Json> := Get(rdef, "Type");
    if g.Some? && g.value.JStr? then Some(g.value.s) else None
  }

  /** A resource some rule of the flavour looks at. */
  predicate Handled(flavor: Flavor, rdef: Json) {
    rdef.JObj? && TypeOf(rdef.fields).Some? && Handles(flavor, TypeOf(rdef.fields).value)
  }

  // ---------------------------------------------------------------------------
  // Parameters
  // ---------------------------------------------------------------------------

  /** How a pass may change `Parameters`: not at all, or by declaring the
      suffix parameter in a dict that lacked it. */
  predicate ParamsStep(before: Json, after: Json) {
    || after == before
    || (before.JObj? && !HasKey(before.fields, SuffixParamName)
        && after == JObj(Put(before.fields, SuffixParamName, SuffixParameter)))
  }

  lemma DeclareSuffixStep(params: Json)
    ensures DeclareSuffix(params).Ok? ==> ParamsStep(params, DeclareSuffix(params).value)
  {
  }

  /** Two passes compose: once declared, the parameter stays and nothing else moves. */
  lemma ParamsStepTrans(a: Json, b: Json, c: Json)
    requires ParamsStep(a, b) && ParamsStep(b, c)
    ensures ParamsStep(a, c)
  {
    if b != a {
      assert Get(b.fields, SuffixParamName).Some?;
    }
  }

  /** A declared parameter is never lost. */
  lemma ParamsStepKeepsSuffix(a: Json, b: Json)
    requires ParamsStep(a, b) && PyContains(a, SuffixParamName) == Ok(true)
    ensures PyContains(b, SuffixParamName) == Ok(true)
  {
  }

  // ---------------------------------------------------------------------------
  // Properties that are truthy but not a dict
  // ---------------------------------------------------------------------------

  /** Lines 352-357 on a truthy non-dict: `for key in list(props)` walks a
      string's characters or a list's items; `key.strip()` raises on a
      non-string item and `props.pop(key)` raises on a matching one. A
      number or boolean cannot be listed at all. */
  function ForeignWarmupScan(props: Json): (r: Try<bool>)
    ensures r.Ok? ==> r.value == false
    ensures props.JArr? ==>
      (r.Raises? <==> exists i | 0 <= i < |props.items| :: !props.items[i].JStr? || IsWarmupKey(props.items[i].s))
    ensures props.JStr? ==> r.Ok?
    ensures props.JNum? || props.JBool? || props.JNull? ==> r.Raises?
  {
    match props
    case JStr(s) =>
      SingleCharsAreNotWarmupKeys(s);
      Ok(false)
    case JArr(items) =>
      if exists i | 0 <= i < |items| :: !items[i].JStr? || IsWarmupKey(items[i].s) then Raises else Ok(false)
    case _ => Raises
  }

  /** A one-character key never spells the warm-up key. */
  lemma SingleCharsAreNotWarmupKeys(s: string)
    ensures forall i | 0 <= i < |s| :: !IsWarmupKey([s[i]])
  {
    forall i | 0 <= i < |s| ensures !IsWarmupKey([s[i]]) {
      assert |DeleteChar(Lower(Strip([s[i]])), '_')| <= 1;
    }
  }

  /** Truthy non-dict Properties on a handled type: only two cases survive
      without an exception (a JSON-path Stage, a YAML-path ScalingPolicy);
      every other rule calls a dict method on it and raises. */
  function ForeignProps(flavor: Flavor, t: Option<string>, props: Json): (r: Try<bool>)
    ensures r.Ok? ==> r.value == false
    ensures t.None? || !Handles(flavor, t.value) ==> r == Ok(false)
    ensures t.Some? && Handles(flavor, t.value) && t.value != StageType && t.value != ScalingPolicyType ==> r.Raises?
    ensures flavor == JsonFlavor && t == Some(ScalingPolicyType) ==> r.Raises?
  {
    if t.None? || !Handles(flavor, t.value) then Ok(false)
    else if flavor == JsonFlavor && t.value == StageType then FixForeignStage(props)
    else if flavor == YamlFlavor && t.value == ScalingPolicyType then ForeignWarmupScan(props)
    else Raises
  }

  // ---------------------------------------------------------------------------
  // The resource pass
  // ---------------------------------------------------------------------------

  /** One resource definition after its rule, with the parameters and flag. */
  datatype Visit = Visit(rdef: Json, params: Json, changed: bool)

  /** The resources after the pass. */
  datatype Pass = Pass(resources: seq<Entry<Json>>, params: Json, changed: bool)

  /** A parsed document and whether any rule changed it. */
  datatype Edited = Edited(doc: Json, changed: bool)

  function Lift(f: Fix, params: Json): Try<Step> {
    Ok(Step(f.props, params, f.changed))
  }

  /** Whether a bucket's Properties name it after the suffix; a bucket with
      missing or empty Properties has no name to check. */
  predicate BucketNamed(rdef: Json) {
    HasType(rdef, BucketType) ==>
      var g: Option<Json> := Get(rdef.fields, "Properties");
      g.Some? && g.value.JObj? && |g.value.fields| > 0 ==> NameUsesSuffix(Get(g.value.fields, "BucketName"))
  }

  /** The Properties a rule sees: the dict itself or a fresh `{}`. */
  function PropsSeen(rdef: Json): seq<Entry<Json>> {
    if rdef.JObj? then
      match ViewOf(Get(rdef.fields, "Properties"))
      case Attached(ps) => ps
      case _ => []
    else []
  }

  /** A bucket whose rule will declare the suffix parameter. */
  predicate NeedsName(rdef: Json) {
    HasType(rdef, BucketType) && !NameUsesSuffix(Get(PropsSeen(rdef), "BucketName"))
  }

  /** Lines 201-310 and 342-383: the loop over `resources.items()`, threading
      `params` and `changed` through the loop body `step` in order. An
      exception in any iteration ends the loop. */
  function PassOver(entries: seq<Entry<Json>>, params: Json,
                    step: (string, Json, Json) -> Try<Visit>): (r: Try<Pass>)
    decreases |entries|
  {
    if |entries| == 0 then Ok(Pass([], params, false))
    else
      match step(entries[0].key, entries[0].val, params)
      case Raises => Raises
      case Ok(v) =>
        match PassOver(entries[1..], v.params, step)
        case Raises => Raises
        case Ok(p) => Ok(Pass([Entry(entries[0].key, v.rdef)] + p.resources, p.params, v.changed || p.changed))
  }

  /** Lines 206-310 (JSON) and 347-383 (YAML): the rule for the resource's type. */
  function FixProps(flavor: Flavor, codec: Codec, depth: nat, t: Option<string>, logicalId: string,
                    props: seq<Entry<Json>>, params: Json): (r: Try<Step>)
    ensures r.Ok? ==> ParamsStep(params, r.value.params)
    ensures t.None? || !Handles(flavor, t.value) ==> r == Ok(Step(props, params, false))
    ensures r.Ok? && t == Some(BucketType) ==> NameUsesSuffix(Get(r.value.props, "BucketName"))
    ensures r.Ok? && t == Some(BucketType) && !NameUsesSuffix(Get(props, "BucketName")) ==>
              PyContains(r.value.params, SuffixParamName) == Ok(true)
    decreases depth, 1, 0
  {
    if t.None? then Ok(Step(props, params, false))
    else
      var ty := t.value;
      if ty == BucketType then
        FixBucketNamesSuffixOk(logicalId, props, params);
        FixBucket(logicalId, props, params)
      else if ty == ScalingPolicyType then
        Lift(if flavor == JsonFlavor then FixScalingPolicy(props) else RenameFirst(props, IsWarmupKey, WarmupTarget), params)
      else if ty == LogGroupType then Lift(FixLogGroup(props), params)
      else if ty == BucketPolicyType then Lift(FixBucketPolicy(codec, props), params)
      else if ty == NestedStackType then Lift(FixNestedStack(codec, depth, props), params)
      else if flavor == YamlFlavor then Ok(Step(props, params, false))
      else if ty == StageType then Lift(FixStage(props), params)
      else if ty == DistributionType then
        match FixDistribution(props)
        case Ok(f) => Lift(f, params)
        case Raises => Raises
      else if ty == InstanceType then Lift(FixInstance(props), params)
      else if ty == ApiResourceType then Lift(FixPathPart(props), params)
      else Ok(Step(props, params, false))
  }

  /** What the bucket rule guarantees, in the terms the pass needs. */
  lemma FixBucketNamesSuffixOk(logicalId: string, props: seq<Entry<Json>>, params: Json)
    ensures var r := FixBucket(logicalId, props, params);
      r.Ok? ==> && ParamsStep(params, r.value.params)
                && NameUsesSuffix(Get(r.value.props, "BucketName"))
                && (!NameUsesSuffix(Get(props, "BucketName")) ==> PyContains(r.value.params, SuffixParamName) == Ok(true))
  {
    if FixBucket(logicalId, props, params).Ok? {
      FixBucketNamesSuffix(logicalId, props, params);
      DeclareSuffixStep(params);
    }
  }

  /** Lines 303-310 and 377-383: a non-blank inline `TemplateBody` is
      normalised by the same procedure, one level of nesting deeper. */
  function FixNestedStack(codec: Codec, depth: nat, props: seq<Entry<Json>>): (r: Fix)
    ensures r.changed ==> exists n :: Get(r.props, "TemplateBody") == Some(JStr(n)) && Get(props, "TemplateBody") != Some(JStr(n))
    ensures !r.changed ==> r.props == props
    ensures forall k :: k != "TemplateBody" ==> Get(r.props, k) == Get(props, k)
    decreases depth, 0, 0
  {
    var tb: Option<Json> := Get(props, "TemplateBody");
    if depth > 0 && tb.Some? && tb.value.JStr? && Strip(tb.value.s) != "" then
      var n := NormalizeTemplate(codec, tb.value.s, depth - 1);
      if n != tb.value.s then
        var r := Put(props, "TemplateBody", JStr(n));
        assert Get(r, "TemplateBody") == Some(JStr(n));
        Fix(r, true)
      else Fix(props, false)
    else Fix(props, false)
  }

  /** Lines 201-204 and 341-346: a non-dict definition is skipped; otherwise
      the rule runs on `rdef.get('Properties') or {}`. Edits to a fresh `{}`
      are lost, while a parameter it declares and its flag persist. */
  function FixResource(flavor: Flavor, codec: Codec, depth: nat, logicalId: string,
                       rdef: Json, params: Json): (r: Try<Visit>)
    ensures r.Ok? ==> ParamsStep(params, r.value.params)
    ensures r.Ok? ==> BucketNamed(r.value.rdef) && (r.value.rdef.JObj? <==> rdef.JObj?)
    ensures r.Ok? && NeedsName(rdef) ==> PyContains(r.value.params, SuffixParamName) == Ok(true)
    ensures !Handled(flavor, rdef) ==> r == Ok(Visit(rdef, params, false))
    decreases depth, 2, 0
  {
    if !rdef.JObj? then Ok(Visit(rdef, params, false))
    else
      var t := TypeOf(rdef.fields);
      match ViewOf(Get(rdef.fields, "Properties"))
      case Attached(props) =>
        (match FixProps(flavor, codec, depth, t, logicalId, props, params)
         case Ok(s) =>
           if s.props == props then Ok(Visit(rdef, s.params, s.changed))
           else
             var fields := Put(rdef.fields, "Properties", JObj(s.props));
             assert Get(fields, "Type") == Get(rdef.fields, "Type");
             Ok(Visit(JObj(fields), s.params, s.changed))
         case Raises => Raises)
      case Detached =>
        (match FixProps(flavor, codec, depth, t, logicalId, [], params)
         case Ok(s) => Ok(Visit(rdef, s.params, s.changed))
         case Raises => Raises)
      case Foreign(j) =>
        match ForeignProps(flavor, t, j)
        case Ok(_) => Ok(Visit(rdef, params, false))
        case Raises => Raises
  }

  /** A resource step only ever replaces the definition's `Properties`. */
  lemma FixResourceKeepsKeys(flavor: Flavor, codec: Codec, depth: nat, logicalId: string,
                             rdef: Json, params: Json)
    requires FixResource(flavor, codec, depth, logicalId, rdef, params).Ok?
    ensures KeepsAllBut(rdef, FixResource(flavor, codec, depth, logicalId, rdef, params).value.rdef, "Properties")
  {
    var r := FixResource(flavor, codec, depth, logicalId, rdef, params).value.rdef;
    if rdef.JObj? && ViewOf(Get(rdef.fields, "Properties")).Attached? {
      var props := ViewOf(Get(rdef.fields, "Properties")).fields;
      var s := FixProps(flavor, codec, depth, TypeOf(rdef.fields), logicalId, props, params).value;
      if s.props != props {
        var fields := Put(rdef.fields, "Properties", JObj(s.props));
        assert r == JObj(fields);
        assert forall k | k != "Properties" :: Get(fields, k) == Get(rdef.fields, k);
      }
    }
  }

  /** The loop body of either path at the given nesting depth. */
  function ResourceStep(flavor: Flavor, codec: Codec, depth: nat): (string, Json, Json) -> Try<Visit>
    decreases depth, 3, 0
  {
    (id: string, rdef: Json, params: Json) => FixResource(flavor, codec, depth, id, rdef, params)
  }

  /** Lines 196-199 and 338-340: `doc.get('Resources') or {}` and
      `doc.setdefault('Parameters', {})`, then the loop with body `step`. A
      non-dict document or truthy non-dict Resources raises. */
  function EditDocument(doc: Json, step: (string, Json, Json) -> Try<Visit>): (r: Try<Edited>)
  {
    if !doc.JObj? then Raises
    else
      var withParams := if HasKey(doc.fields, "Parameters") then doc.fields else Put(doc.fields, "Parameters", JObj([]));
      var params := Get(withParams, "Parameters").value;
      match ViewOf(Get(doc.fields, "Resources"))
      case Detached => Ok(Edited(JObj(withParams), false))
      case Foreign(_) => Raises
      case Attached(entries) =>
        match PassOver(entries, params, step)
        case Raises => Raises
        case Ok(p) =>
          Ok(Edited(JObj(Put(Put(withParams, "Resources", JObj(p.resources)), "Parameters", p.params)), p.changed))
  }

  /** The document pass of either path at the given nesting depth. */
  function NormalizeDocument(flavor: Flavor, codec: Codec, depth: nat, doc: Json): Try<Edited>
    decreases depth, 4, 0
  {
    EditDocument(doc, ResourceStep(flavor, codec, depth))
  }

  /** Lines 175-390 with nesting bounded by `depth`. The answer keeps the
      template's format: a JSON template comes back as the pre-fixed text or
      a JSON dump, a YAML template as the cooldown-filtered text, with no
      cooldown key line left, or a YAML dump. */
  function NormalizeTemplate(codec: Codec, body: string, depth: nat): (r: string)
    ensures var pre := PreSuffixFix(codec, body);
            IsJsonText(pre) ==> r == pre || exists d :: r == codec.dumpJson(d)
    ensures var pre := PreSuffixFix(codec, body);
            !IsJsonText(pre) ==>
              || (r == CooldownFilter(pre) && !HasKeyLine(SplitLines(r), Cooldowns))
              || exists d :: r == codec.dumpYaml(d)
    decreases depth, 5, 0
  {
    var pre := PreSuffixFix(codec, body);
    if IsJsonText(pre) then
      match codec.parseJson(pre)
      case None => pre
      case Some(doc) =>
        match NormalizeDocument(JsonFlavor, codec, depth, doc)
        case Ok(Edited(d, true)) => codec.dumpJson(d)
        case _ => pre
    else
      var result := CooldownFilter(pre);
      CooldownFilterLeavesNone(pre);
      match codec.parseYaml(result)
      case None => result
      case Some(doc) =>
        match NormalizeDocument(YamlFlavor, codec, depth, doc)
        case Ok(Edited(d, true)) => codec.dumpYaml(d)
        case _ => result
  }

  // ---------------------------------------------------------------------------
  // The text-level bucket pre-fix (lines 178-194)
  // ---------------------------------------------------------------------------

  const SuffixCandidates: seq<string> := ["media", "files", "content", "data", "bucket"]

  /** Line 181: `${AWS::AccountId}-<suffix>` */
  function AccountScoped(suffix: string): string {
    "${AWS::AccountId}-" + suffix
  }

  /** Line 183: the same name with the suffix parameter spliced in. */
  function SuffixScoped(suffix: string): string {
    "${AWS::AccountId}-${" + SuffixParamName + "}-" + suffix
  }

  /** Lines 180-182: the first candidate whose account-scoped name occurs. */
  function FirstCandidate(body: string, from: nat): (r: Option<string>)
    requires from <= |SuffixCandidates|
    ensures r.Some? ==> r.value in SuffixCandidates[from..] && Contains(body, AccountScoped(r.value))
    ensures r.None? ==> forall i :: from <= i < |SuffixCandidates| ==> !Contains(body, AccountScoped(SuffixCandidates[i]))
    decreases |SuffixCandidates| - from
  {
    if from == |SuffixCandidates| then None
    else if Contains(body, AccountScoped(SuffixCandidates[from])) then Some(SuffixCandidates[from])
    else FirstCandidate(body, from + 1)
  }

  /** Line 185: the text parsed in the format it is written in. */
  function ParsedAs(codec: Codec, text: string): Option<Json> {
    if IsJsonText(text) then codec.parseJson(text) else codec.parseYaml(text)
  }

  /** Line 190: a document serialised in the format of `text`. */
  function DumpedAs(codec: Codec, text: string, d: Json): string {
    if IsJsonText(text) then codec.dumpJson(d) else codec.dumpYaml(d)
  }

  /** `d` is the dict `parsed` with the suffix parameter declared as line 189
      does it: the other parameters and every other top-level key are those
      of `parsed`. */
  ghost predicate DeclaredFrom(parsed: Json, d: Json) {
    && parsed.JObj? && d.JObj? && DeclaresSuffix(d)
    && ParamsStep(Field(parsed, "Parameters").GetOr(JObj([])), Field(d, "Parameters").value)
    && forall k | k != "Parameters" :: Get(d.fields, k) == Get(parsed.fields, k)
  }

  /** `r` is the dump, in the format of `text`, of `text`'s parsed document
      with the suffix declared. */
  ghost predicate DeclaredIn(codec: Codec, text: string, r: string) {
    var parsed := ParsedAs(codec, text);
    parsed.Some? && exists d :: DeclaredFrom(parsed.value, d) && r == DumpedAs(codec, text, d)
  }

  /** Lines 184-192: parse the rewritten text and, when it is a dict whose
      `Parameters` is a dict without the suffix parameter, declare it and
      serialise again in the same format. Every failure keeps the text. */
  function DeclareInText(codec: Codec, text: string): (r: string)
    ensures r == text || DeclaredIn(codec, text, r)
  {
    var parsed := ParsedAs(codec, text);
    if parsed.Some? && parsed.value.JObj? then
      var fields := parsed.value.fields;
      var withParams := if HasKey(fields, "Parameters") then fields else Put(fields, "Parameters", JObj([]));
      var params := Get(withParams, "Parameters").value;
      if params.JObj? && !HasKey(params.fields, SuffixParamName) then
        var declared := Put(params.fields, SuffixParamName, SuffixParameter);
        var doc := JObj(Put(withParams, "Parameters", JObj(declared)));
        assert Field(doc, "Parameters") == Some(JObj(declared));
        assert params == Field(parsed.value, "Parameters").GetOr(JObj([]));
        assert DeclaredFrom(parsed.value, doc);
        DumpedAs(codec, text, doc)
      else text
    else text
  }

  /** A document whose `Parameters` declares the suffix parameter as line 189 does. */
  predicate DeclaresSuffix(doc: Json) {
    var p: Option<Json> := Field(doc, "Parameters");
    p.Some? && Field(p.value, SuffixParamName) == Some(SuffixParameter)
  }

  /** Lines 179-194: only a template that mentions `S3::Bucket` and never
      names the suffix is touched, and only at the first candidate that occurs. */
  function PreSuffixFix(codec: Codec, body: string): (r: string)
    ensures !Contains(body, "S3::Bucket") || Contains(body, SuffixParamName) ==> r == body
    ensures FirstCandidate(body, 0).None? ==> r == body
  {
    if !Contains(body, "S3::Bucket") || Contains(body, SuffixParamName) then body
    else
      match FirstCandidate(body, 0)
      case None => body
      case Some(suffix) => DeclareInText(codec, ReplaceAll(body, AccountScoped(suffix), SuffixScoped(suffix)))
  }
}

module NormalizeFacts {
  import opened Wrappers
  import opened Text
  import opened Json
  import opened TemplateRules
  import opened LineFilter
  import opened Normalize

  /** The loop body keeps `Parameters` or only declares the suffix. */
  ghost predicate StepKeepsParams(step: (string, Json, Json) -> Try<Visit>) {
    forall id, rdef, p :: step(id, rdef, p).Ok? ==> ParamsStep(p, step(id, rdef, p).value.params)
  }

  /** The loop body leaves every bucket it returns named after the suffix. */
  ghost predicate StepNamesBuckets(step: (string, Json, Json) -> Try<Visit>) {
    forall id, rdef, p :: step(id, rdef, p).Ok? ==> BucketNamed(step(id, rdef, p).value.rdef)
  }

  /** The loop body declares the suffix for a bucket that needs a name. */
  ghost predicate StepDeclares(step: (string, Json, Json) -> Try<Visit>) {
    forall id, rdef, p :: step(id, rdef, p).Ok? && NeedsName(rdef) ==>
      PyContains(step(id, rdef, p).value.params, SuffixParamName) == Ok(true)
  }

  /** The loop body passes over definitions the flavour has no rule for. */
  ghost predicate StepLeaves(flavor: Flavor, step: (string, Json, Json) -> Try<Visit>) {
    forall id, rdef, p :: !Handled(flavor, rdef) ==> step(id, rdef, p) == Ok(Visit(rdef, p, false))
  }

  /** The loop body replaces at most a definition's `Properties`. */
  ghost predicate StepKeepsKeys(step: (string, Json, Json) -> Try<Visit>) {
    forall id, rdef, p :: step(id, rdef, p).Ok? ==> KeepsAllBut(rdef, step(id, rdef, p).value.rdef, "Properties")
  }

  /** The rule dispatch has all four properties. */
  lemma ResourceStepFacts(flavor: Flavor, codec: Codec, depth: nat)
    ensures StepKeepsParams(ResourceStep(flavor, codec, depth))
    ensures StepNamesBuckets(ResourceStep(flavor, codec, depth))
    ensures StepDeclares(ResourceStep(flavor, codec, depth))
    ensures StepLeaves(flavor, ResourceStep(flavor, codec, depth))
  {
  }

  /** The rule dispatch replaces at most a definition's `Properties`. */
  lemma ResourceStepKeepsKeys(flavor: Flavor, codec: Codec, depth: nat)
    ensures StepKeepsKeys(ResourceStep(flavor, codec, depth))
  {
    forall id, rdef, p | ResourceStep(flavor, codec, depth)(id, rdef, p).Ok?
      ensures KeepsAllBut(rdef, ResourceStep(flavor, codec, depth)(id, rdef, p).value.rdef, "Properties")
    {
      FixResourceKeepsKeys(flavor, codec, depth, id, rdef, p);
    }
  }

  /** The pass keeps every logical id, in order. */
  lemma {:induction false} PassKeepsIds(entries: seq<Entry<Json>>, params: Json,
                                        step: (string, Json, Json) -> Try<Visit>)
    requires PassOver(entries, params, step).Ok?
    ensures Keys(PassOver(entries, params, step).value.resources) == Keys(entries)
    decreases |entries|
  {
    if |entries| > 0 {
      var v := step(entries[0].key, entries[0].val, params).value;
      var rest := PassOver(entries[1..], v.params, step).value.resources;
      PassKeepsIds(entries[1..], v.params, step);
      var out := PassOver(entries, params, step).value.resources;
      assert out == [Entry(entries[0].key, v.rdef)] + rest;
      assert forall i | 1 <= i < |entries| :: Keys(out)[i] == Keys(rest)[i - 1] == Keys(entries[1..])[i - 1];
    }
  }

  /** After the pass every bucket with non-empty dict Properties is named
      after the suffix parameter. */
  lemma {:induction false} PassNamesBuckets(entries: seq<Entry<Json>>, params: Json,
                                            step: (string, Json, Json) -> Try<Visit>)
    requires StepNamesBuckets(step)
    requires PassOver(entries, params, step).Ok?
    ensures var out := PassOver(entries, params, step).value.resources;
      forall i :: 0 <= i < |out| ==> BucketNamed(out[i].val)
    decreases |entries|
  {
    if |entries| > 0 {
      var v := step(entries[0].key, entries[0].val, params).value;
      var rest := PassOver(entries[1..], v.params, step).value.resources;
      PassNamesBuckets(entries[1..], v.params, step);
      var out := PassOver(entries, params, step).value.resources;
      assert out == [Entry(entries[0].key, v.rdef)] + rest;
      assert forall i | 1 <= i < |out| :: out[i] == rest[i - 1];
    }
  }

  /** `Parameters` changes at most by declaring the suffix parameter. */
  lemma {:induction false} PassParamsStep(entries: seq<Entry<Json>>, params: Json,
                                          step: (string, Json, Json) -> Try<Visit>)
    requires StepKeepsParams(step)
    requires PassOver(entries, params, step).Ok?
    ensures ParamsStep(params, PassOver(entries, params, step).value.params)
    decreases |entries|
  {
    if |entries| > 0 {
      var v := step(entries[0].key, entries[0].val, params).value;
      PassParamsStep(entries[1..], v.params, step);
      ParamsStepTrans(params, v.params, PassOver(entries[1..], v.params, step).value.params);
    }
  }

  /** If some bucket needed a name, the suffix parameter is declared afterwards;
      one declared before stays declared. */
  lemma {:induction false} PassDeclaresSuffix(entries: seq<Entry<Json>>, params: Json,
                                              step: (string, Json, Json) -> Try<Visit>)
    requires StepKeepsParams(step) && StepDeclares(step)
    requires PassOver(entries, params, step).Ok?
    requires PyContains(params, SuffixParamName) == Ok(true)
          || exists i | 0 <= i < |entries| :: NeedsName(entries[i].val)
    ensures PyContains(PassOver(entries, params, step).value.params, SuffixParamName) == Ok(true)
    decreases |entries|
  {
    if |entries| > 0 {
      var v := step(entries[0].key, entries[0].val, params).value;
      var p := PassOver(entries[1..], v.params, step).value;
      if PyContains(params, SuffixParamName) == Ok(true) || NeedsName(entries[0].val) {
        if PyContains(params, SuffixParamName) == Ok(true) {
          ParamsStepKeepsSuffix(params, v.params);
        }
        PassParamsStep(entries[1..], v.params, step);
        ParamsStepKeepsSuffix(v.params, p.params);
      } else {
        var i :| 0 <= i < |entries| && NeedsName(entries[i].val);
        assert entries[1..][i - 1] == entries[i];
        PassDeclaresSuffix(entries[1..], v.params, step);
      }
    }
  }

  /** Resources no rule of the flavour looks at come out as they went in. */
  lemma {:induction false} PassLeavesOthers(flavor: Flavor, entries: seq<Entry<Json>>, params: Json,
                                            step: (string, Json, Json) -> Try<Visit>)
    requires StepLeaves(flavor, step)
    requires PassOver(entries, params, step).Ok?
    ensures var out := PassOver(entries, params, step).value.resources;
      |out| == |entries| &&
      forall i :: 0 <= i < |entries| && !Handled(flavor, entries[i].val) ==> out[i] == entries[i]
    decreases |entries|
  {
    if |entries| > 0 {
      var v := step(entries[0].key, entries[0].val, params).value;
      var rest := PassOver(entries[1..], v.params, step).value.resources;
      PassLeavesOthers(flavor, entries[1..], v.params, step);
      var out := PassOver(entries, params, step).value.resources;
      assert out == [Entry(entries[0].key, v.rdef)] + rest;
      assert forall i | 1 <= i < |out| :: out[i] == rest[i - 1] && entries[i] == entries[1..][i - 1];
    }
  }

  /** Each resource comes out of the pass with every key but `Properties` as it was. */
  lemma {:induction false} PassKeepsKeys(entries: seq<Entry<Json>>, params: Json,
                                         step: (string, Json, Json) -> Try<Visit>)
    requires StepKeepsKeys(step)
    requires PassOver(entries, params, step).Ok?
    ensures var out := PassOver(entries, params, step).value.resources;
      |out| == |entries| &&
      forall i :: 0 <= i < |entries| ==> KeepsAllBut(entries[i].val, out[i].val, "Properties")
    decreases |entries|
  {
    if |entries| > 0 {
      var v := step(entries[0].key, entries[0].val, params).value;
      var rest := PassOver(entries[1..], v.params, step).value.resources;
      PassKeepsKeys(entries[1..], v.params, step);
      var out := PassOver(entries, params, step).value.resources;
      assert out == [Entry(entries[0].key, v.rdef)] + rest;
      assert forall i | 1 <= i < |out| :: out[i] == rest[i - 1] && entries[i] == entries[1..][i - 1];
    }
  }

  /** Without a resource the flavour has a rule for, the pass reports no
      change and returns the resources and parameters as they were. */
  lemma {:induction false} PassWithoutRules(flavor: Flavor, entries: seq<Entry<Json>>, params: Json,
                                            step: (string, Json, Json) -> Try<Visit>)
    requires StepLeaves(flavor, step)
    requires forall i | 0 <= i < |entries| :: !Handled(flavor, entries[i].val)
    ensures PassOver(entries, params, step) == Ok(Pass(entries, params, false))
    decreases |entries|
  {
    if |entries| > 0 {
      assert !Handled(flavor, entries[0].val);
      assert step(entries[0].key, entries[0].val, params) == Ok(Visit(entries[0].val, params, false));
      assert forall i | 0 <= i < |entries[1..]| :: entries[1..][i] == entries[i + 1];
      PassWithoutRules(flavor, entries[1..], params, step);
      assert [Entry(entries[0].key, entries[0].val)] + entries[1..] == entries;
    }
  }

  /** Every bucket among a document's resources is named after the suffix. */
  predicate BucketsNamed(doc: Json) {
    var rs: Option<Json> := Field(doc, "Resources");
    rs.Some? && rs.value.JObj? ==> forall i :: 0 <= i < |rs.value.fields| ==> BucketNamed(rs.value.fields[i].val)
  }

  /** After a successful document pass every bucket is named after the suffix. */
  lemma DocumentNamesBuckets(doc: Json, step: (string, Json, Json) -> Try<Visit>)
    requires StepNamesBuckets(step)
    requires EditDocument(doc, step).Ok?
    ensures doc.JObj? && EditDocument(doc, step).value.doc.JObj?
    ensures BucketsNamed(EditDocument(doc, step).value.doc)
  {
    var withParams := if HasKey(doc.fields, "Parameters") then doc.fields else Put(doc.fields, "Parameters", JObj([]));
    var params := Get(withParams, "Parameters").value;
    var d := EditDocument(doc, step).value.doc;
    match ViewOf(Get(doc.fields, "Resources"))
    case Detached =>
      assert Get(withParams, "Resources") == Get(doc.fields, "Resources");
    case Attached(entries) =>
      var p := PassOver(entries, params, step).value;
      PassNamesBuckets(entries, params, step);
      assert Get(d.fields, "Resources") == Some(JObj(p.resources));
  }

  /** A successful document pass keeps every resource id, in order. */
  lemma DocumentKeepsIds(doc: Json, step: (string, Json, Json) -> Try<Visit>)
    requires EditDocument(doc, step).Ok?
    ensures Keys(ResourcesOf(EditDocument(doc, step).value.doc)) == Keys(ResourcesOf(doc))
  {
    var withParams := if HasKey(doc.fields, "Parameters") then doc.fields else Put(doc.fields, "Parameters", JObj([]));
    var params := Get(withParams, "Parameters").value;
    var d := EditDocument(doc, step).value.doc;
    var view := ViewOf(Get(doc.fields, "Resources"));
    if view.Attached? {
      var entries := view.fields;
      var p := PassOver(entries, params, step).value;
      PassKeepsIds(entries, params, step);
      assert |p.resources| == |entries| > 0;
      assert Get(d.fields, "Resources") == Some(JObj(p.resources));
      ResourcesOfField(d, p.resources);
    } else {
      assert d == JObj(withParams);
      assert Get(withParams, "Resources") == Get(doc.fields, "Resources");
      ResourcesOfSame(d, doc);
    }
  }

  /** What a successful document pass guarantees about `Parameters`: it
      exists, changes at most by the suffix declaration, and holds that
      declaration whenever some bucket needed a name. */
  lemma DocumentParameters(doc: Json, step: (string, Json, Json) -> Try<Visit>)
    requires StepKeepsParams(step) && StepDeclares(step)
    requires EditDocument(doc, step).Ok?
    ensures var d := EditDocument(doc, step).value.doc;
      && Field(d, "Parameters").Some?
      && ParamsStep(Field(doc, "Parameters").GetOr(JObj([])), Field(d, "Parameters").value)
      && ((exists i | 0 <= i < |ResourcesOf(doc)| :: NeedsName(ResourcesOf(doc)[i].val)) ==>
            PyContains(Field(d, "Parameters").value, SuffixParamName) == Ok(true))
  {
    var withParams := if HasKey(doc.fields, "Parameters") then doc.fields else Put(doc.fields, "Parameters", JObj([]));
    var params := Get(withParams, "Parameters").value;
    assert params == Field(doc, "Parameters").GetOr(JObj([]));
    match ViewOf(Get(doc.fields, "Resources"))
    case Detached =>
    case Attached(entries) =>
      PassParamsStep(entries, params, step);
      if exists i | 0 <= i < |entries| :: NeedsName(entries[i].val) {
        PassDeclaresSuffix(entries, params, step);
      }
  }

  /** A successful document pass keeps every top-level key but `Resources`
      and `Parameters`. */
  lemma DocumentKeepsOthers(doc: Json, step: (string, Json, Json) -> Try<Visit>)
    requires EditDocument(doc, step).Ok?
    ensures forall k | k != "Resources" && k != "Parameters" ::
              Get(EditDocument(doc, step).value.doc.fields, k) == Get(doc.fields, k)
  {
  }

  /** A successful document pass changes a resource only inside its
      `Properties`, and returns the resources the flavour has no rule for as
      they were, at the same place. */
  lemma DocumentResourceFrame(flavor: Flavor, doc: Json, step: (string, Json, Json) -> Try<Visit>)
    requires StepLeaves(flavor, step) && StepKeepsKeys(step)
    requires EditDocument(doc, step).Ok?
    ensures var rs := ResourcesOf(doc);
      var rs' := ResourcesOf(EditDocument(doc, step).value.doc);
      && |rs'| == |rs|
      && (forall i | 0 <= i < |rs| :: KeepsAllBut(rs[i].val, rs'[i].val, "Properties"))
      && (forall i | 0 <= i < |rs| :: !Handled(flavor, rs[i].val) ==> rs'[i] == rs[i])
  {
    var withParams := if HasKey(doc.fields, "Parameters") then doc.fields else Put(doc.fields, "Parameters", JObj([]));
    var params := Get(withParams, "Parameters").value;
    var d := EditDocument(doc, step).value.doc;
    match ViewOf(Get(doc.fields, "Resources"))
    case Detached =>
      assert d == JObj(withParams);
      assert Get(withParams, "Resources") == Get(doc.fields, "Resources");
      ResourcesOfSame(d, doc);
    case Attached(entries) =>
      var p := PassOver(entries, params, step).value;
      PassKeepsKeys(entries, params, step);
      PassLeavesOthers(flavor, entries, params, step);
      assert Get(d.fields, "Resources") == Some(JObj(p.resources));
      ResourcesOfField(d, p.resources);
  }

  /** `d` is what a successful document pass of the flavour makes of `doc`:
      a dict with every bucket named after the suffix, the same resource ids
      in the same order, each resource changed at most in its `Properties`
      and not at all when the flavour has no rule for it, `Parameters`
      changed at most by the suffix declaration, and every other top-level
      key as it was. */
  ghost predicate PassedFrom(flavor: Flavor, doc: Json, d: Json) {
    && doc.JObj? && d.JObj? && BucketsNamed(d)
    && Keys(ResourcesOf(d)) == Keys(ResourcesOf(doc))
    && |ResourcesOf(d)| == |ResourcesOf(doc)|
    && (forall i | 0 <= i < |ResourcesOf(doc)| :: KeepsAllBut(ResourcesOf(doc)[i].val, ResourcesOf(d)[i].val, "Properties"))
    && (forall i | 0 <= i < |ResourcesOf(doc)| :: !Handled(flavor, ResourcesOf(doc)[i].val) ==> ResourcesOf(d)[i] == ResourcesOf(doc)[i])
    && Field(d, "Parameters").Some?
    && ParamsStep(Field(doc, "Parameters").GetOr(JObj([])), Field(d, "Parameters").value)
    && forall k | k != "Resources" && k != "Parameters" :: Get(d.fields, k) == Get(doc.fields, k)
  }

  /** The document pass of either path meets `PassedFrom`. */
  lemma NormalizedFrom(flavor: Flavor, codec: Codec, depth: nat, doc: Json)
    requires NormalizeDocument(flavor, codec, depth, doc).Ok?
    ensures PassedFrom(flavor, doc, NormalizeDocument(flavor, codec, depth, doc).value.doc)
  {
    var step := ResourceStep(flavor, codec, depth);
    ResourceStepFacts(flavor, codec, depth);
    ResourceStepKeepsKeys(flavor, codec, depth);
    DocumentNamesBuckets(doc, step);
    DocumentKeepsIds(doc, step);
    DocumentResourceFrame(flavor, doc, step);
    DocumentParameters(doc, step);
    DocumentKeepsOthers(doc, step);
  }

  /** The normaliser's answer: on the JSON path the pre-fixed text or the
      JSON dump of its parsed document after the pass, on the YAML path the
      cooldown-filtered text (with no cooldown line left) or the YAML dump of
      that text's parsed document after the pass. */
  lemma TemplateOutcome(codec: Codec, body: string, depth: nat)
    ensures var pre := PreSuffixFix(codec, body);
      var r := NormalizeTemplate(codec, body, depth);
      && (IsJsonText(pre) ==>
            || r == pre
            || (codec.parseJson(pre).Some? && exists d :: PassedFrom(JsonFlavor, codec.parseJson(pre).value, d) && r == codec.dumpJson(d)))
      && (!IsJsonText(pre) ==>
            || (r == CooldownFilter(pre) && !HasKeyLine(SplitLines(r), Cooldowns))
            || (codec.parseYaml(CooldownFilter(pre)).Some? &&
                exists d :: PassedFrom(YamlFlavor, codec.parseYaml(CooldownFilter(pre)).value, d) && r == codec.dumpYaml(d)))
  {
    var pre := PreSuffixFix(codec, body);
    var flavor := if IsJsonText(pre) then JsonFlavor else YamlFlavor;
    var text := if IsJsonText(pre) then pre else CooldownFilter(pre);
    var parsed := if IsJsonText(pre) then codec.parseJson(pre) else codec.parseYaml(text);
    CooldownFilterLeavesNone(pre);
    if parsed.Some? {
      var e := NormalizeDocument(flavor, codec, depth, parsed.value);
      if e.Ok? {
        NormalizedFrom(flavor, codec, depth, parsed.value);
      }
    }
  }

  /** A document pass over resources the flavour has no rule for reports no
      change. */
  lemma DocumentWithoutRules(flavor: Flavor, doc: Json, step: (string, Json, Json) -> Try<Visit>)
    requires StepLeaves(flavor, step)
    requires forall i | 0 <= i < |ResourcesOf(doc)| :: !Handled(flavor, ResourcesOf(doc)[i].val)
    ensures EditDocument(doc, step).Ok? ==> !EditDocument(doc, step).value.changed
  {
    if doc.JObj? && ViewOf(Get(doc.fields, "Resources")).Attached? {
      var withParams := if HasKey(doc.fields, "Parameters") then doc.fields else Put(doc.fields, "Parameters", JObj([]));
      var entries := ViewOf(Get(doc.fields, "Resources")).fields;
      assert ResourcesOf(doc) == entries;
      PassWithoutRules(flavor, entries, Get(withParams, "Parameters").value, step);
    }
  }

  /** The flavour of the template pass for the pre-fixed text. */
  function PassFlavor(pre: string): Flavor {
    if IsJsonText(pre) then JsonFlavor else YamlFlavor
  }

  /** The text the template pass starts from: the pre-fixed text itself on
      the JSON path, its cooldown-filtered form on the YAML path. */
  function PassText(pre: string): string {
    if IsJsonText(pre) then pre else CooldownFilter(pre)
  }

  /** The document parsed from `PassText(pre)` in its own format. */
  function PassInput(codec: Codec, pre: string): Option<Json> {
    if IsJsonText(pre) then codec.parseJson(pre) else codec.parseYaml(CooldownFilter(pre))
  }

  /** The document pass of the template, `Raises` when the text does not parse. */
  function PassResult(codec: Codec, pre: string, depth: nat): Try<Edited> {
    match PassInput(codec, pre)
    case None => Raises
    case Some(doc) => NormalizeDocument(PassFlavor(pre), codec, depth, doc)
  }

  /** The template is re-serialised exactly when its document pass runs
      through and reports a change; when the text does not parse, when the
      pass raises and when nothing changed, the text the pass started from
      comes back unchanged. */
  lemma TemplateKeptUnlessChanged(codec: Codec, body: string, depth: nat)
    ensures var pre := PreSuffixFix(codec, body);
      var e := PassResult(codec, pre, depth);
      !(e.Ok? && e.value.changed) ==> NormalizeTemplate(codec, body, depth) == PassText(pre)
    ensures var pre := PreSuffixFix(codec, body);
      var e := PassResult(codec, pre, depth);
      e.Ok? && e.value.changed ==>
        NormalizeTemplate(codec, body, depth) ==
          if IsJsonText(pre) then codec.dumpJson(e.value.doc) else codec.dumpYaml(e.value.doc)
  {
    var pre := PreSuffixFix(codec, body);
    if IsJsonText(pre) {
      assert PassInput(codec, pre) == codec.parseJson(pre);
    } else {
      assert PassInput(codec, pre) == codec.parseYaml(CooldownFilter(pre));
    }
  }

  /** A template none of whose resources the flavour has a rule for comes
      back as the text the pass started from. */
  lemma TemplateWithoutRules(codec: Codec, body: string, depth: nat)
    ensures var pre := PreSuffixFix(codec, body);
      var flavor := PassFlavor(pre);
      PassInput(codec, pre).Some? ==>
        (forall i | 0 <= i < |ResourcesOf(PassInput(codec, pre).value)| ::
           !Handled(flavor, ResourcesOf(PassInput(codec, pre).value)[i].val)) ==>
        NormalizeTemplate(codec, body, depth) == PassText(pre)
  {
    var pre := PreSuffixFix(codec, body);
    TemplateKeptUnlessChanged(codec, body, depth);
    if PassInput(codec, pre).Some? {
      ResourceStepFacts(PassFlavor(pre), codec, depth);
      if forall i | 0 <= i < |ResourcesOf(PassInput(codec, pre).value)| ::
           !Handled(PassFlavor(pre), ResourcesOf(PassInput(codec, pre).value)[i].val) {
        DocumentWithoutRules(PassFlavor(pre), PassInput(codec, pre).value, ResourceStep(PassFlavor(pre), codec, depth));
      }
    }
  }

  /** The text-level pre-fix either keeps the text, or leaves it naming the
      suffix parameter, or re-serialises the parsed rewritten text with the
      suffix declared; in the first two cases a second pre-fix changes
      nothing. The rewritten text is the body with the first candidate's
      account-scoped name spliced. */
  lemma PreSuffixFixOutcome(codec: Codec, body: string)
    ensures var r := PreSuffixFix(codec, body);
      || r == body
      || (Contains(r, SuffixParamName) && PreSuffixFix(codec, r) == r)
      || (FirstCandidate(body, 0).Some? &&
          var c := FirstCandidate(body, 0).value;
          DeclaredIn(codec, ReplaceAll(body, AccountScoped(c), SuffixScoped(c)), r))
  {
    if Contains(body, "S3::Bucket") && !Contains(body, SuffixParamName) {
      var c := FirstCandidate(body, 0);
      if c.Some? {
        var replaced := ReplaceAll(body, AccountScoped(c.value), SuffixScoped(c.value));
        ReplacePresent(body, AccountScoped(c.value), SuffixScoped(c.value));
        var head := "${AWS::AccountId}-${";
        assert SuffixScoped(c.value) == head + SuffixParamName + ("}-" + c.value);
        ContainsPiece(replaced, head + SuffixParamName, "}-" + c.value);
        ContainsPiece(replaced, head, SuffixParamName);
        var r := PreSuffixFix(codec, body);
        assert r == DeclareInText(codec, replaced);
        if r == replaced {
          assert PreSuffixFix(codec, r) == r;
        }
      }
    }
  }
}

=== FILE: params.dfy ===
/** The parameter half of `provision_cfn_stack` (mcp_server.py:1403-1510):
    the caller's parameters as a dict, the parameter names the final template
    declares, the default-VPC fill, the unique suffixes put in on create and
    the last filter before the stack call. */
module StackParams {
  import opened Wrappers
  import opened Text
  import opened Json

  /** Lines 1359-1362 and 1410-1414: `json.loads` for text that opens with
      `{` once stripped, `yaml.safe_load` otherwise. */
  function ParseTemplate(codec: Codec, body: string): Option<Json> {
    if IsJsonText(body) then codec.parseJson(body) else codec.parseYaml(body)
  }

  /** The elements that satisfy `p`, in order. */
  function Filter<T(!new)>(xs: seq<T>, p: T -> bool): (r: seq<T>)
    ensures forall x :: x in r <==> x in xs && p(x)
  {
    if |xs| == 0 then []
    else
      var rest := Filter(xs[1..], p);
      if p(xs[0]) then [xs[0]] + rest else rest
  }

  /** Filtering distributes over concatenation, so the order is kept. */
  lemma {:induction false} FilterAppend<T(!new)>(a: seq<T>, b: seq<T>, p: T -> bool)
    ensures Filter(a + b, p) == Filter(a, p) + Filter(b, p)
  {
    if |a| > 0 {
      assert (a + b)[0] == a[0] && (a + b)[1..] == a[1..] + b;
      FilterAppend(a[1..], b, p);
      if p(a[0]) {
        assert [a[0]] + (Filter(a[1..], p) + Filter(b, p)) == ([a[0]] + Filter(a[1..], p)) + Filter(b, p);
      }
    } else {
      assert a + b == b;
    }
  }

  /** The index of the first element that satisfies `p`. */
  function FirstIndex<T>(xs: seq<T>, p: T -> bool): (r: Option<nat>)
    ensures r.Some? ==> r.value < |xs| && p(xs[r.value]) && forall j | 0 <= j < r.value :: !p(xs[j])
    ensures r.None? ==> forall j | 0 <= j < |xs| :: !p(xs[j])
  {
    if |xs| == 0 then None
    else if p(xs[0]) then Some(0)
    else
      match FirstIndex(xs[1..], p)
      case None => None
      case Some(i) => Some(i + 1)
  }

  // ---------------------------------------------------------------------------
  // The caller's parameters (lines 1404-1408)
  // ---------------------------------------------------------------------------

  /** `str(value)`: a string is itself; how other values print is opaque. */
  function PyStr(v: Json, show: Json -> string): (r: string)
    ensures v.JStr? ==> r == v.s
  {
    if v.JStr? then v.s else show(v)
  }

  /** A parameter can be read: it is a dict, and a truthy `ParameterKey` is a
      string (any other key raises, at the latest when it is stripped). */
  predicate ParamReadable(p: Json) {
    p.JObj? &&
    (Get(p.fields, "ParameterKey").Some? && Truthy(Get(p.fields, "ParameterKey").value) ==>
       Get(p.fields, "ParameterKey").value.JStr?)
  }

  /** The key a parameter contributes: a non-empty string `ParameterKey`. */
  function KeyOf(p: Json): (r: Option<string>)
    ensures r.Some? ==> |r.value| > 0
  {
    if p.JObj? && Get(p.fields, "ParameterKey").Some? && Get(p.fields, "ParameterKey").value.JStr?
       && |Get(p.fields, "ParameterKey").value.s| > 0
    then Some(Get(p.fields, "ParameterKey").value.s)
    else None
  }

  /** `str(p.get('ParameterValue', ''))` */
  function ValueOf(p: Json, show: Json -> string): string {
    if p.JObj? then PyStr(Get(p.fields, "ParameterValue").GetOr(JStr("")), show) else ""
  }

  /** One step of the loop: a parameter with a key is assigned in the dict. */
  function AddParam(d: seq<Entry<string>>, p: Json, show: Json -> string): (r: Try<seq<Entry<string>>>)
    ensures r.Ok? <==> ParamReadable(p)
  {
    if !ParamReadable(p) then Raises
    else
      match KeyOf(p)
      case None => Ok(d)
      case Some(k) => Ok(Put(d, k, ValueOf(p, show)))
  }

  /** What one step does to a key. */
  lemma AddParamGet(d: seq<Entry<string>>, p: Json, show: Json -> string, k: string)
    requires ParamReadable(p)
    ensures KeyOf(p) == Some(k) ==> Get(AddParam(d, p, show).value, k) == Some(ValueOf(p, show))
    ensures KeyOf(p) != Some(k) ==> Get(AddParam(d, p, show).value, k) == Get(d, k)
  {
  }

  /** `user_params`: the parameters folded into a dict, later keys winning. */
  function UserParams(ps: seq<Json>, show: Json -> string): (r: Try<seq<Entry<string>>>)
    ensures r.Ok? <==> forall i | 0 <= i < |ps| :: ParamReadable(ps[i])
    decreases |ps|
  {
    if |ps| == 0 then Ok([])
    else
      var init := ps[..|ps| - 1];
      assert forall i | 0 <= i < |init| :: init[i] == ps[i];
      match UserParams(init, show)
      case Raises => Raises
      case Ok(d) => AddParam(d, ps[|ps| - 1], show)
  }

  /** The dict holds, for each key, the value of the last parameter naming it. */
  lemma {:induction false} UserParamsLast(ps: seq<Json>, show: Json -> string, i: nat)
    requires UserParams(ps, show).Ok?
    requires i < |ps| && KeyOf(ps[i]).Some?
    requires forall j | i < j < |ps| :: KeyOf(ps[j]) != KeyOf(ps[i])
    ensures Get(UserParams(ps, show).value, KeyOf(ps[i]).value) == Some(ValueOf(ps[i], show))
    decreases |ps|
  {
    var init := ps[..|ps| - 1];
    assert forall j | 0 <= j < |init| :: init[j] == ps[j];
    AddParamGet(UserParams(init, show).value, ps[|ps| - 1], show, KeyOf(ps[i]).value);
    if i < |ps| - 1 {
      UserParamsLast(init, show, i);
    }
  }

  /** A key no parameter names is not in the dict. */
  lemma {:induction false} UserParamsAbsent(ps: seq<Json>, show: Json -> string, k: string)
    requires UserParams(ps, show).Ok?
    requires forall j | 0 <= j < |ps| :: KeyOf(ps[j]) != Some(k)
    ensures Get(UserParams(ps, show).value, k) == None
    decreases |ps|
  {
    if |ps| > 0 {
      var init := ps[..|ps| - 1];
      assert forall j | 0 <= j < |init| :: init[j] == ps[j];
      UserParamsAbsent(init, show, k);
      AddParamGet(UserParams(init, show).value, ps[|ps| - 1], show, k);
    }
  }

  /** The dict has each key once. */
  lemma {:induction false} UserParamsUnique(ps: seq<Json>, show: Json -> string)
    requires UserParams(ps, show).Ok?
    ensures UniqueKeys(UserParams(ps, show).value)
    decreases |ps|
  {
    if |ps| > 0 {
      var init := ps[..|ps| - 1];
      assert forall j | 0 <= j < |init| :: init[j] == ps[j];
      UserParamsUnique(init, show);
      var d := UserParams(init, show).value;
      var p := ps[|ps| - 1];
      if KeyOf(p).Some? {
        PutUnique(d, KeyOf(p).value, ValueOf(p, show));
      }
    }
  }

  // ---------------------------------------------------------------------------
  // The parameter names of the template (lines 1409-1421)
  // ---------------------------------------------------------------------------

  /** Lines 1409-1416: the keys of the final template's `Parameters` dict; a
      parse error, a document that is not a dict and a `Parameters` that is
      not a dict all raise and leave no key. */
  function DeclaredKeys(codec: Codec, body: string): (keys: seq<string>)
    ensures |keys| > 0 ==>
              && ParseTemplate(codec, body).Some? && ParseTemplate(codec, body).value.JObj?
              && Field(ParseTemplate(codec, body).value, "Parameters").Some?
              && Field(ParseTemplate(codec, body).value, "Parameters").value.JObj?
              && keys == Keys(Field(ParseTemplate(codec, body).value, "Parameters").value.fields)
  {
    match ParseTemplate(codec, body)
    case None => []
    case Some(doc) =>
      if doc.JObj? && Get(doc.fields, "Parameters").Some? && Get(doc.fields, "Parameters").value.JObj?
      then Keys(Get(doc.fields, "Parameters").value.fields)
      else []
  }

  /** Lines 1419 and 1423: the tuple of the four network parameter names. */
  const VpcParamNames: seq<string> := ["VpcId", "PublicSubnetIds", "PrivateSubnetIds", "SubnetId"]

  /** `'Parameters' in body or '"Parameters"' in body` */
  predicate MentionsParameters(body: string) {
    Contains(body, "Parameters") || Contains(body, "\"Parameters\"")
  }

  predicate IsQuote(c: char) {
    c == '"' || c == '\''
  }

  /** The pattern `["']?NAME["']?\s*[:{]` matches with `name` at `i`. An
      optional quote in front never decides a match, and a quote right after
      the name must be taken, since `\s*[:{]` cannot start with one. */
  predicate KeyPatternAt(body: string, name: string, i: int) {
    OccursAt(body, name, i) &&
    var j := i + |name|;
    var k := if j < |body| && IsQuote(body[j]) then j + 1 else j;
    var rest := LStrip(body[k..]);
    |rest| > 0 && (rest[0] == ':' || rest[0] == '{')
  }

  /** Line 1420's `re.search`. */
  predicate KeyPatternIn(body: string, name: string) {
    exists i | 0 <= i <= |body| :: KeyPatternAt(body, name, i)
  }

  /** The names of the list, in order, that the body writes as keys. */
  function NamesWrittenAsKeys(body: string, names: seq<string>): (r: seq<string>)
    ensures forall n :: n in r <==> n in names && KeyPatternIn(body, n)
  {
    if |names| == 0 then []
    else
      var rest := NamesWrittenAsKeys(body, names[1..]);
      if KeyPatternIn(body, names[0]) then [names[0]] + rest else rest
  }

  /** Lines 1409-1421: the declared keys, or, when there are none and the
      body mentions `Parameters`, the network names it writes as keys. */
  function TemplateKeys(codec: Codec, body: string): (keys: seq<string>)
    ensures |DeclaredKeys(codec, body)| > 0 ==> keys == DeclaredKeys(codec, body)
    ensures |DeclaredKeys(codec, body)| == 0 ==>
              forall n :: n in keys <==> MentionsParameters(body) && n in VpcParamNames && KeyPatternIn(body, n)
  {
    var declared := DeclaredKeys(codec, body);
    if |declared| == 0 && MentionsParameters(body) then NamesWrittenAsKeys(body, VpcParamNames)
    else declared
  }

  // ---------------------------------------------------------------------------
  // The default VPC (lines 1423-1480)
  // ---------------------------------------------------------------------------

  /** Lines 1424-1425: one of the four network names, ignoring case and surrounding space. */
  predicate IsVpcKey(k: string) {
    Lower(Strip(k)) in {"vpcid", "publicsubnetids", "privatesubnetids", "subnetid"}
  }

  /** Lines 1426-1428 on a value: blank, or the word `default` in any case. */
  predicate BlankOrDefault(v: string) {
    Lower(Strip(v)) == "" || Lower(Strip(v)) == "default"
  }

  /** `_use_default_vpc_value(key)`: a missing key counts as blank. */
  predicate UsesDefault(up: seq<Entry<string>>, k: string) {
    BlankOrDefault(Get(up, k).GetOr(""))
  }

  /** An entry that asks for the default VPC. */
  predicate WantsDefault(e: Entry<string>) {
    IsVpcKey(e.key) && BlankOrDefault(e.val)
  }

  /** Lines 1430-1435: the template declares a network parameter, or, when
      it mentions `Parameters`, names one anywhere. */
  predicate TemplateHasVpcParams(keys: seq<string>, body: string) {
    (exists i | 0 <= i < |keys| :: IsVpcKey(keys[i]))
    || (MentionsParameters(body) && exists i | 0 <= i < |VpcParamNames| :: Contains(body, VpcParamNames[i]))
  }

  /** Lines 1436-1438: a caller's network key whose value is blank or `default`. */
  predicate CallerWantsDefault(up: seq<Entry<string>>) {
    exists i | 0 <= i < |up| :: IsVpcKey(up[i].key) && UsesDefault(up, up[i].key)
  }

  /** In a dict with unique keys that is an entry asking for the default VPC. */
  lemma CallerWantsDefaultIff(up: seq<Entry<string>>)
    requires UniqueKeys(up)
    ensures CallerWantsDefault(up) <==> exists i | 0 <= i < |up| :: WantsDefault(up[i])
  {
    forall i | 0 <= i < |up|
      ensures Get(up, up[i].key) == Some(up[i].val)
    {
      GetUnique(up, up[i]);
    }
  }

  /** Lines 1436-1438 */
  predicate NeedVpc(keys: seq<string>, body: string, up: seq<Entry<string>>) {
    TemplateHasVpcParams(keys, body) || CallerWantsDefault(up)
  }

  /** What the EC2 lookups of lines 1440-1447 found: the VPC id (empty when
      none was found) and its subnets, at most one per availability zone. */
  datatype DefaultVpc = DefaultVpc(vpcId: string, subnets: seq<string>)

  /** Line 1448 */
  predicate Resolved(vpc: DefaultVpc) {
    |vpc.vpcId| > 0 && |vpc.subnets| > 0
  }

  /** `default_subnet_ids[0] if default_subnet_ids else ''` */
  function FirstSubnet(vpc: DefaultVpc): string {
    if |vpc.subnets| > 0 then vpc.subnets[0] else ""
  }

  /** Lines 1455-1460: the value for a caller's network key. */
  function FillValue(k: string, vpc: DefaultVpc): string {
    var low := Lower(Strip(k));
    if low == "vpcid" then vpc.vpcId
    else if low == "subnetid" then FirstSubnet(vpc)
    else Join(',', vpc.subnets)
  }

  /** Lines 1464-1469: the value for one of the four exact names. */
  function ExactFillValue(name: string, vpc: DefaultVpc): string {
    if name == "VpcId" then vpc.vpcId
    else if name == "SubnetId" then FirstSubnet(vpc)
    else Join(',', vpc.subnets)
  }

  /** A lookup none of whose three values is blank or `default`. */
  predicate UsableLookup(vpc: DefaultVpc) {
    !BlankOrDefault(vpc.vpcId) && !BlankOrDefault(FirstSubnet(vpc)) && !BlankOrDefault(Join(',', vpc.subnets))
  }

  /** Lines 1449-1460: each caller key that asks for the default VPC gets the
      lookup's value; every other entry, and the order, stay. */
  function FillCallerKeys(up: seq<Entry<string>>, vpc: DefaultVpc): (r: seq<Entry<string>>)
    ensures |r| == |up|
    ensures forall i | 0 <= i < |up| :: r[i].key == up[i].key
    ensures forall i | 0 <= i < |up| :: !WantsDefault(up[i]) ==> r[i] == up[i]
    ensures forall i | 0 <= i < |up| :: WantsDefault(up[i]) ==> r[i].val == FillValue(up[i].key, vpc)
  {
    seq(|up|, i requires 0 <= i < |up| =>
      if WantsDefault(up[i]) then Entry(up[i].key, FillValue(up[i].key, vpc)) else up[i])
  }

  /** Lines 1462-1469: each of the names the template declares and the dict
      leaves blank or `default` is assigned the lookup's value. */
  function FillDeclared(up: seq<Entry<string>>, keys: seq<string>, vpc: DefaultVpc, names: seq<string>): (r: seq<Entry<string>>)
    decreases |names|
  {
    if |names| == 0 then up
    else
      var next := if names[0] in keys && UsesDefault(up, names[0]) then Put(up, names[0], ExactFillValue(names[0], vpc)) else up;
      FillDeclared(next, keys, vpc, names[1..])
  }

  /** Lines 1470-1480: the first key that still asks for the default VPC. */
  function FirstUnresolved(up: seq<Entry<string>>): (r: Option<string>)
    ensures r.None? <==> forall i | 0 <= i < |up| :: !WantsDefault(up[i])
    ensures r.Some? ==> exists i | 0 <= i < |up| :: WantsDefault(up[i]) && up[i].key == r.value
  {
    match FirstIndex(up, WantsDefault)
    case None => None
    case Some(i) => Some(up[i].key)
  }

  datatype VpcStep = Filled(up: seq<Entry<string>>) | Unresolved(key: string)

  /** Lines 1439-1480 once the default VPC is needed. */
  function ResolveVpc(up: seq<Entry<string>>, keys: seq<string>, vpc: DefaultVpc): (r: VpcStep)
    ensures r.Unresolved? ==> IsVpcKey(r.key)
  {
    var filled := if Resolved(vpc) then FillDeclared(FillCallerKeys(up, vpc), keys, vpc, VpcParamNames) else up;
    match FirstUnresolved(filled)
    case Some(k) => Unresolved(k)
    case None => Filled(filled)
  }

  /** Every entry after the fill of declared names is one that was there or
      one carrying a lookup value. */
  lemma {:induction false} FillDeclaredEntries(up: seq<Entry<string>>, keys: seq<string>, vpc: DefaultVpc, names: seq<string>)
    ensures forall e | e in FillDeclared(up, keys, vpc, names) ::
              e in up || exists n | n in names :: e.val == ExactFillValue(n, vpc)
    decreases |names|
  {
    if |names| > 0 {
      var next := if names[0] in keys && UsesDefault(up, names[0]) then Put(up, names[0], ExactFillValue(names[0], vpc)) else up;
      FillDeclaredEntries(next, keys, vpc, names[1..]);
      if names[0] in keys && UsesDefault(up, names[0]) {
        PutEntries(up, names[0], ExactFillValue(names[0], vpc));
      }
    }
  }

  /** An entry that does not ask for the default VPC survives the fill of
      declared names: it is assigned only when its value is blank or `default`. */
  lemma {:induction false} FillDeclaredKeeps(up: seq<Entry<string>>, keys: seq<string>, vpc: DefaultVpc, names: seq<string>, e: Entry<string>)
    requires UniqueKeys(up) && e in up && !BlankOrDefault(e.val)
    ensures e in FillDeclared(up, keys, vpc, names)
    decreases |names|
  {
    if |names| > 0 {
      GetUnique(up, e);
      if names[0] in keys && UsesDefault(up, names[0]) {
        PutKeepsOthers(up, names[0], ExactFillValue(names[0], vpc), e);
        PutUnique(up, names[0], ExactFillValue(names[0], vpc));
      }
      var next := if names[0] in keys && UsesDefault(up, names[0]) then Put(up, names[0], ExactFillValue(names[0], vpc)) else up;
      FillDeclaredKeeps(next, keys, vpc, names[1..], e);
    }
  }

  lemma ExactFillUsable(n: string, vpc: DefaultVpc)
    requires UsableLookup(vpc)
    ensures !BlankOrDefault(ExactFillValue(n, vpc))
  {
  }

  lemma FillUsable(k: string, vpc: DefaultVpc)
    requires UsableLookup(vpc)
    ensures !BlankOrDefault(FillValue(k, vpc))
  {
  }

  /** After the caller keys are filled from a usable lookup none asks for
      the default VPC any more. */
  lemma CallerKeysSettled(up: seq<Entry<string>>, vpc: DefaultVpc)
    requires UsableLookup(vpc)
    ensures forall i | 0 <= i < |up| :: !WantsDefault(FillCallerKeys(up, vpc)[i])
  {
    var caller := FillCallerKeys(up, vpc);
    forall i | 0 <= i < |up|
      ensures !WantsDefault(caller[i])
    {
      if WantsDefault(up[i]) {
        FillUsable(up[i].key, vpc);
      }
    }
  }

  /** A usable lookup resolves every key: nothing is left unresolved. */
  lemma UsableLookupResolves(up: seq<Entry<string>>, keys: seq<string>, vpc: DefaultVpc)
    requires Resolved(vpc) && UsableLookup(vpc)
    ensures ResolveVpc(up, keys, vpc).Filled?
  {
    var caller := FillCallerKeys(up, vpc);
    var filled := FillDeclared(caller, keys, vpc, VpcParamNames);
    FillDeclaredEntries(caller, keys, vpc, VpcParamNames);
    CallerKeysSettled(up, vpc);
    forall e | e in filled
      ensures !WantsDefault(e)
    {
      if e !in caller {
        var n :| n in VpcParamNames && e.val == ExactFillValue(n, vpc);
        ExactFillUsable(n, vpc);
      }
    }
  }

  /** Without a default VPC the call stops exactly when a caller key asks for it. */
  lemma UnresolvedWithoutLookup(up: seq<Entry<string>>, keys: seq<string>, vpc: DefaultVpc)
    requires !Resolved(vpc)
    ensures ResolveVpc(up, keys, vpc).Unresolved? <==> exists i | 0 <= i < |up| :: WantsDefault(up[i])
  {
  }

  /** A caller's entry that does not ask for the default VPC comes through
      the resolution unchanged. */
  lemma ResolveKeeps(up: seq<Entry<string>>, keys: seq<string>, vpc: DefaultVpc, e: Entry<string>)
    requires UniqueKeys(up) && e in up && !WantsDefault(e) && !BlankOrDefault(e.val)
    requires ResolveVpc(up, keys, vpc).Filled?
    ensures e in ResolveVpc(up, keys, vpc).up
  {
    if Resolved(vpc) {
      var caller := FillCallerKeys(up, vpc);
      var i :| 0 <= i < |up| && up[i] == e;
      assert caller[i] == e;
      assert UniqueKeys(caller) by {
        assert forall a | 0 <= a < |up| :: caller[a].key == up[a].key;
      }
      FillDeclaredKeeps(caller, keys, vpc, VpcParamNames, e);
    }
  }

  // ---------------------------------------------------------------------------
  // Unique suffixes on create (lines 1481-1500)
  // ---------------------------------------------------------------------------

  const DbSuffixName := "DBInstanceIdentifierSuffix"
  const BucketSuffixName := "BucketNameSuffix"

  /** The first declared key that is `low` once stripped and lower-cased. */
  function FirstSpelled(keys: seq<string>, low: string): (r: Option<string>)
    ensures r.Some? ==> r.value in keys && Lower(Strip(r.value)) == low
    ensures r.None? ==> forall k | k in keys :: Lower(Strip(k)) != low
  {
    if |keys| == 0 then None
    else if Lower(Strip(keys[0])) == low then Some(keys[0])
    else FirstSpelled(keys[1..], low)
  }

  /** Lines 1484-1491 and 1493-1500: the declared key spelling the suffix,
      else the exact name when the body mentions the suffix in any case. */
  function SuffixKey(keys: seq<string>, body: string, name: string, low: string): (r: Option<string>)
    ensures r.Some? ==> r.value in keys || r.value == name
    ensures r.Some? ==> r.value == name || Lower(Strip(r.value)) == low
    ensures r.None? <==> FirstSpelled(keys, low).None? && !Contains(body, name) && !Contains(Lower(body), low)
  {
    match FirstSpelled(keys, low)
    case Some(k) => Some(k)
    case None => if Contains(body, name) || Contains(Lower(body), low) then Some(name) else None
  }

  datatype Params = Params(up: seq<Entry<string>>, keys: seq<string>)

  /** Assigns the suffix and adds its key to the template keys. */
  function Inject(p: Params, key: Option<string>, suffix: string): (r: Params)
    ensures key.Some? ==> Get(r.up, key.value) == Some(suffix) && key.value in r.keys
    ensures forall k | k in p.keys :: k in r.keys
    ensures forall k | k in r.keys :: k in p.keys || Some(k) == key
  {
    match key
    case None => p
    case Some(k) => Params(Put(p.up, k, suffix), if k in p.keys then p.keys else p.keys + [k])
  }

  /** A longer key list still finds a spelling the shorter one found. */
  lemma FirstSpelledMore(keys: seq<string>, more: seq<string>, low: string)
    requires forall k | k in keys :: k in more
    requires FirstSpelled(keys, low).Some?
    ensures FirstSpelled(more, low).Some?
  {
    var k := FirstSpelled(keys, low).value;
    assert k in more;
  }

  /** Lines 1484-1487 */
  function DbKey(keys: seq<string>, body: string): Option<string> {
    SuffixKey(keys, body, DbSuffixName, "dbinstanceidentifiersuffix")
  }

  /** Lines 1493-1496 */
  function BucketKey(keys: seq<string>, body: string): Option<string> {
    SuffixKey(keys, body, BucketSuffixName, "bucketnamesuffix")
  }

  /** Lines 1482-1500: the database suffix first, then the bucket suffix,
      looked up among the keys the first one may have grown. */
  function InjectSuffixes(p: Params, body: string, suffix: string): Params {
    var db := Inject(p, DbKey(p.keys, body), suffix);
    Inject(db, BucketKey(db.keys, body), suffix)
  }

  /** Two injections of the same value: both keys end up holding it. */
  lemma InjectTwice(p: Params, k1: Option<string>, k2: Option<string>, suffix: string)
    ensures var r := Inject(Inject(p, k1, suffix), k2, suffix);
            && (k1.Some? ==> Get(r.up, k1.value) == Some(suffix) && k1.value in r.keys)
            && (k2.Some? ==> Get(r.up, k2.value) == Some(suffix) && k2.value in r.keys)
  {
  }

  /** Whatever key either check selects is sent the clock value and counts
      as declared; a bucket suffix the original keys or the body call for is
      still selected after the database suffix was added. */
  lemma SuffixesInjected(p: Params, body: string, suffix: string)
    ensures var r := InjectSuffixes(p, body, suffix);
            var db := Inject(p, DbKey(p.keys, body), suffix);
            && (DbKey(p.keys, body).Some? ==>
                  Get(r.up, DbKey(p.keys, body).value) == Some(suffix) && DbKey(p.keys, body).value in r.keys)
            && (BucketKey(db.keys, body).Some? ==>
                  Get(r.up, BucketKey(db.keys, body).value) == Some(suffix) && BucketKey(db.keys, body).value in r.keys)
            && (BucketKey(p.keys, body).Some? ==> BucketKey(db.keys, body).Some?)
  {
    var db := Inject(p, DbKey(p.keys, body), suffix);
    InjectTwice(p, DbKey(p.keys, body), BucketKey(db.keys, body), suffix);
    if BucketKey(p.keys, body).Some? && FirstSpelled(p.keys, "bucketnamesuffix").Some? {
      FirstSpelledMore(p.keys, db.keys, "bucketnamesuffix");
    }
  }

  /** The template keys grow only by the two suffix names. */
  lemma SuffixKeysGrow(p: Params, body: string, suffix: string)
    ensures forall k | k in InjectSuffixes(p, body, suffix).keys :: k in p.keys || k == DbSuffixName || k == BucketSuffixName
  {
    var db := Inject(p, DbKey(p.keys, body), suffix);
    assert forall k | k in db.keys :: k in p.keys || k == DbSuffixName;
  }

  /** The caller's other entries stay. */
  lemma SuffixesKeep(p: Params, body: string, suffix: string)
    ensures forall e | e in p.up && !SuffixSpelling(e.key) :: e in InjectSuffixes(p, body, suffix).up
  {
    var db := Inject(p, DbKey(p.keys, body), suffix);
    InjectKeeps(p, DbKey(p.keys, body), suffix);
    InjectKeeps(db, BucketKey(db.keys, body), suffix);
  }

  /** A key either suffix check could select. */
  predicate SuffixSpelling(k: string) {
    k == DbSuffixName || k == BucketSuffixName
    || Lower(Strip(k)) == "dbinstanceidentifiersuffix" || Lower(Strip(k)) == "bucketnamesuffix"
  }

  /** An injection leaves the entries of other keys in place. */
  lemma InjectKeeps(p: Params, key: Option<string>, suffix: string)
    requires key.Some? ==> SuffixSpelling(key.value)
    ensures forall e | e in p.up && !SuffixSpelling(e.key) :: e in Inject(p, key, suffix).up
  {
    if key.Some? {
      forall e | e in p.up && !SuffixSpelling(e.key)
        ensures e in Inject(p, key, suffix).up
      {
        PutKeepsOthers(p.up, key.value, suffix, e);
      }
    }
  }

  // ---------------------------------------------------------------------------
  // The final filter (lines 1501-1510)
  // ---------------------------------------------------------------------------

  /** Line 1506 on a value */
  predicate IsDefaultWord(v: string) {
    Lower(Strip(v)) == "default"
  }

  /** An entry passes the last filter: not a network key set to `default`,
      and a declared key whenever any key is known. */
  predicate Sendable(e: Entry<string>, keys: seq<string>) {
    !(IsVpcKey(e.key) && IsDefaultWord(e.val)) && (|keys| == 0 || e.key in keys)
  }

  /** An entry the dict holds under a declared key with a value other than
      `default` is sent. */
  lemma SentIfStored(up: seq<Entry<string>>, keys: seq<string>, k: string, v: string)
    requires Get(up, k) == Some(v) && k in keys && !IsDefaultWord(v)
    ensures FinalParameters(up, keys).Some? && Entry(k, v) in FinalParameters(up, keys).value
  {
    GetIsStored(up, k);
  }

  /** Lines 1503-1510: no `Parameters` at all for an empty dict. */
  function FinalParameters(up: seq<Entry<string>>, keys: seq<string>): (r: Option<seq<Entry<string>>>)
    ensures r.None? <==> |up| == 0
    ensures r.Some? ==> forall e | e in r.value :: e in up && !(IsVpcKey(e.key) && IsDefaultWord(e.val))
    ensures r.Some? && |keys| > 0 ==> forall e | e in r.value :: e.key in keys
    ensures r.Some? ==> forall e | e in up && Sendable(e, keys) :: e in r.value
  {
    if |up| == 0 then None else Some(Filter(up, e => Sendable(e, keys)))
  }
}

=== FILE: provision.dfy ===
/** `provision_cfn_stack` up to the create or update call
    (mcp_server.py:1325-1517): the read-only switch, the stack name, the
    refusal of templates that build their own network, the three template
    rewrites, and the assembly of the stack parameters. The clock, the
    environment, the EC2 lookups of the default VPC and the existence check
    of the stack are parameters; the CloudFormation call itself is left out. */
module Provision {
  import opened Wrappers
  import opened Text
  import opened Json
  import CloudFront
  import BucketNames
  import Normalize
  import opened StackParams

  // ---------------------------------------------------------------------------
  // Before any rewriting (lines 1342-1372)
  // ---------------------------------------------------------------------------

  /** Line 25: `MCP_READONLY` lower-cased is one of three words. */
  predicate ReadOnlyMode(env: string) {
    Lower(env) in ["true", "1", "yes"]
  }

  const ShortNamePrefix := "AgenticArchitect-"

  /** `str(int(time.time()))[-8:]` for a clock reading in whole seconds. */
  function ClockDigits(now: nat): (r: string)
    ensures 1 <= |r| <= 8
    ensures forall i | 0 <= i < |r| :: IsDigit(r[i])
  {
    var s := NatToString(now);
    TakeLast(s, 8)
  }

  /** Lines 1347-1351: the stripped name, or a short name from the clock when
      the stripped name is longer than 50 characters. */
  function StackNameFor(stackName: string, now: nat): (r: string)
    ensures |r| <= 50
    ensures |Strip(stackName)| <= 50 ==> r == Strip(stackName)
    ensures |Strip(stackName)| > 50 ==>
              StartsWith(r, ShortNamePrefix) && r[|ShortNamePrefix|..] == ClockDigits(now)
  {
    var s := Strip(stackName);
    if |s| > 50 then
      var r := ShortNamePrefix + ClockDigits(now);
      assert r[..|ShortNamePrefix|] == ShortNamePrefix;
      r
    else s
  }

  lemma DigitIsNoSpace(c: char)
    requires IsDigit(c)
    ensures !IsSpace(c)
  {
  }

  /** A short name from the clock has nothing to strip. */
  lemma ShortNameStripped(now: nat)
    ensures IsStripped(ShortNamePrefix + ClockDigits(now))
  {
    var d := ClockDigits(now);
    var r := ShortNamePrefix + d;
    assert r[0] == 'A';
    assert r[|r| - 1] == d[|d| - 1];
    DigitIsNoSpace(d[|d| - 1]);
  }

  /** A name that is not too long is used as it is once stripped; a short
      name from the clock is never shortened again. */
  lemma StackNameStable(stackName: string, now: nat, later: nat)
    ensures StackNameFor(StackNameFor(stackName, now), later) == StackNameFor(stackName, now)
  {
    if |Strip(stackName)| <= 50 {
      StripIsStripped(stackName);
      StripOfStripped(Strip(stackName));
    } else {
      ShortNameStripped(now);
      StripOfStripped(ShortNamePrefix + ClockDigits(now));
    }
  }

  /** Lines 1353-1357 */
  const ForbiddenTypes: set<string> := {
    "AWS::EC2::VPC", "AWS::EC2::Subnet", "AWS::EC2::InternetGateway",
    "AWS::EC2::VPCGatewayAttachment", "AWS::EC2::NATGateway", "AWS::EC2::EIP",
    "AWS::EC2::RouteTable", "AWS::EC2::Route", "AWS::EC2::SubnetRouteTableAssociation"
  }

  /** A resource dict whose Type is one of the nine network types. */
  predicate IsForbidden(rdef: Json) {
    rdef.JObj? && Get(rdef.fields, "Type").Some? && Get(rdef.fields, "Type").value.JStr?
    && Get(rdef.fields, "Type").value.s in ForbiddenTypes
  }

  /** Line 1364 for one resource: `defn.get('Type') in _FORBIDDEN_RESOURCE_TYPES`
      on dicts; a list or dict Type is unhashable and raises. */
  function ForbiddenTest(rdef: Json): (r: Try<bool>)
    ensures r.Ok? ==> r.value == IsForbidden(rdef)
    ensures r.Raises? <==> rdef.JObj? && Get(rdef.fields, "Type").Some? && (Get(rdef.fields, "Type").value.JArr? || Get(rdef.fields, "Type").value.JObj?)
  {
    if !rdef.JObj? then Ok(false)
    else InIds(Get(rdef.fields, "Type").GetOr(JNull), ForbiddenTypes)
  }

  /** The Types named in the refusal: those of the forbidden resources. */
  function FoundTypes(entries: seq<Entry<Json>>): set<string> {
    set i | 0 <= i < |entries| && IsForbidden(entries[i].val) :: Get(entries[i].val.fields, "Type").value.s
  }

  lemma FoundSome(entries: seq<Entry<Json>>, i: nat)
    requires i < |entries| && IsForbidden(entries[i].val)
    ensures FoundTypes(entries) != {}
  {
    assert Get(entries[i].val.fields, "Type").value.s in FoundTypes(entries);
  }

  /** Lines 1363-1370 over the resources: the Types to refuse the template
      for, or `None` when none is forbidden or an unhashable Type raises. */
  function ForbiddenAmong(entries: seq<Entry<Json>>): (r: Option<set<string>>)
    ensures r.Some? ==> r.value != {} && r.value <= ForbiddenTypes && r.value == FoundTypes(entries)
  {
    match CloudFront.KeysWhere(entries, ForbiddenTest)
    case Raises => None
    case Ok(found) =>
      if found == {} then None
      else
        var k :| k in found;
        var i :| 0 <= i < |entries| && entries[i].key == k && ForbiddenTest(entries[i].val) == Ok(true);
        FoundSome(entries, i);
        Some(FoundTypes(entries))
  }

  /** The resources are refused exactly when one is forbidden and no Type is
      unhashable. */
  lemma ForbiddenAmongExactly(entries: seq<Entry<Json>>)
    ensures ForbiddenAmong(entries).Some? <==>
              && (exists i | 0 <= i < |entries| :: IsForbidden(entries[i].val))
              && (forall i | 0 <= i < |entries| :: ForbiddenTest(entries[i].val).Ok?)
  {
    var r := CloudFront.KeysWhere(entries, ForbiddenTest);
    if r.Ok? && exists i | 0 <= i < |entries| :: IsForbidden(entries[i].val) {
      var i :| 0 <= i < |entries| && IsForbidden(entries[i].val);
      assert entries[i].key in r.value;
    }
  }

  /** Line 1363 first: a document or `Resources` that is not a dict raises and
      lets the template pass; a missing or empty `Resources` finds nothing. */
  function ForbiddenIn(doc: Json): (r: Option<set<string>>)
    ensures r.Some? ==> doc.JObj? && ViewOf(Get(doc.fields, "Resources")).Attached?
    ensures doc.JObj? && ViewOf(Get(doc.fields, "Resources")).Attached? ==> r == ForbiddenAmong(ResourcesOf(doc))
  {
    if !doc.JObj? then None
    else
      match ViewOf(Get(doc.fields, "Resources"))
      case Detached => None
      case Foreign(_) => None
      case Attached(entries) =>
        ResourcesOfField(doc, entries);
        ForbiddenAmong(entries)
  }

  /** Lines 1358-1372; a parse error lets the template pass too. */
  function ForbiddenFound(codec: Codec, body: string): (r: Option<set<string>>)
    ensures r.Some? ==> ParseTemplate(codec, body).Some? && r == ForbiddenIn(ParseTemplate(codec, body).value)
  {
    match ParseTemplate(codec, body)
    case None => None
    case Some(doc) => ForbiddenIn(doc)
  }

  // ---------------------------------------------------------------------------
  // The stack call (lines 1373-1517)
  // ---------------------------------------------------------------------------

  /** Lines 1374-1378: the three rewrites, in this order. The last one leaves
      no line for the bucket-name fallback to drop. */
  function Rewritten(codec: Codec, body: string, depth: nat): (r: string)
    ensures BucketNames.LineFallback(r) == r
  {
    BucketNames.StripBucketNames(codec, CloudFront.StripCloudFront(codec, Normalize.NormalizeTemplate(codec, body, depth)), depth)
  }

  datatype Tag = Tag(key: string, value: string)

  /** Lines 1394-1398: the tags of a stack this server creates. */
  const CreatorTags: seq<Tag> := [Tag("stack-creator", "aws-architect-mcp"), Tag("resourcename", "sfmwcdemo")]

  /** The keyword arguments of `create_stack` / `update_stack`. */
  datatype StackCall = StackCall(
    update: bool,
    stackName: string,
    templateBody: string,
    tags: Option<seq<Tag>>,
    capabilities: Option<seq<string>>,
    parameters: Option<seq<Entry<string>>>)

  /** What the outside world answers: `MCP_READONLY`, the clock at line 1350
      and at line 1482, whether `describe_stacks` found the stack, what the
      EC2 lookups found, and whether a cross-account role is configured. */
  datatype World = World(
    readOnlyEnv: string,
    now: nat,
    later: nat,
    stackExists: bool,
    vpc: DefaultVpc,
    crossAccount: bool)

  datatype Outcome =
    | ReadOnly
    | ForbiddenVpc(types: set<string>)
    | VpcUnresolved(key: string, message: string)
    | Failed
    | Submitted(call: StackCall)

  const VpcHint := "Pass explicit VpcId/PublicSubnetIds/PrivateSubnetIds, or ensure the target account has a default VPC."
  const CrossAccountHint := " For cross-account, you can set CFN_TARGET_DEFAULT_VPC_ID to a VPC ID in the target account."
  const SameAccountHint := " Or ensure vpc-0ca2fc76 exists in this region and has subnets."

  /** Lines 1470-1480 */
  function UnresolvedMessage(key: string, crossAccount: bool): string {
    "Could not resolve default VPC/subnets for " + key + ". " + VpcHint
    + (if crossAccount then CrossAccountHint else SameAccountHint)
  }

  datatype Assembly = Ready(params: Option<seq<Entry<string>>>) | NoVpc(key: string) | Raised

  /** Lines 1430-1480: the default VPC, only when something asks for it. */
  function VpcStage(up: seq<Entry<string>>, keys: seq<string>, need: bool, vpc: DefaultVpc): VpcStep {
    if need then ResolveVpc(up, keys, vpc) else Filled(up)
  }

  /** Lines 1481-1510 on the filled dict. */
  function Finish(filled: seq<Entry<string>>, keys: seq<string>, body: string, w: World): Option<seq<Entry<string>>> {
    var p := if w.stackExists then Params(filled, keys) else InjectSuffixes(Params(filled, keys), body, ClockDigits(w.later));
    FinalParameters(p.up, p.keys)
  }

  /** Lines 1430-1510 on the caller's dict and the template's keys. */
  function AssembleFrom(up: seq<Entry<string>>, keys: seq<string>, body: string, w: World): Assembly {
    match VpcStage(up, keys, NeedVpc(keys, body, up), w.vpc)
    case Unresolved(k) => NoVpc(k)
    case Filled(filled) => Ready(Finish(filled, keys, body, w))
  }

  /** Lines 1403-1510 on the rewritten body. */
  function AssembleParams(codec: Codec, body: string, w: World, parameters: seq<Json>, show: Json -> string): Assembly {
    match UserParams(parameters, show)
    case Raises => Raised
    case Ok(up) => AssembleFrom(up, TemplateKeys(codec, body), body, w)
  }

  /** Lines 1388-1401 and 1512-1517: the call for a stack that exists or not. */
  function CallFor(w: World, stackName: string, final: string, capabilities: seq<string>,
                   ps: Option<seq<Entry<string>>>): (c: StackCall)
    ensures c.templateBody == final && c.parameters == ps && |c.stackName| <= 50
    ensures c.update <==> w.stackExists
    ensures c.tags.Some? <==> !w.stackExists
    ensures c.capabilities.Some? <==> |capabilities| > 0
  {
    StackCall(
      w.stackExists,
      StackNameFor(stackName, w.now),
      final,
      if w.stackExists then None else Some(CreatorTags),
      if |capabilities| > 0 then Some(capabilities) else None,
      ps)
  }

  /** Lines 1373-1517, once the template passed the network check; `final`
      is the template after the three rewrites. */
  function Submit(codec: Codec, final: string, w: World, stackName: string,
                  capabilities: seq<string>, parameters: seq<Json>, show: Json -> string): (r: Outcome)
    ensures r.Failed? <==> UserParams(parameters, show).Raises?
    ensures r.VpcUnresolved? <==> AssembleParams(codec, final, w, parameters, show).NoVpc?
    ensures r.VpcUnresolved? ==> r.message == UnresolvedMessage(r.key, w.crossAccount)
    ensures r.Submitted? <==> AssembleParams(codec, final, w, parameters, show).Ready?
    ensures r.Submitted? ==>
              r.call == CallFor(w, stackName, final, capabilities, AssembleParams(codec, final, w, parameters, show).params)
  {
    match AssembleParams(codec, final, w, parameters, show)
    case Raised => Failed
    case NoVpc(k) => VpcUnresolved(k, UnresolvedMessage(k, w.crossAccount))
    case Ready(ps) => Submitted(CallFor(w, stackName, final, capabilities, ps))
  }

  /** A clock value is neither blank nor `default`. */
  lemma DigitsNotDefault(s: string)
    requires |s| > 0 && forall i | 0 <= i < |s| :: IsDigit(s[i])
    ensures !BlankOrDefault(s) && !IsDefaultWord(s)
  {
    DigitIsNoSpace(s[0]);
    DigitIsNoSpace(s[|s| - 1]);
    StripOfStripped(s);
    assert Lower(s)[0] == s[0];
  }

  /** The last filter never lets a network key set to `default` through,
      and, when the template's keys are known, only declared keys and the
      two suffixes. */
  lemma FinishSendsNoStray(filled: seq<Entry<string>>, keys: seq<string>, body: string, w: World)
    ensures var ps := Finish(filled, keys, body, w);
            ps.Some? ==> forall e | e in ps.value :: !(IsVpcKey(e.key) && IsDefaultWord(e.val))
    ensures var ps := Finish(filled, keys, body, w);
            ps.Some? && |keys| > 0 ==> forall e | e in ps.value :: e.key in keys || e.key == DbSuffixName || e.key == BucketSuffixName
  {
    if !w.stackExists {
      SuffixKeysGrow(Params(filled, keys), body, ClockDigits(w.later));
    }
  }

  /** An entry with a real value that the keys admit reaches the call. */
  lemma FinishKeeps(filled: seq<Entry<string>>, keys: seq<string>, body: string, w: World, e: Entry<string>)
    requires e in filled && !BlankOrDefault(e.val)
    requires e.key in keys || (|keys| == 0 && (w.stackExists || (DbKey(keys, body).None? && BucketKey(keys, body).None?)))
    requires w.stackExists || !SuffixSpelling(e.key)
    ensures Finish(filled, keys, body, w).Some? && e in Finish(filled, keys, body, w).value
  {
    var p := if w.stackExists then Params(filled, keys) else InjectSuffixes(Params(filled, keys), body, ClockDigits(w.later));
    if !w.stackExists {
      SuffixesKeep(Params(filled, keys), body, ClockDigits(w.later));
      SuffixKeysGrow(Params(filled, keys), body, ClockDigits(w.later));
      if |keys| == 0 && DbKey(keys, body).None? && BucketKey(keys, body).None? {
        assert p.keys == keys;
      }
    }
    assert e in p.up;
    assert e.key in p.keys || |p.keys| == 0;
  }

  /** On create, the key the database check selects is sent the clock value,
      and so is a key spelling the bucket suffix whenever the template's keys
      or the body call for one. */
  lemma FinishSendsSuffixes(filled: seq<Entry<string>>, keys: seq<string>, body: string, w: World)
    requires !w.stackExists
    ensures var ps := Finish(filled, keys, body, w);
            DbKey(keys, body).Some? ==> ps.Some? && Entry(DbKey(keys, body).value, ClockDigits(w.later)) in ps.value
    ensures var ps := Finish(filled, keys, body, w);
            BucketKey(keys, body).Some? ==>
              ps.Some? && (exists e | e in ps.value ::
                             e.val == ClockDigits(w.later) && (e.key == BucketSuffixName || Lower(Strip(e.key)) == "bucketnamesuffix"))
  {
    var suffix := ClockDigits(w.later);
    var p0 := Params(filled, keys);
    var p := InjectSuffixes(p0, body, suffix);
    SuffixesInjected(p0, body, suffix);
    DigitsNotDefault(suffix);
    if DbKey(keys, body).Some? {
      SentIfStored(p.up, p.keys, DbKey(keys, body).value, suffix);
    }
    var db := Inject(p0, DbKey(keys, body), suffix);
    if BucketKey(keys, body).Some? {
      var k := BucketKey(db.keys, body).value;
      SentIfStored(p.up, p.keys, k, suffix);
      assert Entry(k, suffix) in FinalParameters(p.up, p.keys).value;
    }
  }

  /** Without a default VPC the stage stops exactly when it runs and some
      entry asks for the default VPC. */
  lemma VpcStageWithoutLookup(up: seq<Entry<string>>, keys: seq<string>, need: bool, vpc: DefaultVpc)
    requires !Resolved(vpc)
    ensures VpcStage(up, keys, need, vpc).Unresolved? <==> need && exists i | 0 <= i < |up| :: WantsDefault(up[i])
  {
    UnresolvedWithoutLookup(up, keys, vpc);
  }

  /** A usable default VPC resolves every network key, and a stop names a
      network key. */
  lemma VpcStageFacts(up: seq<Entry<string>>, keys: seq<string>, need: bool, vpc: DefaultVpc)
    ensures Resolved(vpc) && UsableLookup(vpc) ==> VpcStage(up, keys, need, vpc).Filled?
    ensures VpcStage(up, keys, need, vpc).Unresolved? ==> IsVpcKey(VpcStage(up, keys, need, vpc).key)
  {
    if Resolved(vpc) && UsableLookup(vpc) {
      UsableLookupResolves(up, keys, vpc);
    }
  }

  lemma VpcStageKeeps(up: seq<Entry<string>>, keys: seq<string>, need: bool, vpc: DefaultVpc, e: Entry<string>)
    requires UniqueKeys(up) && e in up && !BlankOrDefault(e.val)
    requires VpcStage(up, keys, need, vpc).Filled?
    ensures e in VpcStage(up, keys, need, vpc).up
  {
    if need {
      ResolveKeeps(up, keys, vpc, e);
    }
  }

  /** The parameters sent never set a network key to `default`, and, when
      the template's keys are known, name only declared keys and the two
      suffixes. */
  lemma AssembledSendsNoStray(codec: Codec, body: string, w: World, parameters: seq<Json>, show: Json -> string)
    requires AssembleParams(codec, body, w, parameters, show).Ready?
    requires AssembleParams(codec, body, w, parameters, show).params.Some?
    ensures var ps := AssembleParams(codec, body, w, parameters, show).params.value;
            forall e | e in ps :: !(IsVpcKey(e.key) && IsDefaultWord(e.val))
    ensures var ps := AssembleParams(codec, body, w, parameters, show).params.value;
            var keys := TemplateKeys(codec, body);
            |keys| > 0 ==> forall e | e in ps :: e.key in keys || e.key == DbSuffixName || e.key == BucketSuffixName
  {
    var up := UserParams(parameters, show).value;
    var keys := TemplateKeys(codec, body);
    FinishSendsNoStray(VpcStage(up, keys, NeedVpc(keys, body, up), w.vpc).up, keys, body, w);
  }

  /** A caller's parameter with a real value reaches the call, unless the
      template's keys leave it out or a suffix takes its key. */
  lemma AssembledKeepsCaller(codec: Codec, body: string, w: World, parameters: seq<Json>, show: Json -> string, e: Entry<string>)
    requires UserParams(parameters, show).Ok? && e in UserParams(parameters, show).value
    requires !BlankOrDefault(e.val)
    requires var keys := TemplateKeys(codec, body);
             e.key in keys || (|keys| == 0 && (w.stackExists || (DbKey(keys, body).None? && BucketKey(keys, body).None?)))
    requires w.stackExists || !SuffixSpelling(e.key)
    requires AssembleParams(codec, body, w, parameters, show).Ready?
    ensures AssembleParams(codec, body, w, parameters, show).params.Some?
    ensures e in AssembleParams(codec, body, w, parameters, show).params.value
  {
    var up := UserParams(parameters, show).value;
    var keys := TemplateKeys(codec, body);
    UserParamsUnique(parameters, show);
    VpcStageKeeps(up, keys, NeedVpc(keys, body, up), w.vpc, e);
    FinishKeeps(VpcStage(up, keys, NeedVpc(keys, body, up), w.vpc).up, keys, body, w, e);
  }

  /** On create, the suffixes the template calls for are sent the clock value. */
  lemma AssembledSendsSuffixes(codec: Codec, body: string, w: World, parameters: seq<Json>, show: Json -> string)
    requires !w.stackExists
    requires AssembleParams(codec, body, w, parameters, show).Ready?
    ensures var keys := TemplateKeys(codec, body);
            var ps := AssembleParams(codec, body, w, parameters, show).params;
            DbKey(keys, body).Some? ==> ps.Some? && Entry(DbKey(keys, body).value, ClockDigits(w.later)) in ps.value
    ensures var keys := TemplateKeys(codec, body);
            var ps := AssembleParams(codec, body, w, parameters, show).params;
            BucketKey(keys, body).Some? ==>
              ps.Some? && (exists e | e in ps.value ::
                             e.val == ClockDigits(w.later) && (e.key == BucketSuffixName || Lower(Strip(e.key)) == "bucketnamesuffix"))
  {
    var up := UserParams(parameters, show).value;
    var keys := TemplateKeys(codec, body);
    FinishSendsSuffixes(VpcStage(up, keys, NeedVpc(keys, body, up), w.vpc).up, keys, body, w);
  }

  /** Without a default VPC the call stops on the network keys exactly when
      a caller's network key is blank or `default`; with a usable one it never
      does; a stop always names a network key. */
  lemma AssembledVpcOutcome(codec: Codec, body: string, w: World, parameters: seq<Json>, show: Json -> string)
    requires UserParams(parameters, show).Ok?
    ensures var up := UserParams(parameters, show).value;
            !Resolved(w.vpc) ==>
              (AssembleParams(codec, body, w, parameters, show).NoVpc? <==> exists i | 0 <= i < |up| :: WantsDefault(up[i]))
    ensures Resolved(w.vpc) && UsableLookup(w.vpc) ==> !AssembleParams(codec, body, w, parameters, show).NoVpc?
    ensures AssembleParams(codec, body, w, parameters, show).NoVpc? ==> IsVpcKey(AssembleParams(codec, body, w, parameters, show).key)
  {
    var up := UserParams(parameters, show).value;
    var keys := TemplateKeys(codec, body);
    UserParamsUnique(parameters, show);
    VpcStageFacts(up, keys, NeedVpc(keys, body, up), w.vpc);
    if !Resolved(w.vpc) {
      VpcStageWithoutLookup(up, keys, NeedVpc(keys, body, up), w.vpc);
      CallerWantsDefaultIff(up);
    }
  }

  /** `provision_cfn_stack` up to the create or update call: the read-only
      switch first, then the network check on the body as given, and only
      then the rewritten template and the parameters. `final` is the body
      after the three rewrites, `Rewritten(codec, body, depth)`; it is an
      argument so that the contract holds for whatever the rewrites return. */
  function Provision(codec: Codec, final: string, w: World, stackName: string, body: string,
                     capabilities: seq<string>, parameters: seq<Json>, show: Json -> string): (r: Outcome)
    ensures r == ReadOnly <==> ReadOnlyMode(w.readOnlyEnv)
    ensures r.ForbiddenVpc? <==> !ReadOnlyMode(w.readOnlyEnv) && ForbiddenFound(codec, body).Some?
    ensures r.ForbiddenVpc? ==> r.types != {} && r.types <= ForbiddenTypes
    ensures !ReadOnlyMode(w.readOnlyEnv) && ForbiddenFound(codec, body).None? ==>
              r == Submit(codec, final, w, stackName, capabilities, parameters, show)
    ensures r.Submitted? ==> r.call.templateBody == final
  {
    if ReadOnlyMode(w.readOnlyEnv) then ReadOnly
    else
      match ForbiddenFound(codec, body)
      case Some(types) => ForbiddenVpc(types)
      case None => Submit(codec, final, w, stackName, capabilities, parameters, show)
  }

  /** The call never sends a network key set to `default`, and, when the
      rewritten template's keys are known, only declared keys and the two
      suffixes. */
  lemma ProvisionSendsNoStray(codec: Codec, final: string, w: World, stackName: string, body: string,
                              capabilities: seq<string>, parameters: seq<Json>, show: Json -> string)
    requires Provision(codec, final, w, stackName, body, capabilities, parameters, show).Submitted?
    ensures var c := Provision(codec, final, w, stackName, body, capabilities, parameters, show).call;
            c.parameters.Some? ==> forall e | e in c.parameters.value :: !(IsVpcKey(e.key) && IsDefaultWord(e.val))
    ensures var c := Provision(codec, final, w, stackName, body, capabilities, parameters, show).call;
            var keys := TemplateKeys(codec, final);
            c.parameters.Some? && |keys| > 0 ==>
              forall e | e in c.parameters.value :: e.key in keys || e.key == DbSuffixName || e.key == BucketSuffixName
  {
    if AssembleParams(codec, final, w, parameters, show).params.Some? {
      AssembledSendsNoStray(codec, final, w, parameters, show);
    }
  }
}

=== FILE: template_rules.dfy ===
/** The per-resource-type key fixes `_normalize_cfn_template_for_provision`
    applies to the `Properties` dict of one resource (mcp_server.py:206-302).
    Each rule takes the dict and answers the rewritten dict and whether the
    source sets its `changed` flag. */
module TemplateRules {
  import opened Wrappers
  import opened Text
  import opened Json

  const ScalingPolicyType := "AWS::AutoScaling::ScalingPolicy"
  const StageType := "AWS::ApiGateway::Stage"
  const DistributionType := "AWS::CloudFront::Distribution"
  const InstanceType := "AWS::EC2::Instance"
  const ApiResourceType := "AWS::ApiGateway::Resource"
  const LogGroupType := "AWS::Logs::LogGroup"
  const BucketType := "AWS::S3::Bucket"
  const BucketPolicyType := "AWS::S3::BucketPolicy"
  const NestedStackType := "AWS::CloudFormation::Stack"

  const WarmupTarget := "EstimatedInstanceWarmupSeconds"

  /** A rewritten `Properties` dict and the source's `changed` flag. */
  datatype Fix = Fix(props: seq<Entry<Json>>, changed: bool)

  // ---------------------------------------------------------------------------
  // AWS::AutoScaling::ScalingPolicy
  // ---------------------------------------------------------------------------

  /** `key.strip().lower().replace('_', '') == 'estimatedwarmupseconds'` */
  predicate IsWarmupKey(key: string) {
    DeleteChar(Lower(Strip(key)), '_') == "estimatedwarmupseconds"
  }

  /** Lines 208-212 for any key test: the first key satisfying `matches` is
      popped and stored again under `target` with the same value; nothing else
      changes. */
  function RenameFirst(props: seq<Entry<Json>>, matches: string -> bool, target: string): (r: Fix)
    ensures r.changed <==> exists j :: 0 <= j < |props| && matches(props[j].key)
    ensures !r.changed ==> r.props == props
    ensures r.changed ==>
      var i := FirstKeyWhere(props, matches, 0).value;
      && matches(props[i].key)
      && (forall j :: 0 <= j < i ==> !matches(props[j].key))
      && Get(r.props, target) == Some(props[i].val)
      && (props[i].key != target ==> Get(r.props, props[i].key) == None)
      && forall k :: k != props[i].key && k != target ==> Get(r.props, k) == Get(props, k)
  {
    match FirstKeyWhere(props, matches, 0)
    case None => Fix(props, false)
    case Some(i) =>
      var key := props[i].key;
      assert forall j :: 0 <= j < i ==> props[j].key != key;
      GetFirst(props, key, i);
      Fix(Put(Remove(props, key), target, props[i].val), true)
  }

  /** Lines 213-218: `ScaleInCooldown` and `ScaleOutCooldown` are deleted
      from a dict-valued `TargetTrackingConfiguration`. */
  function DropCooldowns(props: seq<Entry<Json>>): (r: Fix)
    ensures forall k :: k != "TargetTrackingConfiguration" ==> Get(r.props, k) == Get(props, k)
    ensures var g: Option<Json> := Get(props, "TargetTrackingConfiguration"); match g
      case Some(JObj(tt)) =>
        && Get(r.props, "TargetTrackingConfiguration").Some?
        && var tt' := Get(r.props, "TargetTrackingConfiguration").value;
        && tt'.JObj?
        && Get(tt'.fields, "ScaleInCooldown") == None && Get(tt'.fields, "ScaleOutCooldown") == None
        && (forall k :: k != "ScaleInCooldown" && k != "ScaleOutCooldown" ==> Get(tt'.fields, k) == Get(tt, k))
        && (r.changed <==> Get(tt, "ScaleInCooldown").Some? || Get(tt, "ScaleOutCooldown").Some?)
      case _ => r == Fix(props, false)
  {
    var g: Option<Json> := Get(props, "TargetTrackingConfiguration");
    match g
    case Some(JObj(tt)) =>
      var tt' := Remove(Remove(tt, "ScaleInCooldown"), "ScaleOutCooldown");
      var changed := Get(tt, "ScaleInCooldown").Some? || Get(tt, "ScaleOutCooldown").Some?;
      if changed then Fix(Put(props, "TargetTrackingConfiguration", JObj(tt')), true)
      else
        assert tt' == tt;
        Fix(props, false)
    case _ => Fix(props, false)
  }

  /** Lines 206-218, the JSON branch for scaling policies. */
  function FixScalingPolicy(props: seq<Entry<Json>>): (r: Fix)
    ensures var rn := RenameFirst(props, IsWarmupKey, WarmupTarget);
      && Get(r.props, WarmupTarget) == Get(rn.props, WarmupTarget)
      && r == Fix(DropCooldowns(rn.props).props, rn.changed || DropCooldowns(rn.props).changed)
  {
    var rn := RenameFirst(props, IsWarmupKey, WarmupTarget);
    var dc := DropCooldowns(rn.props);
    Fix(dc.props, rn.changed || dc.changed)
  }

  // ---------------------------------------------------------------------------
  // AWS::ApiGateway::Stage
  // ---------------------------------------------------------------------------

  /** Lines 219-223: `LoggingLevel` and `DataTraceEnabled` are dropped from
      the stage's Properties. */
  function FixStage(props: seq<Entry<Json>>): (r: Fix)
    ensures Get(r.props, "LoggingLevel") == None && Get(r.props, "DataTraceEnabled") == None
    ensures forall k :: k != "LoggingLevel" && k != "DataTraceEnabled" ==> Get(r.props, k) == Get(props, k)
    ensures r.changed <==> Get(props, "LoggingLevel").Some? || Get(props, "DataTraceEnabled").Some?
  {
    Fix(Remove(Remove(props, "LoggingLevel"), "DataTraceEnabled"),
        Get(props, "LoggingLevel").Some? || Get(props, "DataTraceEnabled").Some?)
  }

  /** Lines 220-223 when Properties is truthy but not a dict: `key in props`
      is a substring or element test and `del props[key]` raises. */
  function FixForeignStage(props: Json): (r: Try<bool>)
    ensures r.Ok? ==> r.value == false
    ensures r.Ok? <==>
      || (props.JStr? && !Contains(props.s, "LoggingLevel") && !Contains(props.s, "DataTraceEnabled"))
      || (props.JArr? && JStr("LoggingLevel") !in props.items && JStr("DataTraceEnabled") !in props.items)
      || (props.JObj? && Get(props.fields, "LoggingLevel") == None && Get(props.fields, "DataTraceEnabled") == None)
  {
    match PyContains(props, "LoggingLevel")
    case Raises => Raises
    case Ok(a) =>
      if a then Raises
      else
        match PyContains(props, "DataTraceEnabled")
        case Ok(b) => if b then Raises else Ok(false)
        case Raises => Raises
  }

  // ---------------------------------------------------------------------------
  // AWS::CloudFront::Distribution
  // ---------------------------------------------------------------------------

  /** Lines 237-249: a cache behaviour's `OriginId` becomes `TargetOriginId`,
      or is dropped when `TargetOriginId` is already there. */
  function FixOrigin(b: seq<Entry<Json>>): (r: Fix)
    ensures Get(r.props, "OriginId") == None
    ensures r.changed <==> Get(b, "OriginId").Some?
    ensures Get(b, "TargetOriginId").Some? ==> Get(r.props, "TargetOriginId") == Get(b, "TargetOriginId")
    ensures Get(b, "TargetOriginId") == None ==> Get(r.props, "TargetOriginId") == Get(b, "OriginId")
    ensures forall k :: k != "OriginId" && k != "TargetOriginId" ==> Get(r.props, k) == Get(b, k)
  {
    if Get(b, "OriginId").Some? && Get(b, "TargetOriginId") == None then
      Fix(Put(Remove(b, "OriginId"), "TargetOriginId", Get(b, "OriginId").value), true)
    else if Get(b, "OriginId").Some? then Fix(Remove(b, "OriginId"), true)
    else Fix(b, false)
  }

  /** One entry of CacheBehaviors: dicts are fixed in place, anything else is skipped. */
  function FixBehavior(item: Json): Json {
    if item.JObj? then JObj(FixOrigin(item.fields).props) else item
  }

  predicate HasOriginId(item: Json) {
    item.JObj? && Get(item.fields, "OriginId").Some?
  }

  /** Lines 243-249 over the whole list of cache behaviours. */
  function FixBehaviorList(items: seq<Json>): (r: (seq<Json>, bool))
    ensures |r.0| == |items|
    ensures forall i :: 0 <= i < |items| ==> (items[i].JObj? <==> r.0[i].JObj?)
    ensures forall i :: 0 <= i < |items| ==> !HasOriginId(r.0[i])
    ensures forall i :: 0 <= i < |items| && !items[i].JObj? ==> r.0[i] == items[i]
    ensures r.1 <==> exists i :: 0 <= i < |items| && HasOriginId(items[i])
  {
    (seq(|items|, i requires 0 <= i < |items| => FixBehavior(items[i])),
     exists i | 0 <= i < |items| :: HasOriginId(items[i]))
  }

  /** Lines 226-230: the `Tags` popped from DistributionConfig become the
      distribution's own `Tags` when not null and the distribution has none. */
  function LiftTags(props: seq<Entry<Json>>, tags: Option<Json>): (r: seq<Entry<Json>>)
    ensures forall k :: k != "Tags" ==> Get(r, k) == Get(props, k)
    ensures Get(props, "Tags").Some? ==> Get(r, "Tags") == Get(props, "Tags")
    ensures Get(props, "Tags") == None && tags.Some? && tags.value != JNull ==> Get(r, "Tags") == tags
  {
    if tags.Some? && tags.value != JNull && Get(props, "Tags") == None then Put(props, "Tags", tags.value) else props
  }

  /** Lines 226-234: DistributionConfig without `Tags` and `ViewerProtocolPolicy`. */
  function ScrubConfig(dc: seq<Entry<Json>>): (r: seq<Entry<Json>>)
    ensures Get(r, "Tags") == None && Get(r, "ViewerProtocolPolicy") == None
    ensures forall k :: k != "Tags" && k != "ViewerProtocolPolicy" ==> Get(r, k) == Get(dc, k)
  {
    var r := Remove(Remove(dc, "Tags"), "ViewerProtocolPolicy");
    assert Get(r, "Tags") == Get(Remove(dc, "Tags"), "Tags");
    r
  }

  /** Lines 235-242: the default cache behaviour, when it is a dict. */
  function FixDefaultBehavior(dc: seq<Entry<Json>>): (r: Fix)
    ensures forall k :: k != "DefaultCacheBehavior" ==> Get(r.props, k) == Get(dc, k)
    ensures Get(dc, "DefaultCacheBehavior").Some? && Get(dc, "DefaultCacheBehavior").value.JObj? ==>
      && Get(r.props, "DefaultCacheBehavior").Some?
      && !HasOriginId(Get(r.props, "DefaultCacheBehavior").value)
      && Get(r.props, "DefaultCacheBehavior").value.JObj?
      && (r.changed <==> HasOriginId(Get(dc, "DefaultCacheBehavior").value))
    ensures !(Get(dc, "DefaultCacheBehavior").Some? && Get(dc, "DefaultCacheBehavior").value.JObj?) ==> r == Fix(dc, false)
  {
    var b := Get(dc, "DefaultCacheBehavior");
    if b.Some? && b.value.JObj? then
      var f := FixOrigin(b.value.fields);
      Fix(Put(dc, "DefaultCacheBehavior", JObj(f.props)), f.changed)
    else Fix(dc, false)
  }

  /** Lines 243-249: `dist_cfg.get('CacheBehaviors') or []` is iterated; a
      truthy number or `true` cannot be and raises, a dict or string yields
      nothing that is a dict. */
  function FixCacheBehaviors(dc: seq<Entry<Json>>): (r: Try<Fix>)
    ensures r.Raises? <==>
      Get(dc, "CacheBehaviors").Some? && Truthy(Get(dc, "CacheBehaviors").value)
      && (Get(dc, "CacheBehaviors").value.JNum? || Get(dc, "CacheBehaviors").value.JBool?)
    ensures r.Ok? ==> forall k :: k != "CacheBehaviors" ==> Get(r.value.props, k) == Get(dc, k)
    ensures r.Ok? && Get(dc, "CacheBehaviors").Some? && Get(dc, "CacheBehaviors").value.JArr? ==>
      && Get(r.value.props, "CacheBehaviors").Some?
      && var items := Get(r.value.props, "CacheBehaviors").value;
      && items.JArr? && |items.items| == |Get(dc, "CacheBehaviors").value.items|
      && forall i :: 0 <= i < |items.items| ==> !HasOriginId(items.items[i])
    ensures r.Ok? && !(Get(dc, "CacheBehaviors").Some? && Get(dc, "CacheBehaviors").value.JArr?) ==> r.value == Fix(dc, false)
  {
    var cbs := Get(dc, "CacheBehaviors");
    if cbs.Some? && Truthy(cbs.value) && (cbs.value.JNum? || cbs.value.JBool?) then Raises
    else if cbs.Some? && cbs.value.JArr? then
      var fl := FixBehaviorList(cbs.value.items);
      Ok(Fix(Put(dc, "CacheBehaviors", JArr(fl.0)), fl.1))
    else Ok(Fix(dc, false))
  }

  /** Lines 235-249: both kinds of cache behaviour lose `OriginId`. */
  function FixBehaviors(dc: seq<Entry<Json>>): (r: Try<Fix>)
    ensures r.Ok? ==> forall k :: k != "DefaultCacheBehavior" && k != "CacheBehaviors" ==> Get(r.value.props, k) == Get(dc, k)
    ensures r.Ok? && Get(dc, "DefaultCacheBehavior").Some? && Get(dc, "DefaultCacheBehavior").value.JObj? ==>
      Get(r.value.props, "DefaultCacheBehavior").Some? && !HasOriginId(Get(r.value.props, "DefaultCacheBehavior").value)
  {
    var d := FixDefaultBehavior(dc);
    var c :- FixCacheBehaviors(d.props);
    assert Get(c.props, "DefaultCacheBehavior") == Get(d.props, "DefaultCacheBehavior");
    Ok(Fix(c.props, d.changed || c.changed))
  }

  /** Lines 227-234: the distribution's tags lifted to the resource, then
      the cleaned DistributionConfig `cfg` stored back. */
  function InstallConfig(props: seq<Entry<Json>>, tags: Option<Json>, cfg: seq<Entry<Json>>): (r: seq<Entry<Json>>)
    ensures Get(r, "DistributionConfig") == Some(JObj(cfg))
    ensures Get(props, "Tags").Some? ==> Get(r, "Tags") == Get(props, "Tags")
  {
    var lifted := LiftTags(props, tags);
    var out := Put(lifted, "DistributionConfig", JObj(cfg));
    assert Get(out, "Tags") == Get(lifted, "Tags");
    out
  }

  /** Lines 225-249 on the dict-valued DistributionConfig `dc` of `props`. */
  function FixDistributionConfig(props: seq<Entry<Json>>, dc: seq<Entry<Json>>): (r: Try<Fix>)
    ensures r.Ok? ==>
      && Get(r.value.props, "DistributionConfig").Some?
      && var dc' := Get(r.value.props, "DistributionConfig").value;
      && dc'.JObj?
      && Get(dc'.fields, "Tags") == None && Get(dc'.fields, "ViewerProtocolPolicy") == None
      && (Get(props, "Tags").Some? ==> Get(r.value.props, "Tags") == Get(props, "Tags"))
  {
    var dc2 := ScrubConfig(dc);
    match FixBehaviors(dc2)
    case Raises => Raises
    case Ok(b) =>
      assert Get(b.props, "Tags") == Get(dc2, "Tags");
      assert Get(b.props, "ViewerProtocolPolicy") == Get(dc2, "ViewerProtocolPolicy");
      var changed := Get(dc, "Tags").Some? || Get(dc, "ViewerProtocolPolicy").Some? || b.changed;
      Ok(Fix(InstallConfig(props, Get(dc, "Tags"), b.props), changed))
  }

  /** Lines 224-249: a dict-valued DistributionConfig is fixed; anything else is left alone. */
  function FixDistribution(props: seq<Entry<Json>>): (r: Try<Fix>)
    ensures var g: Option<Json> := Get(props, "DistributionConfig");
      g.Some? && g.value.JObj? ==> r == FixDistributionConfig(props, g.value.fields)
    ensures var g: Option<Json> := Get(props, "DistributionConfig");
      !(g.Some? && g.value.JObj?) ==> r == Ok(Fix(props, false))
  {
    var g: Option<Json> := Get(props, "DistributionConfig");
    if g.Some? && g.value.JObj? then FixDistributionConfig(props, g.value.fields)
    else Ok(Fix(props, false))
  }

  // ---------------------------------------------------------------------------
  // AWS::EC2::Instance
  // ---------------------------------------------------------------------------

  predicate IsTaggedSpec(spec: Json) {
    spec.JObj? && Get(spec.fields, "Tags").Some?
  }

  /** Index of the first dict among the TagSpecifications that carries `Tags`. */
  function FirstTaggedSpec(specs: seq<Json>, from: nat): (r: Option<nat>)
    requires from <= |specs|
    ensures r.Some? ==> from <= r.value < |specs| && IsTaggedSpec(specs[r.value])
    ensures r.Some? ==> forall j :: from <= j < r.value ==> !IsTaggedSpec(specs[j])
    ensures r.None? ==> forall j :: from <= j < |specs| ==> !IsTaggedSpec(specs[j])
    decreases |specs| - from
  {
    if from == |specs| then None
    else if IsTaggedSpec(specs[from]) then Some(from)
    else FirstTaggedSpec(specs, from + 1)
  }

  /** Lines 250-261: `TagSpecifications` is always removed; the first
      specification's `Tags` become the instance's `Tags` unless it already
      has some. */
  function FixInstance(props: seq<Entry<Json>>): (r: Fix)
    ensures Get(r.props, "TagSpecifications") == None
    ensures r.changed <==> Get(props, "TagSpecifications").Some?
    ensures Get(props, "Tags").Some? ==> Get(r.props, "Tags") == Get(props, "Tags")
    ensures Get(props, "Tags") == None ==>
      var g: Option<Json> := Get(props, "TagSpecifications");
      match g
      case Some(JArr(specs)) =>
        (match FirstTaggedSpec(specs, 0)
         case Some(i) => Get(r.props, "Tags") == Get(specs[i].fields, "Tags")
         case None => Get(r.props, "Tags") == None)
      case _ => Get(r.props, "Tags") == None
    ensures forall k :: k != "Tags" && k != "TagSpecifications" ==> Get(r.props, k) == Get(props, k)
  {
    var props1 :=
      var g: Option<Json> := Get(props, "TagSpecifications");
      match g
      case Some(JArr(specs)) =>
        (match FirstTaggedSpec(specs, 0)
         case Some(i) =>
           if Get(props, "Tags") == None then Put(props, "Tags", Get(specs[i].fields, "Tags").value) else props
         case None => props)
      case _ => props;
    Fix(Remove(props1, "TagSpecifications"), Get(props, "TagSpecifications").Some?)
  }

  // ---------------------------------------------------------------------------
  // AWS::ApiGateway::Resource
  // ---------------------------------------------------------------------------

  /** The characters line 272 allows in a literal path part. */
  predicate PathPartChar(c: char) {
    ('a' <= c <= 'z') || ('A' <= c <= 'Z') || ('0' <= c <= '9') || c == '.' || c == '_' || c == '-' || c == ':'
  }

  /** Line 273: each disallowed character becomes `_`. */
  function SanitizePathPart(part: string): (r: string)
    ensures |r| == |part|
    ensures forall i :: 0 <= i < |part| ==> r[i] == (if PathPartChar(part[i]) then part[i] else '_')
  {
    if |part| == 0 then [] else [if PathPartChar(part[0]) then part[0] else '_'] + SanitizePathPart(part[1..])
  }

  /** Sanitising is idempotent, and its results are exactly the strings made of allowed characters. */
  lemma SanitizeIsIdempotent(part: string)
    ensures SanitizePathPart(SanitizePathPart(part)) == SanitizePathPart(part)
    ensures (SanitizePathPart(part) == part) <==> (forall i :: 0 <= i < |part| ==> PathPartChar(part[i]))
  {
    var once := SanitizePathPart(part);
    var twice := SanitizePathPart(once);
    assert forall i :: 0 <= i < |once| ==> PathPartChar(once[i]);
    assert |twice| == |once| && forall i :: 0 <= i < |once| ==> twice[i] == once[i];
    if SanitizePathPart(part) == part {
      assert forall i :: 0 <= i < |part| ==> PathPartChar(part[i]) by {
        forall i | 0 <= i < |part| ensures PathPartChar(part[i]) {
          assert once[i] == part[i];
        }
      }
    }
  }

  /** Line 267: the text between the braces, stripped, without spaces and with `-` turned into `_`. */
  function BracedInner(part: string): (r: string)
    requires |part| >= 2
    ensures ' ' !in r && '-' !in r
  {
    MapChar(DeleteChar(Strip(part[1..|part| - 1]), ' '), '-', '_')
  }

  /** The braced text is the two `replace` calls of line 267, in source order. */
  lemma BracedInnerIsReplace(part: string)
    requires |part| >= 2
    ensures BracedInner(part) == ReplaceAll(ReplaceAll(Strip(part[1..|part| - 1]), " ", ""), "-", "_")
  {
    DeleteCharIsReplace(Strip(part[1..|part| - 1]), ' ');
    MapCharIsReplace(DeleteChar(Strip(part[1..|part| - 1]), ' '), '-', '_');
  }

  /** A value present and a string. */
  predicate IsText(v: Option<Json>) {
    v.Some? && v.value.JStr?
  }

  predicate IsBraced(part: string) {
    |part| >= 2 && part[0] == '{' && part[|part| - 1] == '}'
  }

  /** What lines 264-276 promise for a stripped PathPart text `part`: a
      braced one changes exactly when its cleaned inner name is non-empty
      and differs, and then becomes that name in braces; any other one
      changes exactly when it has a disallowed character, and then becomes
      its sanitised form. */
  predicate PartFixed(part: string, r: Fix) {
    if IsBraced(part) then
      && (r.changed <==> |BracedInner(part)| > 0 && BracedInner(part) != part[1..|part| - 1])
      && (r.changed ==> Get(r.props, "PathPart") == Some(JStr("{" + BracedInner(part) + "}")))
    else
      && (r.changed <==> exists i :: 0 <= i < |part| && !PathPartChar(part[i]))
      && (r.changed ==> Get(r.props, "PathPart") == Some(JStr(SanitizePathPart(part))))
  }

  /** Lines 264-276 for a stripped PathPart text. */
  function FixPartText(props: seq<Entry<Json>>, part: string): (r: Fix)
    ensures forall k :: k != "PathPart" ==> Get(r.props, k) == Get(props, k)
    ensures PartFixed(part, r)
    ensures !r.changed ==> r.props == props
  {
    if IsBraced(part) then
      var inner := BracedInner(part);
      if |inner| > 0 && inner != part[1..|part| - 1] then Fix(Put(props, "PathPart", JStr("{" + inner + "}")), true)
      else Fix(props, false)
    else
      var fixed := SanitizePathPart(part);
      SanitizeIsIdempotent(part);
      if fixed != part then Fix(Put(props, "PathPart", JStr(fixed)), true)
      else Fix(props, false)
  }

  /** Lines 262-276: only a text PathPart is rewritten, after stripping;
      every other key is kept. */
  function FixPathPart(props: seq<Entry<Json>>): (r: Fix)
    ensures forall k :: k != "PathPart" ==> Get(r.props, k) == Get(props, k)
    ensures !IsText(Get(props, "PathPart")) ==> r == Fix(props, false)
    ensures IsText(Get(props, "PathPart")) ==> PartFixed(Strip(Get(props, "PathPart").value.s), r)
    ensures !r.changed ==> r.props == props
  {
    var g := Get(props, "PathPart");
    if IsText(g) then FixPartText(props, Strip(g.value.s)) else Fix(props, false)
  }

  // ---------------------------------------------------------------------------
  // AWS::Logs::LogGroup
  // ---------------------------------------------------------------------------

  /** The value line 280 gives every non-blank LogGroupName. */
  const StackScopedLogName := JObj([Entry("Fn::Sub", JStr("/app/${AWS::StackName}"))])

  /** Lines 277-281: a non-blank string LogGroupName is replaced by a name
      scoped to the stack; anything else is kept. */
  function FixLogGroup(props: seq<Entry<Json>>): (r: Fix)
    ensures r.changed <==> (Get(props, "LogGroupName").Some? && Get(props, "LogGroupName").value.JStr?
                            && Strip(Get(props, "LogGroupName").value.s) != "")
    ensures r.changed ==> Get(r.props, "LogGroupName") == Some(StackScopedLogName)
    ensures !r.changed ==> r.props == props
    ensures forall k :: k != "LogGroupName" ==> Get(r.props, k) == Get(props, k)
  {
    var g: Option<Json> := Get(props, "LogGroupName");
    match g
    case Some(JStr(name)) =>
      if Strip(name) != "" then Fix(Put(props, "LogGroupName", StackScopedLogName), true)
      else Fix(props, false)
    case _ => Fix(props, false)
  }

  // ---------------------------------------------------------------------------
  // AWS::S3::Bucket
  // ---------------------------------------------------------------------------

  /** Line 286: the logical id lower-cased, `_` turned into `-`, at most 40 characters. */
  function SafeId(logicalId: string): (r: string)
    ensures |r| == (if |logicalId| <= 40 then |logicalId| else 40)
    ensures forall i :: 0 <= i < |r| ==> r[i] == (if logicalId[i] == '_' then '-' else LowerChar(logicalId[i]))
    ensures '_' !in r && forall i :: 0 <= i < |r| ==> !('A' <= r[i] <= 'Z')
  {
    var m := MapChar(Lower(logicalId), '_', '-');
    if |m| <= 40 then m else m[..40]
  }

  /** The text before the suffix reference in the name line 287 builds. */
  const BucketNameHead := "app-${AWS::AccountId}-${"

  /** Line 287: the `Fn::Sub` name a bucket is given,
      `app-${AWS::AccountId}-${BucketNameSuffix}-` and the safe id. */
  function SuffixedBucketName(logicalId: string): Json {
    JObj([Entry("Fn::Sub", JStr(BucketNameHead + SuffixParamName + ("}-" + SafeId(logicalId))))])
  }

  /** Line 289: the parameter declaration added for the suffix. */
  const SuffixParameter := JObj([Entry("Type", JStr("String")), Entry("Default", JStr(""))])

  /** The name a bucket is given passes the suffix test of lines 167-172:
      the reference survives `json.dumps` unchanged. */
  lemma SuffixedNameMentionsSuffix(logicalId: string)
    ensures MentionsSuffix(SuffixedBucketName(logicalId))
  {
    EscapedSpellsSuffix(BucketNameHead, "}-" + SafeId(logicalId));
    var fields := SuffixedBucketName(logicalId).fields;
    assert DumpMentionsSuffix(fields[0].val);
  }

  /** Line 285: whether a BucketName already refers to the suffix parameter.
      An absent or null name does not. */
  predicate NameUsesSuffix(name: Option<Json>) {
    name.Some? && MentionsSuffix(name.value)
  }

  /** Props, parameters and flag after a rule that may also touch `Parameters`. */
  datatype Step = Step(props: seq<Entry<Json>>, params: Json, changed: bool)

  /** Lines 288-289: the suffix parameter is declared unless `params` already
      holds it. The membership test raises on null, booleans and numbers, and the
      assignment raises on anything but a dict. */
  function DeclareSuffix(params: Json): (r: Try<Json>)
    ensures r.Ok? ==> PyContains(r.value, SuffixParamName) == Ok(true)
    ensures r.Raises? <==> !params.JObj? && PyContains(params, SuffixParamName) != Ok(true)
    ensures PyContains(params, SuffixParamName) == Ok(true) ==> r == Ok(params)
    ensures params.JObj? && PyContains(params, SuffixParamName) != Ok(true) ==>
      && r.Ok? && r.value.JObj?
      && Get(r.value.fields, SuffixParamName) == Some(SuffixParameter)
      && forall k :: k != SuffixParamName ==> Get(r.value.fields, k) == Get(params.fields, k)
  {
    var has :- PyContains(params, SuffixParamName);
    if has then Ok(params)
    else if params.JObj? then Ok(JObj(Put(params.fields, SuffixParamName, SuffixParameter)))
    else Raises
  }

  /** Lines 282-290: a bucket whose name does not mention the suffix is given
      a suffixed `Fn::Sub` name and the suffix parameter is declared. */
  function FixBucket(logicalId: string, props: seq<Entry<Json>>, params: Json): (r: Try<Step>)
    ensures NameUsesSuffix(Get(props, "BucketName")) ==> r == Ok(Step(props, params, false))
    ensures r.Ok? ==> forall k :: k != "BucketName" ==> Get(r.value.props, k) == Get(props, k)
    ensures !NameUsesSuffix(Get(props, "BucketName")) ==>
      match DeclareSuffix(params)
      case Ok(params') =>
        && r.Ok? && r.value.params == params' && r.value.changed
        && Get(r.value.props, "BucketName") == Some(SuffixedBucketName(logicalId))
      case Raises => r.Raises?
  {
    if NameUsesSuffix(Get(props, "BucketName")) then Ok(Step(props, params, false))
    else
      var props' := Put(props, "BucketName", SuffixedBucketName(logicalId));
      var params' :- DeclareSuffix(params);
      Ok(Step(props', params', true))
  }

  /** After the rule every bucket's name refers to the suffix parameter. */
  lemma FixBucketNamesSuffix(logicalId: string, props: seq<Entry<Json>>, params: Json)
    requires FixBucket(logicalId, props, params).Ok?
    ensures NameUsesSuffix(Get(FixBucket(logicalId, props, params).value.props, "BucketName"))
  {
    SuffixedNameMentionsSuffix(logicalId);
  }

  // ---------------------------------------------------------------------------
  // AWS::S3::BucketPolicy
  // ---------------------------------------------------------------------------

  /** Lines 291-302: `PolicyText` is always popped; when it was not null and
      no `PolicyDocument` exists it becomes the `PolicyDocument`, parsed as
      JSON when it is a string that parses. Only that case sets `changed`. */
  function FixBucketPolicy(codec: Codec, props: seq<Entry<Json>>): (r: Fix)
    ensures Get(r.props, "PolicyText") == None
    ensures Get(props, "PolicyDocument").Some? ==> Get(r.props, "PolicyDocument") == Get(props, "PolicyDocument")
    ensures r.changed <==> (Get(props, "PolicyText").Some? && Get(props, "PolicyText").value != JNull && Get(props, "PolicyDocument") == None)
    ensures r.changed ==> Get(r.props, "PolicyDocument").Some?
    ensures r.changed ==>
              var t := Get(props, "PolicyText").value;
              Get(r.props, "PolicyDocument") == Some(if t.JStr? then codec.parseJson(t.s).GetOr(t) else t)
    ensures !r.changed ==> Get(r.props, "PolicyDocument") == Get(props, "PolicyDocument")
    ensures forall k :: k != "PolicyText" && k != "PolicyDocument" ==> Get(r.props, k) == Get(props, k)
  {
    var text := Get(props, "PolicyText");
    var rest := Remove(props, "PolicyText");
    if text.Some? && text.value != JNull && Get(rest, "PolicyDocument") == None then
      var doc := if text.value.JStr? then codec.parseJson(text.value.s).GetOr(text.value) else text.value;
      Fix(Put(rest, "PolicyDocument", doc), true)
    else Fix(rest, false)
  }

  /** Dropping a `PolicyText` that is null, or that an existing
      `PolicyDocument` overrides, edits the properties without reporting a
      change. */
  lemma PolicyTextDroppedSilently(codec: Codec, props: seq<Entry<Json>>)
    requires HasKey(props, "PolicyText")
    requires Get(props, "PolicyText") == Some(JNull) || HasKey(props, "PolicyDocument")
    ensures !FixBucketPolicy(codec, props).changed && FixBucketPolicy(codec, props).props != props
  {
  }
}

=== FILE: text.dfy ===
/** Python `str` operations the server and the handlers rely on, on `seq<char>`. */
module Text {

  /** Python's `str.isspace()`, which is also what `str.strip()` removes and
      what the regular-expression class `\s` matches on `str` patterns. */
  predicate IsSpace(c: char) {
    || c == ' ' || c == '\t' || c == '\n' || c == '\r' || c == '\U{0B}' || c == '\U{0C}'
    || c == '\U{1C}' || c == '\U{1D}' || c == '\U{1E}' || c == '\U{1F}'
    || c == '\U{85}' || c == '\U{A0}' || c == '\U{1680}'
    || ('\U{2000}' <= c <= '\U{200A}')
    || c == '\U{2028}' || c == '\U{2029}' || c == '\U{202F}' || c == '\U{205F}' || c == '\U{3000}'
  }

  /** `s.lstrip()` */
  function LStrip(s: string): (r: string)
    ensures |r| <= |s| && r == s[|s| - |r|..]
    ensures |r| == 0 || !IsSpace(r[0])
    ensures forall i :: 0 <= i < |s| - |r| ==> IsSpace(s[i])
  {
    if |s| > 0 && IsSpace(s[0]) then LStrip(s[1..]) else s
  }

  /** `s.rstrip()` */
  function RStrip(s: string): (r: string)
    ensures |r| <= |s| && r == s[..|r|]
    ensures |r| == 0 || !IsSpace(r[|r| - 1])
    ensures forall i :: |r| <= i < |s| ==> IsSpace(s[i])
  {
    if |s| > 0 && IsSpace(s[|s| - 1]) then RStrip(s[..|s| - 1]) else s
  }

  /** `s.strip()` */
  function Strip(s: string): string {
    RStrip(LStrip(s))
  }

  predicate IsStripped(s: string) {
    |s| == 0 || (!IsSpace(s[0]) && !IsSpace(s[|s| - 1]))
  }

  lemma StripIsStripped(s: string)
    ensures IsStripped(Strip(s))
  {
    var l := LStrip(s);
    var r := RStrip(l);
    if |r| > 0 {
      assert r[0] == l[0];
    }
  }

  /** Stripping a string that has nothing to strip leaves it alone. */
  lemma StripOfStripped(s: string)
    requires IsStripped(s)
    ensures Strip(s) == s
  {
  }

  predicate StartsWith(s: string, prefix: string) {
    |prefix| <= |s| && s[..|prefix|] == prefix
  }

  /** `text.strip().startswith('{')` */
  predicate IsJsonText(text: string) {
    StartsWith(Strip(text), "{")
  }

  predicate EndsWith(s: string, suffix: string) {
    |suffix| <= |s| && s[|s| - |suffix|..] == suffix
  }

  /** `needle` occurs in `s` starting at index `i`. */
  predicate OccursAt(s: string, needle: string, i: int) {
    0 <= i && i + |needle| <= |s| && s[i..i + |needle|] == needle
  }

  /** Python's `needle in s` for two strings. */
  predicate Contains(s: string, needle: string) {
    exists i | 0 <= i <= |s| :: OccursAt(s, needle, i)
  }

  /** A string contains every piece of anything it contains. */
  lemma ContainsPiece(s: string, a: string, b: string)
    requires Contains(s, a + b)
    ensures Contains(s, a) && Contains(s, b)
  {
    var i :| 0 <= i <= |s| && OccursAt(s, a + b, i);
    assert s[i..i + |a|] == (a + b)[..|a|];
    assert OccursAt(s, a, i);
    assert s[i + |a|..i + |a| + |b|] == (a + b)[|a|..];
    assert OccursAt(s, b, i + |a|);
  }

  lemma ContainsSelf(s: string)
    ensures Contains(s, s)
  {
    assert s[0..|s|] == s;
    assert OccursAt(s, s, 0);
  }

  lemma ContainsInSuffix(s: string, k: nat, needle: string)
    requires k <= |s| && Contains(s[k..], needle)
    ensures Contains(s, needle)
  {
    var i :| 0 <= i <= |s[k..]| && OccursAt(s[k..], needle, i);
    assert s[k + i..k + i + |needle|] == s[k..][i..i + |needle|];
    assert OccursAt(s, needle, k + i);
  }

  /** An occurrence in `s` either starts at index 0 or lies in `s[1..]`. */
  lemma ContainsSplitFirst(s: string, needle: string)
    requires Contains(s, needle) && |s| > 0
    ensures OccursAt(s, needle, 0) || Contains(s[1..], needle)
  {
    var i :| 0 <= i <= |s| && OccursAt(s, needle, i);
    if i > 0 {
      assert s[1..][i - 1..i - 1 + |needle|] == s[i..i + |needle|];
      assert OccursAt(s[1..], needle, i - 1);
    }
  }

  /** Python's `str.lower()` on ASCII letters; other characters are kept. */
  function LowerChar(c: char): char {
    if 'A' <= c <= 'Z' then (c as int + 32) as char else c
  }

  function Lower(s: string): (r: string)
    ensures |r| == |s|
    ensures forall i :: 0 <= i < |s| ==> r[i] == LowerChar(s[i])
  {
    if |s| == 0 then [] else [LowerChar(s[0])] + Lower(s[1..])
  }

  /** Lower-casing works character by character, so it distributes over concatenation. */
  lemma LowerAppend(a: string, b: string)
    ensures Lower(a + b) == Lower(a) + Lower(b)
  {
    assert forall i | 0 <= i < |a + b| :: Lower(a + b)[i] == (Lower(a) + Lower(b))[i];
  }

  /** An occurrence survives lower-casing both sides. */
  lemma LowerOccurs(s: string, needle: string, i: int)
    requires OccursAt(s, needle, i)
    ensures OccursAt(Lower(s), Lower(needle), i)
  {
    assert forall k | 0 <= k < |needle| :: Lower(s)[i + k] == Lower(needle)[k];
    assert Lower(s)[i..i + |needle|] == Lower(needle);
  }

  /** Python's `s.replace(pat, rep)`: every non-overlapping occurrence of
      `pat`, scanning left to right, is replaced. */
  function ReplaceAll(s: string, pat: string, rep: string): (r: string)
    requires |pat| > 0
    decreases |s|
  {
    if |s| < |pat| then s
    else if s[..|pat|] == pat then rep + ReplaceAll(s[|pat|..], pat, rep)
    else [s[0]] + ReplaceAll(s[1..], pat, rep)
  }

  /** Replacing a string that does not occur changes nothing. */
  lemma {:induction false} ReplaceAbsent(s: string, pat: string, rep: string)
    requires |pat| > 0 && !Contains(s, pat)
    ensures ReplaceAll(s, pat, rep) == s
    decreases |s|
  {
    if |s| < |pat| {
    } else {
      assert s[0..|pat|] == s[..|pat|];
      if OccursAt(s, pat, 0) {
      } else if Contains(s[1..], pat) {
        ContainsInSuffix(s, 1, pat);
      } else {
        ReplaceAbsent(s[1..], pat, rep);
      }
    }
  }

  /** Replacing a string that occurs leaves the replacement in the text. */
  lemma {:induction false} ReplacePresent(s: string, pat: string, rep: string)
    requires |pat| > 0 && Contains(s, pat)
    ensures Contains(ReplaceAll(s, pat, rep), rep)
    decreases |s|
  {
    var i :| 0 <= i <= |s| && OccursAt(s, pat, i);
    var r := ReplaceAll(s, pat, rep);
    if s[..|pat|] == pat {
      assert r[0..|rep|] == rep;
      assert OccursAt(r, rep, 0);
    } else {
      ContainsSplitFirst(s, pat);
      assert s[0..|pat|] == s[..|pat|];
      ReplacePresent(s[1..], pat, rep);
      assert r[1..] == ReplaceAll(s[1..], pat, rep);
      ContainsInSuffix(r, 1, rep);
    }
  }

  /** `s.replace(c, d)` for single characters. */
  function MapChar(s: string, c: char, d: char): (r: string)
    ensures |r| == |s|
    ensures forall i :: 0 <= i < |s| ==> r[i] == (if s[i] == c then d else s[i])
  {
    if |s| == 0 then [] else [if s[0] == c then d else s[0]] + MapChar(s[1..], c, d)
  }

  /** Mapping one character is Python's `replace` with one-character strings. */
  lemma {:induction false} MapCharIsReplace(s: string, c: char, d: char)
    ensures MapChar(s, c, d) == ReplaceAll(s, [c], [d])
    decreases |s|
  {
    if |s| > 0 {
      assert s[..1] == [s[0]];
      MapCharIsReplace(s[1..], c, d);
    }
  }

  /** `s.replace(c, '')` */
  function DeleteChar(s: string, c: char): (r: string)
    ensures |r| <= |s|
    ensures forall i :: 0 <= i < |r| ==> r[i] != c
    ensures c !in s ==> r == s
  {
    if |s| == 0 then [] else (if s[0] == c then [] else [s[0]]) + DeleteChar(s[1..], c)
  }

  /** Deleting a character works piece by piece: the other characters keep
      their order. */
  lemma {:induction false} DeleteCharAppend(a: string, b: string, c: char)
    ensures DeleteChar(a + b, c) == DeleteChar(a, c) + DeleteChar(b, c)
    decreases |a|
  {
    if |a| == 0 {
      assert a + b == b;
    } else {
      assert (a + b)[0] == a[0] && (a + b)[1..] == a[1..] + b;
      DeleteCharAppend(a[1..], b, c);
    }
  }

  /** Deleting a character is Python's `replace` with the empty string. */
  lemma {:induction false} DeleteCharIsReplace(s: string, c: char)
    ensures DeleteChar(s, c) == ReplaceAll(s, [c], "")
    decreases |s|
  {
    if |s| > 0 {
      assert s[..1] == [s[0]];
      DeleteCharIsReplace(s[1..], c);
    }
  }

  /** Python's `s.split(sep)` with a one-character separator: never empty,
      and `""` splits to `[""]`. */
  function Split(s: string, sep: char): (parts: seq<string>)
    ensures |parts| >= 1
    ensures forall i :: 0 <= i < |parts| ==> sep !in parts[i]
  {
    if |s| == 0 then [""]
    else
      var rest := Split(s[1..], sep);
      if s[0] == sep then [""] + rest
      else [[s[0]] + rest[0]] + rest[1..]
  }

  /** Text without the separator is one piece. */
  lemma {:induction false} SplitNoSep(s: string, sep: char)
    requires sep !in s
    ensures Split(s, sep) == [s]
  {
    if |s| > 0 {
      assert sep !in s[1..] by {
        assert forall c | c in s[1..] :: c in s;
      }
      SplitNoSep(s[1..], sep);
      assert [s[0]] + s[1..] == s;
    }
  }

  /** Splitting at a separator splits the two sides independently. */
  lemma {:induction false} SplitAppend(a: string, b: string, sep: char)
    ensures Split(a + [sep] + b, sep) == Split(a, sep) + Split(b, sep)
  {
    if |a| == 0 {
      assert a + [sep] + b == [sep] + b;
      assert ([sep] + b)[1..] == b;
    } else {
      var s := a + [sep] + b;
      assert s[0] == a[0] && s[1..] == a[1..] + [sep] + b;
      SplitAppend(a[1..], b, sep);
      var head := Split(a[1..], sep);
      if a[0] != sep {
        assert (head + Split(b, sep))[0] == head[0];
        assert (head + Split(b, sep))[1..] == head[1..] + Split(b, sep);
      }
    }
  }

  /** Python's `sep.join(parts)` with a one-character separator. */
  function Join(sep: char, parts: seq<string>): string {
    if |parts| == 0 then ""
    else if |parts| == 1 then parts[0]
    else parts[0] + [sep] + Join(sep, parts[1..])
  }

  /** Joining what was split restores the text. */
  lemma {:induction false} JoinSplit(s: string, sep: char)
    ensures Join(sep, Split(s, sep)) == s
  {
    if |s| == 0 {
    } else {
      var rest := Split(s[1..], sep);
      JoinSplit(s[1..], sep);
      if s[0] == sep {
        assert Split(s, sep) == [""] + rest;
      } else {
        var parts := Split(s, sep);
        assert parts == [[s[0]] + rest[0]] + rest[1..];
        if |rest| == 1 {
          assert Join(sep, parts) == [s[0]] + rest[0];
        } else {
          assert Join(sep, rest) == rest[0] + [sep] + Join(sep, rest[1..]);
          assert parts[1..] == rest[1..];
        }
      }
    }
  }

  /** Splitting what was joined restores the pieces, provided no piece holds
      the separator. */
  lemma {:induction false} SplitJoin(parts: seq<string>, sep: char)
    requires |parts| >= 1
    requires forall i :: 0 <= i < |parts| ==> sep !in parts[i]
    ensures Split(Join(sep, parts), sep) == parts
    decreases |parts|, |parts[0]|
  {
    var p := parts[0];
    if |p| == 0 {
      if |parts| == 1 {
      } else {
        var tail := Join(sep, parts[1..]);
        assert Join(sep, parts) == [sep] + tail;
        SplitJoin(parts[1..], sep);
        assert ([sep] + tail)[1..] == tail;
      }
    } else {
      var shorter := [p[1..]] + parts[1..];
      assert p[0] !in p[1..] || p[0] in p;
      forall i | 0 <= i < |shorter| ensures sep !in shorter[i] {
        if i == 0 {
          assert forall c :: c in p[1..] ==> c in p;
        } else {
          assert shorter[i] == parts[i];
        }
      }
      SplitJoin(shorter, sep);
      var whole := Join(sep, parts);
      if |parts| == 1 {
        assert whole == p;
        assert whole[1..] == Join(sep, shorter);
      } else {
        assert whole == p + [sep] + Join(sep, parts[1..]);
        assert Join(sep, shorter) == p[1..] + [sep] + Join(sep, parts[1..]);
        assert whole[1..] == Join(sep, shorter);
      }
      assert whole[0] == p[0] && p[0] != sep;
      assert Split(whole, sep) == [[p[0]] + Split(whole[1..], sep)[0]] + Split(whole[1..], sep)[1..];
      assert [p[0]] + p[1..] == p;
    }
  }

  /** The line boundaries Python's `str.splitlines()` recognises. */
  predicate IsLineBreak(c: char) {
    || c == '\n' || c == '\r' || c == '\U{0B}' || c == '\U{0C}'
    || c == '\U{1C}' || c == '\U{1D}' || c == '\U{1E}'
    || c == '\U{85}' || c == '\U{2028}' || c == '\U{2029}'
  }

  /** Index of the first line boundary, or `|s|`. */
  function FirstBreak(s: string): (i: nat)
    ensures i <= |s|
    ensures i < |s| ==> IsLineBreak(s[i])
    ensures forall j :: 0 <= j < i ==> !IsLineBreak(s[j])
  {
    if |s| == 0 || IsLineBreak(s[0]) then 0 else 1 + FirstBreak(s[1..])
  }

  /** Python's `s.splitlines()`: no trailing empty line for a final boundary,
      and `"\r\n"` counts as one boundary. */
  function SplitLines(s: string): (lines: seq<string>)
    ensures forall k :: 0 <= k < |lines| ==> forall c :: c in lines[k] ==> !IsLineBreak(c)
    decreases |s|
  {
    if |s| == 0 then []
    else
      var i := FirstBreak(s);
      if i == |s| then [s]
      else
        var skip := if s[i] == '\r' && i + 1 < |s| && s[i + 1] == '\n' then 2 else 1;
        [s[..i]] + SplitLines(s[i + skip..])
  }

  function DigitChar(d: nat): char
    requires d < 10
  {
    "0123456789"[d]
  }

  predicate IsDigit(c: char) {
    '0' <= c <= '9'
  }

  /** Python's `str(n)` for a natural number. */
  function NatToString(n: nat): (r: string)
    ensures |r| >= 1
    ensures forall i :: 0 <= i < |r| ==> IsDigit(r[i])
  {
    if n < 10 then [DigitChar(n)] else NatToString(n / 10) + [DigitChar(n % 10)]
  }

  /** Python's `s[-k:]` for `k > 0`. */
  function TakeLast(s: string, k: nat): (r: string)
    ensures |r| == if |s| < k then |s| else k
    ensures r == s[|s| - |r|..]
  {
    if |s| <= k then s else s[|s| - k..]
  }
}

=== FILE: validation.dfy ===
/** The template text handed to CloudFormation's validator
    (mcp_server.py:1148-1157). */
module Validation {
  import opened Text
  import opened Json

  /** `s.replace("\t", "  ")`, character by character. */
  function ExpandTabs(s: string): (r: string)
    ensures '\t' !in r
    ensures '\t' !in s ==> r == s
    ensures |s| > 0 && s[0] != '\t' ==> |r| > 0 && r[0] == s[0]
    ensures |s| > 0 && s[|s| - 1] != '\t' ==> |r| > 0 && r[|r| - 1] == s[|s| - 1]
    decreases |s|
  {
    if |s| == 0 then []
    else
      var head := if s[0] == '\t' then "  " else [s[0]];
      var rest := ExpandTabs(s[1..]);
      assert '\t' !in s ==> '\t' !in s[1..];
      head + rest
  }

  /** The character-wise expansion is Python's `replace` with a one-character pattern. */
  lemma {:induction false} ExpandTabsIsReplace(s: string)
    ensures ExpandTabs(s) == ReplaceAll(s, "\t", "  ")
    decreases |s|
  {
    if |s| > 0 {
      ExpandTabsIsReplace(s[1..]);
      assert s[..1] == [s[0]];
    }
  }

  /** Lines 1148-1157: `None` gives the empty text; a dict is dumped as JSON
      (`dumpJson` stands for `json.dumps(..., indent=2)`); anything else is
      its `str()` (`show` for values that are not strings), stripped, with
      each tab widened to two spaces. */
  function NormalizeForValidation(body: Json, dumpJson: Json -> string, show: Json -> string): (r: string)
    ensures body.JNull? ==> r == ""
    ensures body.JObj? ==> r == dumpJson(body)
    ensures !body.JNull? && !body.JObj? ==> IsStripped(r) && '\t' !in r
    ensures !body.JNull? && !body.JObj? ==>
              r == ReplaceAll(Strip(if body.JStr? then body.s else show(body)), "\t", "  ")
  {
    if body.JNull? then ""
    else if body.JObj? then dumpJson(body)
    else
      var s := Strip(if body.JStr? then body.s else show(body));
      StripIsStripped(if body.JStr? then body.s else show(body));
      ExpandTabsIsReplace(s);
      if '\t' in s then ExpandTabs(s) else s
  }

  /** Normalizing text that was already normalized changes nothing. */
  lemma NormalizeIdempotent(body: Json, dumpJson: Json -> string, show: Json -> string)
    requires !body.JNull? && !body.JObj?
    ensures var once := NormalizeForValidation(body, dumpJson, show);
            NormalizeForValidation(JStr(once), dumpJson, show) == once
  {
    var once := NormalizeForValidation(body, dumpJson, show);
    StripOfStripped(once);
  }

  /** Text with no tab and nothing to strip passes through unchanged. */
  lemma CleanTextUnchanged(s: string, dumpJson: Json -> string, show: Json -> string)
    requires IsStripped(s) && '\t' !in s
    ensures NormalizeForValidation(JStr(s), dumpJson, show) == s
  {
    StripOfStripped(s);
  }
}

=== FILE: websocket.dfy ===
/** deploy/lambda_websocket/handler.py: the WebSocket Lambda. It routes API
    Gateway events, calls one MCP tool through AgentCore synchronously and
    reports to the connection as a fixed sequence of messages: acknowledged,
    progress, then exactly one `response` or `error`. */
module WebSocket {
  import opened Wrappers
  import opened Text
  import opened Json
  import opened AgentCore

  /** The parts of an API Gateway event the handler reads: the route key
      (`None` when missing or not a string) and the raw body (`None` when the
      key is missing, read as `"{}"`). */
  datatype Event = Event(route: Option<string>, body: Option<string>)

  /** What lies outside the handler: the deployment's ARN and region, the
      signed HTTPS call (`None`: it raised), the JSON parser and Python's
      `str()` of a value that is neither a string nor `None`. */
  datatype Downstream = Downstream(
    arn: string,
    region: Option<string>,
    respond: (string, Json) -> Option<string>,
    parse: string -> Option<Json>,
    show: Json -> string)

  /** Why the handler's `try` block raised. */
  datatype Failure =
    | Transport   // the HTTPS call raised
    | BadJson     // `json.loads` raised on the tool's answer or its text
    | BadShape    // the answer was not shaped as the code indexes it

  /** What an `error` message carries: a value the server reported, or the
      text of an exception. */
  datatype ErrorValue = Reported(j: Json) | Exception(kind: Failure)

  /** One message posted to the connection. */
  datatype Message =
    | Acknowledged(requestId: Json, tool: Json)
    | Progress(requestId: Json, percent: int, text: string)
    | Response(requestId: Json, tool: Json, data: Json)
    | ErrorMessage(requestId: Json, error: ErrorValue)
  {
    predicate IsTerminal() {
      Response? || ErrorMessage?
    }
  }

  /** The JSON the connection receives for a message. */
  function MessageJson(m: Message): (r: Json)
    ensures r.JObj? && |r.fields| >= 3
    ensures r.fields[0].key == "type" && r.fields[1] == Entry("requestId", m.requestId)
  {
    match m
    case Acknowledged(id, tool) =>
      JObj([Entry("type", JStr("acknowledged")), Entry("requestId", id), Entry("tool", tool)])
    case Progress(id, percent, text) =>
      JObj([Entry("type", JStr("progress")), Entry("requestId", id),
            Entry("progress", JNum(percent as real)), Entry("message", JStr(text))])
    case Response(id, tool, data) =>
      JObj([Entry("type", JStr("response")), Entry("requestId", id), Entry("tool", tool),
            Entry("data", data), Entry("status", JStr("completed"))])
    case ErrorMessage(id, error) =>
      JObj([Entry("type", JStr("error")), Entry("requestId", id), Entry("error", ErrorJson(error))])
  }

  function ErrorJson(e: ErrorValue): Json {
    match e
    case Reported(j) => j
    case Exception(kind) => JStr(FailureText(kind))
  }

  /** `str(e)` is the library's text; a stand-in per kind. */
  function FailureText(kind: Failure): string {
    match kind
    case Transport => "transport error"
    case BadJson => "invalid JSON"
    case BadShape => "unexpected response shape"
  }

  /** The browser can tell the messages apart and match them to its request:
      the `type` and `requestId` fields are the first two of every message. */
  lemma MessageTagged(m: Message)
    ensures Get(MessageJson(m).fields, "type") == Some(JStr(TypeName(m)))
    ensures Get(MessageJson(m).fields, "requestId") == Some(m.requestId)
  {
    var f := MessageJson(m).fields;
    assert f[1..][0] == Entry("requestId", m.requestId);
    assert "type" != "requestId";
  }

  function TypeName(m: Message): string {
    match m
    case Acknowledged(_, _) => "acknowledged"
    case Progress(_, _, _) => "progress"
    case Response(_, _, _) => "response"
    case ErrorMessage(_, _) => "error"
  }

  /** Python's `str()` as the f-string `Calling {tool}...` uses it. */
  function ShowTool(tool: Json, show: Json -> string): string {
    match tool
    case JStr(s) => s
    case JNull => "None"
    case _ => show(tool)
  }

  /** handler.py:124: the progress text `Calling {tool}...`. */
  function CallingText(tool: Json, show: Json -> string): string {
    "Calling " + ShowTool(tool, show) + "..."
  }

  /** handler.py:156: the text sent when the answer holds no content. */
  const NoResult := "No result from MCP server"

  /** handler.py:38-87, `call_mcp_tool`: the parsed answer, or why it raised. */
  datatype Call = Answered(result: Json) | Failed(kind: Failure)

  function CallTool(w: Downstream, tool: Json, arguments: Json): (r: Call)
    ensures r.Failed? ==> r.kind == Transport || r.kind == BadJson
    ensures r.Failed? && r.kind == Transport <==> w.respond(McpUrl(w.region.GetOr(DefaultRegion), w.arn), RequestBody(tool, arguments)).None?
    ensures r.Answered? ==> ParseWith(WebSocketFraming, w.respond(McpUrl(w.region.GetOr(DefaultRegion), w.arn), RequestBody(tool, arguments)).value, w.parse) == Value(r.result)
  {
    match w.respond(McpUrl(w.region.GetOr(DefaultRegion), w.arn), RequestBody(tool, arguments))
    case None => Failed(Transport)
    case Some(text) =>
      match ParseWith(WebSocketFraming, text, w.parse)
      case Value(j) => Answered(j)
      case Raised => Failed(BadJson)
  }

  /** The terminal step: a message sent before `return 200`, or the
      exception that sends the `error` message of the handler's `except`. */
  datatype Step = Done(m: Message) | Fails(kind: Failure)

  /** `result.get('result', {})`: the answer's inner result, a dict when absent. */
  function InnerResult(fields: seq<Entry<Json>>): Json {
    Get(fields, "result").GetOr(JObj([]))
  }

  /** handler.py:130-157: the outcome mapping for the tool's answer. An
      `error` key is forwarded; otherwise a falsy `content` is reported as no
      result and a truthy one is decoded; anything the code cannot index
      ends in the `except`. */
  function Classify(id: Json, tool: Json, result: Json, parse: string -> Option<Json>): (r: Step)
    ensures r.Done? ==> r.m.IsTerminal() && r.m.requestId == id
    ensures r.Done? && r.m.ErrorMessage? ==> r.m.error.Reported?
    ensures !result.JObj? ==> r.Fails?
  {
    match PyContains(result, "error")
    case Raises => Fails(BadShape)
    case Ok(hasError) =>
      if hasError then
        (if result.JObj? then Done(ErrorMessage(id, Reported(Get(result.fields, "error").value)))
         else Fails(BadShape))
      else if !result.JObj? then Fails(BadShape)
      else
        var inner := InnerResult(result.fields);
        if !inner.JObj? then Fails(BadShape)
        else
          var content := Get(inner.fields, "content").GetOr(JNull);
          if !Truthy(content) then Done(ErrorMessage(id, Reported(JStr(NoResult))))
          else DataStep(id, tool, content, parse)
  }

  /** The outcome mapping in full: an `error` key is forwarded; a `result`
      that is not a dict raises; a falsy `content` is reported as no result;
      a truthy one goes to the decoding step. */
  lemma ClassifyMapping(id: Json, tool: Json, result: Json, parse: string -> Option<Json>)
    ensures var r := Classify(id, tool, result, parse);
      && (result.JObj? && HasKey(result.fields, "error") ==>
            r == Done(ErrorMessage(id, Reported(Get(result.fields, "error").value))))
      && (result.JObj? && !HasKey(result.fields, "error") && !InnerResult(result.fields).JObj? ==>
            r == Fails(BadShape))
      && (result.JObj? && !HasKey(result.fields, "error") && InnerResult(result.fields).JObj? ==>
            var content := Get(InnerResult(result.fields).fields, "content").GetOr(JNull);
            && (!Truthy(content) ==> r == Done(ErrorMessage(id, Reported(JStr(NoResult)))))
            && (Truthy(content) ==> r == DataStep(id, tool, content, parse)))
  {
  }

  /** `content[0]['text']` when the code can read it as a string. */
  function FirstText(content: Json): Option<string> {
    if content.JArr? && |content.items| > 0 && content.items[0].JObj?
       && Get(content.items[0].fields, "text").Some? && Get(content.items[0].fields, "text").value.JStr?
    then Some(Get(content.items[0].fields, "text").value.s)
    else None
  }

  /** Lines 141-151: `json.loads(content[0]['text'])` on a truthy `content`,
      sent as the response; indexing anything else raises. */
  function DataStep(id: Json, tool: Json, content: Json, parse: string -> Option<Json>): (r: Step)
    ensures r.Done? ==> r.m.Response? && r.m.requestId == id && r.m.tool == tool
  {
    if !content.JArr? || |content.items| == 0 || !content.items[0].JObj? then Fails(BadShape)
    else
      match Get(content.items[0].fields, "text")
      case None => Fails(BadShape)
      case Some(text) =>
        if !text.JStr? then Fails(BadShape)
        else
          match parse(text.s)
          case None => Fails(BadJson)
          case Some(data) => Done(Response(id, tool, data))
  }

  datatype Outcome = Outcome(status: int, sent: seq<Message>)

  /** handler.py:104-159 and 164-179 for a body that decoded to a dict. */
  function DefaultRoute(fields: seq<Entry<Json>>, w: Downstream): (r: Outcome)
    ensures |r.sent| == 3
    ensures r.sent[0] == Acknowledged(Get(fields, "id").GetOr(JNull), Get(fields, "tool").GetOr(JNull))
    ensures r.sent[1] == Progress(Get(fields, "id").GetOr(JNull), 10,
                                  CallingText(Get(fields, "tool").GetOr(JNull), w.show))
    ensures r.sent[2].IsTerminal() && r.sent[2].requestId == Get(fields, "id").GetOr(JNull)
    ensures r.status == 200 || r.status == 500
    ensures r.status == 500 <==> r.sent[2].ErrorMessage? && r.sent[2].error.Exception?
  {
    var id := Get(fields, "id").GetOr(JNull);
    var tool := Get(fields, "tool").GetOr(JNull);
    var arguments := Get(fields, "arguments").GetOr(JObj([]));
    var ack := Acknowledged(id, tool);
    var progress := Progress(id, 10, CallingText(tool, w.show));
    var step :=
      match CallTool(w, tool, arguments)
      case Answered(result) => Classify(id, tool, result, w.parse)
      case Failed(kind) => Fails(kind);
    match step
    case Done(m) => Outcome(200, [ack, progress, m])
    case Fails(kind) => Outcome(500, [ack, progress, ErrorMessage(id, Exception(kind))])
  }

  /** handler.py:89-179, `lambda_handler`. */
  function Handle(e: Event, w: Downstream): (r: Outcome)
    ensures e.route == Some("$connect") || e.route == Some("$disconnect") ==> r == Outcome(200, [])
    ensures e.route != Some("$connect") && e.route != Some("$disconnect") && e.route != Some("$default") ==> r == Outcome(400, [])
  {
    if e.route == Some("$connect") || e.route == Some("$disconnect") then Outcome(200, [])
    else if e.route == Some("$default") then
      match w.parse(e.body.GetOr("{}"))
      case Some(JObj(fields)) => DefaultRoute(fields, w)
      // `json.loads` raised, or `body.get` did: the `except` cannot read an
      // id either, and its bare `except` swallows the second error
      case _ => Outcome(500, [])
    else Outcome(400, [])
  }

  /** Number of terminal messages in a sequence. */
  function Terminals(ms: seq<Message>): nat {
    if |ms| == 0 then 0 else (if ms[0].IsTerminal() then 1 else 0) + Terminals(ms[1..])
  }

  lemma TerminalsOfThree(ms: seq<Message>)
    requires |ms| == 3 && !ms[0].IsTerminal() && !ms[1].IsTerminal() && ms[2].IsTerminal()
    ensures Terminals(ms) == 1
  {
    var tail := ms[1..];
    assert tail[0] == ms[1] && tail[1..] == [ms[2]];
    assert Terminals([ms[2]]) == 1 by {
      assert [ms[2]][1..] == [];
    }
    assert Terminals(tail) == 1;
  }

  /** A `$default` event sends messages exactly when its body decodes to a
      dict, and then acknowledged, progress and exactly one terminal message,
      all tagged with the body's `id`. */
  lemma DefaultSendsOneTerminal(e: Event, w: Downstream)
    requires e.route == Some("$default")
    ensures |Handle(e, w).sent| > 0 <==> w.parse(e.body.GetOr("{}")).Some? && w.parse(e.body.GetOr("{}")).value.JObj?
    ensures |Handle(e, w).sent| > 0 ==> Terminals(Handle(e, w).sent) == 1 && Handle(e, w).sent[0].Acknowledged?
    ensures |Handle(e, w).sent| == 0 ==> Handle(e, w).status == 500
  {
    var r := Handle(e, w);
    if |r.sent| > 0 {
      TerminalsOfThree(r.sent);
    }
  }

  /** The `error` message the handler's `except` sends. */
  predicate ReportsException(m: Message) {
    m.ErrorMessage? && m.error.Exception?
  }

  /** The status codes: 200 for the connection routes and a handled call,
      400 for any other route, 500 exactly when something raised. */
  lemma StatusCodes(e: Event, w: Downstream)
    ensures Handle(e, w).status in {200, 400, 500}
    ensures Handle(e, w).status == 400 <==> e.route !in {Some("$connect"), Some("$disconnect"), Some("$default")}
    ensures Handle(e, w).status == 500 <==>
              e.route == Some("$default") && (|Handle(e, w).sent| == 0 || ReportsException(Handle(e, w).sent[2]))
  {
  }

  /** The decoding step in full: content the code cannot index as
      `content[0]['text']` raises, text that does not decode raises, and
      decoded text is the response. */
  lemma DataStepMapping(id: Json, tool: Json, content: Json, parse: string -> Option<Json>)
    ensures FirstText(content).None? ==> DataStep(id, tool, content, parse) == Fails(BadShape)
    ensures FirstText(content).Some? ==>
              DataStep(id, tool, content, parse)
              == (if parse(FirstText(content).value).Some? then Done(Response(id, tool, parse(FirstText(content).value).value))
                  else Fails(BadJson))
  {
  }

  /** A tool answer that is not a JSON object always ends in the `except`:
      `'error' in result` raises on a number, a boolean or null, and on a
      list or a string, where it does not, `result['error']` or
      `result.get` does. */
  lemma NonObjectAnswerFails(id: Json, tool: Json, result: Json, parse: string -> Option<Json>)
    requires !result.JObj?
    ensures Classify(id, tool, result, parse) == Fails(BadShape)
  {
  }

  /** An answer with an `error` key is reported as it is. */
  lemma ErrorAnswerReported(id: Json, tool: Json, fields: seq<Entry<Json>>, parse: string -> Option<Json>)
    requires HasKey(fields, "error")
    ensures Classify(id, tool, JObj(fields), parse) == Done(ErrorMessage(id, Reported(Get(fields, "error").value)))
  {
  }

  /** An answer without `error` whose `result` is missing, or is a dict with
      a missing or falsy `content`, is reported as having no result. */
  lemma EmptyAnswerReported(id: Json, tool: Json, fields: seq<Entry<Json>>, parse: string -> Option<Json>)
    requires !HasKey(fields, "error")
    requires Get(fields, "result") == None ||
             (Get(fields, "result").value.JObj? && !Truthy(Get(Get(fields, "result").value.fields, "content").GetOr(JNull)))
    ensures Classify(id, tool, JObj(fields), parse) == Done(ErrorMessage(id, Reported(JStr(NoResult))))
  {
  }

  /** Any answer without `error` whose first content item holds the tool's
      result as JSON text delivers that result. */
  lemma ContentAnswerDelivered(id: Json, tool: Json, fields: seq<Entry<Json>>, items: seq<Json>,
                               text: string, data: Json, parse: string -> Option<Json>)
    requires !HasKey(fields, "error")
    requires Get(fields, "result").Some? && Get(fields, "result").value.JObj?
    requires Get(Get(fields, "result").value.fields, "content") == Some(JArr(items))
    requires |items| > 0 && items[0].JObj? && Get(items[0].fields, "text") == Some(JStr(text))
    requires parse(text) == Some(data)
    ensures Classify(id, tool, JObj(fields), parse) == Done(Response(id, tool, data))
  {
    assert FirstText(JArr(items)) == Some(text);
  }

  /** The shape of a successful `tools/call` answer whose one text item is
      the tool's result as JSON text. */
  function ToolAnswer(text: string): Json {
    JObj([Entry("jsonrpc", JStr("2.0")), Entry("id", JNum(1.0)),
          Entry("result", JObj([Entry("content", JArr([JObj([Entry("type", JStr("text")), Entry("text", JStr(text))])]))]))])
  }

  /** The outcome mapping reads back the data the tool returned. */
  lemma ToolAnswerClassified(id: Json, tool: Json, data: Json, text: string, parse: string -> Option<Json>)
    requires parse(text) == Some(data)
    ensures Classify(id, tool, ToolAnswer(text), parse) == Done(Response(id, tool, data))
  {
    var item := JObj([Entry("type", JStr("text")), Entry("text", JStr(text))]);
    var content := JArr([item]);
    var inner := JObj([Entry("content", content)]);
    var f2 := [Entry("result", inner)];
    var f1 := [Entry("id", JNum(1.0))] + f2;
    var f0 := [Entry("jsonrpc", JStr("2.0"))] + f1;
    assert ToolAnswer(text) == JObj(f0);
    assert f0[1..] == f1 && f1[1..] == f2;
    assert !HasKey(f0, "error") by {
      assert "jsonrpc" != "error" && "id" != "error" && "result" != "error";
      assert forall i | 0 <= i < |f0| :: f0[i].key in {"jsonrpc", "id", "result"};
    }
    assert Get(f0, "result") == Some(inner) by {
      assert "jsonrpc" != "result" && "id" != "result";
      assert Get(f1, "result") == Get(f2, "result");
    }
    assert Get(inner.fields, "content") == Some(content);
    assert Get(item.fields, "text") == Some(JStr(text)) by {
      assert item.fields[1..] == [Entry("text", JStr(text))];
      assert "type" != "text";
    }
  }

  /** End to end: when AgentCore answers a tool call with the event-framed
      tool answer, the connection receives acknowledged, progress and the
      tool's data, and the handler returns 200. */
  lemma ToolDataDelivered(e: Event, w: Downstream, fields: seq<Entry<Json>>, data: Json, text: string, answer: string)
    requires e.route == Some("$default") && w.parse(e.body.GetOr("{}")) == Some(JObj(fields))
    requires w.parse(text) == Some(data)
    requires w.parse(answer) == Some(ToolAnswer(text)) && '\n' !in answer
    requires w.respond(McpUrl(w.region.GetOr(DefaultRegion), w.arn),
                       RequestBody(Get(fields, "tool").GetOr(JNull), Get(fields, "arguments").GetOr(JObj([])))) == Some(Frame(answer))
    ensures Handle(e, w).status == 200
    ensures Handle(e, w).sent[2] == Response(Get(fields, "id").GetOr(JNull), Get(fields, "tool").GetOr(JNull), data)
  {
    var id := Get(fields, "id").GetOr(JNull);
    var tool := Get(fields, "tool").GetOr(JNull);
    FramedCallAnswered(w, tool, Get(fields, "arguments").GetOr(JObj([])), answer);
    ToolAnswerClassified(id, tool, data, text, w.parse);
    RouteDone(fields, w, Response(id, tool, data));
    HandleDefault(e, w, fields);
  }

  /** A `$default` event whose body decodes to a dict takes the tool route. */
  lemma HandleDefault(e: Event, w: Downstream, fields: seq<Entry<Json>>)
    requires e.route == Some("$default") && w.parse(e.body.GetOr("{}")) == Some(JObj(fields))
    ensures Handle(e, w) == DefaultRoute(fields, w)
  {
  }

  /** A framed answer the parser reads is the call's result. */
  lemma FramedCallAnswered(w: Downstream, tool: Json, arguments: Json, answer: string)
    requires w.respond(McpUrl(w.region.GetOr(DefaultRegion), w.arn), RequestBody(tool, arguments)) == Some(Frame(answer))
    requires w.parse(answer).Some? && '\n' !in answer
    ensures CallTool(w, tool, arguments) == Answered(w.parse(answer).value)
  {
    FramedAnswerRoundTrip(WebSocketFraming, answer, w.parse);
  }

  /** When the answer classifies as a message, the route sends it last and
      answers 200. */
  lemma RouteDone(fields: seq<Entry<Json>>, w: Downstream, m: Message)
    requires var c := CallTool(w, Get(fields, "tool").GetOr(JNull), Get(fields, "arguments").GetOr(JObj([])));
             c.Answered? && Classify(Get(fields, "id").GetOr(JNull), Get(fields, "tool").GetOr(JNull), c.result, w.parse) == Done(m)
    ensures DefaultRoute(fields, w).status == 200 && DefaultRoute(fields, w).sent[2] == m
  {
  }
}

=== FILE: wrappers.dfy ===
/** Optional values and the outcome of Python code that may raise. */
module Wrappers {

  datatype Option<+T> = None | Some(value: T) {
    function GetOr(default: T): T {
      match this
      case Some(v) => v
      case None => default
    }
  }

  /** The value a Python expression produced, or the fact that it raised.
      The exception's text is not modelled: no caller in the source
      inspects it except to log it or echo it. */
  datatype Try<+T> = Ok(value: T) | Raises {
    predicate IsFailure() {
      Raises?
    }

    function PropagateFailure<U>(): Try<U>
      requires Raises?
    {
      Raises
    }

    function Extract(): T
      requires Ok?
    {
      value
    }
  }
}
